=== FILE: README.md ===
# AI Spark import/export core, modelled in Dafny

This project models the core of the AI Spark import/export service. The
service takes export work orders for a media repository and writes its
transcript, events and comments as artifacts: JSON, CSV, SRT, WebVTT, CMX
3600 EDL and Final Cut Pro XML (xmeml and FCPXML). It also builds "selects"
EDLs from comment markers, splits a video into segments with handles, and
validates imported AI highlights before storing them.

Files and modules:

- `wrappers.dfy` holds `Wrappers`, the `Option` and `Result` types.
- `text.dfy` holds `Text` and `Paths`. These are the Python string rules the
  code relies on: `strip`, `split`, `join`, `zfill`-style padding, decimal
  digits and string ordering, plus the `Path.name` / `stem` / `suffix` rules.
- `json.dfy` holds `Json`, a JSON value with Python truthiness and `str()`.
- `jobs.dfy` holds `Jobs`, the shared job status.
- The artifact generator (`app/services/artifact_generator.py`) is split
  across several files:
  - `timecode.dfy`: SRT/VTT clock text, SMPTE timecodes, FCPX times and
    frame durations.
  - `stamporder.dfy`: why the VTT text order agrees with time order.
  - `segments.dfy`: transcript JSON, path cleaning and merging.
  - `subtitles.dfy`: SRT and VTT.
  - `edl.dfy`: events, insights and selects EDL.
  - `markers.dfy`: the xmeml and FCPXML marker timelines.
  - `csvrows.dfy`: CSV quoting and rows.
- `tasks.dfy` holds `Tasks`, the background-task rules: format dispatch,
  selects from comments, artifact records, split counters and import
  batching.
- `videosplit.dfy` holds `VideoSplit`, the segment windows and output file
  names of the video split client.
- `schemas.dfy` holds `Fields`, `ExportSchemas`, `VideoSplitSchemas` and
  `ImportSchemas`, the request schemas and their validators.
- `importservice.dfy` holds `ImportService`, the highlight checks and import
  job creation.
- `exportservice.dfy` holds `ExportService`, the EDL rule, the job response
  validation, status timestamps and how stored error messages are shown.
- `config.dfy` holds `Config`, the settings parsers.

The environment enters only as parameters:

- the `ffprobe` result is an `Option<Probe>`;
- `json.loads` is a function `string -> Option<Json>`;
- Python's float printing is a function `real -> string`;
- the two clock readings of `update_job_status` are two numbers;
- the generator method that the dispatcher looks up by name is a function
  from method name to result.

A Pydantic field that is absent, explicitly `null`, or given is a
`Fields.Field`.

## Model

| member | source | states |
|---|---|---|
| Timecode.FloorDivIsDivOfFloor | app/services/artifact_generator.py:1210-1216 | Python float `//` and `%` by 1, 60 or 3600 agree with integer division of the floor, with the fractional part carried by `%` |
| Timecode.SubtitleClock | app/services/artifact_generator.py:1210-1224 | the SRT/VTT clock fields are a proper base-60 split: minutes and seconds below 60, milliseconds below 1000, and hours, minutes and seconds recombine to the floor of the input |
| Timecode.VttIsSrtWithDot | app/services/artifact_generator.py:1210-1224 | a VTT time is the SRT time with the comma replaced by a dot |
| Timecode.SrtTimeExample | app/services/artifact_generator.py:1210-1216 | 3661.25 s prints as 01:01:01,250 in SRT and 01:01:01.250 in VTT |
| Timecode.SmpteClock | app/services/artifact_generator.py:732-743 | `seconds_to_timecode` fields: minutes and seconds below 60, the total seconds are the input truncated toward zero, and for non-negative seconds the frame field is the floor of the fractional part times fps, below fps when fps is positive |
| Timecode.SelectsClock | app/services/artifact_generator.py:1226-1232 | `_seconds_to_timecode` fields are a base-60 split of the floor, with the frame field below fps |
| Timecode.ClocksAgree | app/services/artifact_generator.py:732-743 | for non-negative seconds the two timecode routines compute the same fields |
| Timecode.TimecodeVariantsAgree | app/services/artifact_generator.py:1226-1232 | for non-negative seconds the two timecode routines print the same text |
| Timecode.SmpteExample | app/services/artifact_generator.py:732-743 | 5 s at the EDL frame rate prints as 00:00:05:00 |
| Timecode.FrameDurationSwaps | app/services/artifact_generator.py:1237-1239 | a rate "num/den" gives the frame duration "den/nums" |
| Timecode.FrameDurationNeedsOneSlash | app/services/artifact_generator.py:1237-1239 | a rate without exactly one slash fails to unpack |
| Timecode.RoundHalfEven | app/services/artifact_generator.py:323-324 | Python `round` gives an integer within one half of the input, and the even one on a tie |
| Timecode.RoundHalfEvenUnique | app/services/artifact_generator.py:323-324 | any integer with those two properties is the result of `round` |
| Timecode.Decimal | app/services/artifact_generator.py:1234-1235 | a fixed-point rendering has a point followed by p digits, and the digit strings on either side read back as the scaled value |
| Timecode.Fixed | app/services/artifact_generator.py:1234-1235 | the text is a minus sign exactly for negative x, followed by the digits of Python's round of \|x\|·10^N with a point before the last N digits |
| Timecode.Scaled | app/services/artifact_generator.py:1234-1235 | the scaled magnitude is Python's round of \|x\|·10^N: within one half of it, and even on a tie |
| Timecode.FixedReadsBack | app/services/artifact_generator.py:1234-1235 | the digits of `f"{x:.Nf}"`, read as a decimal, give back round(\|x\|·10^N): whole part times 10^N plus the N fraction digits |
| Timecode.FixedExample | app/services/artifact_generator.py:1234-1235 | 2.5 with two places prints as 2.50 |
| StampOrder.Pad2Order | app/services/artifact_generator.py:1210-1224 | two-digit zero-padded fields compare as text exactly as the numbers compare |
| StampOrder.Pad3Order | app/services/artifact_generator.py:1210-1224 | three-digit zero-padded fields compare as text exactly as the numbers compare |
| StampOrder.StampTextOrder | app/services/artifact_generator.py:1218-1224 | VTT clock texts compare as strings exactly as the clocks compare field by field |
| StampOrder.ClockLessIsMillis | app/services/artifact_generator.py:1218-1224 | field-by-field clock order is the order of total milliseconds |
| StampOrder.SubtitleClockMillis | app/services/artifact_generator.py:1210-1224 | the clock fields of a time recombine to its floor in milliseconds |
| StampOrder.VttOrderIsNumeric | app/services/artifact_generator.py:139-141 | below 100 hours, the string test `start >= end` on VTT stamps is the numeric test on whole milliseconds |
| Segments.Clean | app/services/artifact_generator.py:71-77 | cleaning removes `fullPath` and changes nothing else; every further key, such as the `confidenceScore` and `positions` of a fetched event (app/client/fabric_client.py:108-109), is kept with its value |
| Segments.CleanSegments | app/services/artifact_generator.py:71-77 | every segment is cleaned, in order, with the same count |
| Segments.CleanIdempotent | app/services/artifact_generator.py:71-77 | cleaning twice is cleaning once |
| Segments.CleanOnlyDropsPath | app/services/artifact_generator.py:71-77 | two lists with the same cleaned form differ only in `full_path` |
| Segments.MinStart | app/services/artifact_generator.py:48-65 | the merged start is a lower bound of every start (missing as 0) and is one of them |
| Segments.MaxEnd | app/services/artifact_generator.py:48-65 | the merged end is an upper bound of every end (missing as 0) and is one of them |
| Segments.TextPiecesFrom | app/services/artifact_generator.py:48-65 | every merged text piece is the stripped text of a segment with non-empty text |
| Segments.TextPiecesAppend | app/services/artifact_generator.py:48-65 | the pieces of a concatenation are the concatenated pieces |
| Segments.Merge | app/services/artifact_generator.py:48-65 | the merged segment has id "1" and type "transcript", joins the texts, starts at the least start and ends at the largest end (missing as 0), and has no path, source or metadata |
| Segments.TranscriptJson | app/services/artifact_generator.py:28-92 | single-segment mode on a non-empty input gives exactly the one merged segment; otherwise output i is input i cleaned, with the same count; no output keeps a path |
| Segments.MergeTwo | app/services/artifact_generator.py:48-65 | merging two segments gives the space-joined stripped texts, the smaller start and the larger end |
| Subtitles.RenderCuesAppend | app/services/artifact_generator.py:105-113 | rendering cues distributes over concatenation |
| Subtitles.SrtCues | app/services/artifact_generator.py:105-113 | SRT succeeds iff every segment has start and end; then one cue per segment, numbered from 1, with its times and text |
| Subtitles.SrtFailureNamesFirstMissing | app/services/artifact_generator.py:105-113 | a failing SRT reports the missing key of the first bad segment |
| Subtitles.ShownIsTimeOrder | app/services/artifact_generator.py:139-141 | a cue is shown exactly when its start is numerically before its end, to the millisecond |
| Subtitles.KeptCuesMembers | app/services/artifact_generator.py:128-152 | a cue is kept exactly for the segments that pass the filter, with the segment's own index as id |
| Subtitles.KeptCuesNoStray | app/services/artifact_generator.py:128-152 | a segment that fails the filter contributes no cue |
| Subtitles.KeptCuesIncreasing | app/services/artifact_generator.py:128-152 | kept cue ids strictly increase |
| Subtitles.VttCuesShown | app/services/artifact_generator.py:128-141 | every VTT cue has non-empty text and a start before its end |
| Subtitles.VttCueIds | app/services/artifact_generator.py:128-152 | a segment yields a VTT cue iff it has text and a non-empty range, and the cue keeps the segment's 1-based position as id |
| Subtitles.VttCuesListed | app/services/artifact_generator.py:128-152 | the cues the loop writes meet the description: cue i+1 exactly for each kept segment i, only those, with increasing ids |
| Subtitles.IncreasingSameCues | app/services/artifact_generator.py:128-152 | two cue lists with increasing ids and the same members are equal |
| Subtitles.VttCueListUnique | app/services/artifact_generator.py:128-152 | any cue list that meets the description is the list the loop writes |
| Subtitles.TranscriptVttAsWritten | app/services/artifact_generator.py:118-153 | the VTT method fails exactly on an empty segment list; otherwise it is the header followed by the rendered cues of a list in which segment i gives cue i+1 exactly when it is kept, and the cues follow the segments' order |
| Subtitles.TranscriptVtt | app/services/artifact_generator.py:118-153 | the intended VTT output always starts with the header and agrees with the written code on non-empty input |
| Subtitles.VttEmptyTranscript | app/services/artifact_generator.py:118-153 | on no segments the written code fails while the intended output is the bare header |
| Edl.Edits | app/services/artifact_generator.py:685-717 | the edits exist iff every segment is timed; record-in starts at the cursor and each record-out is the next record-in |
| Edl.RecordInIsPrefixSum | app/services/artifact_generator.py:685-717 | the k-th record-in is the cursor plus the durations of the first k segments |
| Edl.RecordCursorMonotone | app/services/artifact_generator.py:685-717 | with non-negative durations the record-in never moves backwards |
| Edl.EditRowFields | app/services/artifact_generator.py:698-701 | an edit line splits at spaces into number, reel, track, cut and the four timecodes |
| Edl.EditLineTimecodes | app/services/artifact_generator.py:698-701 | the four timecodes of an edit line can be read back from their fixed positions |
| Edl.Block | app/services/artifact_generator.py:698-711 | an event block has the edit line, the clip line, one note per present field, and a blank line |
| Edl.BlockNoteAt | app/services/artifact_generator.py:706-711 | a present field appears as its tagged note line |
| Edl.BlockLacksNote | app/services/artifact_generator.py:706-711 | an absent or empty field has no note line with its tag |
| Edl.BlockHasNoteIff | app/services/artifact_generator.py:706-711 | a block has a note with a field's tag iff that field is present |
| Edl.InsightsRelabelsId | app/services/artifact_generator.py:980 | the insights block is the events block with only the id note relabelled |
| Edl.EdlText | app/services/artifact_generator.py:661-730 | the EDL text exists iff every segment is timed and otherwise fails with the name of a missing key; on success it is the title header followed by the blocks of the segments, each with its own edit line, joined by newlines |
| Edl.EditAt | app/services/artifact_generator.py:685-717 | edit k is numbered k+1, has the segment's start and end as source range and records from the total duration of the segments before it to that plus its own duration |
| Edl.BlocksAt | app/services/artifact_generator.py:698-711 | the blocks of all segments are the blocks before k, the block of segment k with its edit line, and the blocks after k |
| Edl.EdlTextEdit | app/services/artifact_generator.py:661-730 | the EDL of timed segments holds, for segment k, a block whose edit line is edit k+1 with the segment's source range and its running record range |
| Edl.EdlFailureNamesFirstMissing | app/services/artifact_generator.py:685-717 | the failure names the missing key of the first untimed segment |
| Edl.SelectsEdl | app/services/artifact_generator.py:1008-1034 | the selects EDL is its header for no selects, and one more select appends exactly that select's entry after the rest |
| Edl.SelectEntryRepeatsRange | app/services/artifact_generator.py:1008-1034 | a select entry's first line is its start and end timecodes written twice, as source range and record range |
| Markers.FallbackDuration | app/services/artifact_generator.py:312-320 | without a probe the duration is the largest end (1 s for no segments), and it fails on a segment without an end |
| Markers.ProbeFps | app/services/artifact_generator.py:303-308 | a probed rate with a slash but not exactly one fails to unpack |
| Markers.ProbeFpsFraction | app/services/artifact_generator.py:303-308 | a rate "num/den" gives the rounded quotient |
| Markers.ProbeFpsZeroDen | app/services/artifact_generator.py:303-308 | a zero denominator fails with a division by zero |
| Markers.XMarkerOf | app/services/artifact_generator.py:406-417 | the marker carries the segment's label, its in frame is the start (0 if missing) in frames, within half a frame of start times fps, and its out frame is the end in frames, or the in frame when there is no end |
| Markers.XMarkers | app/services/artifact_generator.py:406-417 | one marker per segment, in order |
| Markers.TranscriptTimeline | app/services/artifact_generator.py:290-459 | without a probe the timeline exists iff every segment has an end, uses 25 fps at 1920x1080, and holds one marker per segment |
| Markers.EmptyTimeline | app/services/artifact_generator.py:312-320 | no segments and no probe give an empty 25 fps timeline |
| Markers.FallbackCoversSegments | app/services/artifact_generator.py:312-320 | the fallback duration is at least every segment's end |
| Markers.ToFramesMonotone | app/services/artifact_generator.py:323-324 | converting seconds to frames keeps order |
| Markers.MarkerInBeforeOut | app/services/artifact_generator.py:406-417 | a marker whose start is not after its end has its in frame not after its out frame |
| Markers.MarkersKeepOrder | app/services/artifact_generator.py:406-417 | segments in start order give markers in in-frame order |
| Markers.LabelCarriesText | app/services/artifact_generator.py:406-417 | a marker's label carries the segment's type |
| Markers.FMarkerOf | app/services/artifact_generator.py:626-645 | an FCPXML marker starts at the segment start, has zero duration without an end, and never has a negative duration |
| Markers.EventsTimeline | app/services/artifact_generator.py:524-659 | the FCPXML timeline exists iff every segment has an end (no probe) or the probed rate has one slash; one marker per segment; 1/25s by default |
| Markers.MarkerDurationText | app/services/artifact_generator.py:626-645 | a marker duration never prints with a minus sign |
| CsvRows.DoubleQuotes | app/services/artifact_generator.py:492-522 | doubling quotes adds one character per quote |
| CsvRows.Quote | app/services/artifact_generator.py:492-522 | a field that needs no quoting is kept as is; otherwise it is wrapped in quotes |
| CsvRows.UndoubleDouble | app/services/artifact_generator.py:492-522 | undoubling the doubled quotes restores the field |
| CsvRows.QuoteRoundTrip | app/services/artifact_generator.py:492-522 | a quoted field can be read back exactly |
| CsvRows.InsightsCells | app/services/artifact_generator.py:775-796 | an insights row is the events row followed by the source cell |
| CsvRows.InsightsIgnoresMetadata | app/services/artifact_generator.py:790 | segments that differ only in metadata and path give the same insights row |
| CsvRows.NoRows | app/services/artifact_generator.py:492-522 | no segments give only the header line |
| CsvRows.CsvTextSnoc | app/services/artifact_generator.py:492-522 | one more segment adds exactly its line at the end of the file |
| CsvRows.EventsCsv | app/services/artifact_generator.py:492-522 | a payload without a segment list, or with an empty one, gives only the header line; each further segment appends exactly its own line |
| CsvRows.InsightsCsv | app/services/artifact_generator.py:775-796 | insights CSV fails exactly on a null or non-object payload; a missing key or an empty list gives only the header; each further segment appends exactly its own line |
| CsvRows.InsightsExtendsEvents | app/services/artifact_generator.py:775-796 | an insights line is the events line plus the source cell |
| CsvRows.RowFieldsRecoverable | app/services/artifact_generator.py:775-796 | cells without commas split back from their joined line |
| Tasks.DispatchWith | app/background/tasks.py:487-538 | an unsupported format gives the "Unsupported" status; otherwise the generator's result or its error is reported; success iff an artifact |
| Tasks.CommentsAlwaysFailAsWritten | app/background/tasks.py:523-538 | the comments dispatcher fails on every supported format because the method it names does not exist |
| Tasks.IntendedMethodsExist | app/background/tasks.py:523-538 | dispatching comments to the insights methods always names an existing method and reports its result |
| Tasks.IntendedKeepsOthers | app/background/tasks.py:487-522 | the fix changes nothing for transcript and events |
| Tasks.IntendedCommentsEdlIsText | app/services/artifact_generator.py:935-1005 | once comments reach the insights methods, the comments EDL reports the EDL text itself as the artifact path, and the record names a "file" that is that whole text |
| Tasks.IntendedCommentsEdlReports | app/background/tasks.py:523-538 | whatever the insights EDL method returns is reported as the artifact |
| Tasks.IntendedCommentsEdlRecordsPath | app/background/tasks.py:558-582 | an insights EDL method that returns its file path gives a record naming that file under the spark's folder |
| Tasks.Section | app/background/tasks.py:98-117 | each requested format gives either an artifact or an error status |
| Tasks.Kept | app/background/tasks.py:541-551 | the selects are exactly the comments with both start and end |
| Tasks.SortByStart | app/background/tasks.py:552 | sorting gives a start-ordered permutation |
| Tasks.SortStable | app/background/tasks.py:552 | sorting keeps the original order among equal starts |
| Tasks.Selects | app/background/tasks.py:541-555 | selects are start-ordered, a permutation of the kept comments, and stable |
| Tasks.SelectsOf | app/background/tasks.py:541-555 | a list holding a non-dict item gives no selects |
| Tasks.SelectsOfComments | app/background/tasks.py:541-555 | a list of comment dicts gives their selects |
| Tasks.SelectsAreNamed | app/background/tasks.py:551 | every select carries a label entry |
| Tasks.SelectsAsWrittenEmpty | app/background/tasks.py:120-121 | passing the comments payload dict always gives no selects |
| Tasks.ReadAsWritten | app/background/tasks.py:545-551 | a fetched comment read with `start_time`, `end_time` and `label` has no range |
| Tasks.ReadIntended | app/client/fabric_client.py:139-149 | a fetched comment read with `start`, `end` and `eventValue` has a range |
| Tasks.KeptNone | app/background/tasks.py:545-549 | comments without a range are all skipped |
| Tasks.KeptAll | app/background/tasks.py:545-551 | comments that all have a range are all projected, in order |
| Tasks.KeptIntended | app/client/fabric_client.py:139-149 | every fetched comment read with its own keys gives its select, in order |
| Tasks.SelectsFromListAsRead | app/background/tasks.py:541-555 | passing the payload's list alone still gives no selects, because fetched comments lack the keys read |
| Tasks.SelectsFromPayload | app/background/tasks.py:120-121 | read from the payload's list with the keys fetched comments carry, every comment gives one select, the selects are sorted by start, a permutation of the field-by-field projections, and stable among equal starts |
| Tasks.SelectsPayloadCounterexample | app/background/tasks.py:120-121 | one fetched comment with start 1.0 and end 2.0 gives no select as written, none from the list alone, and one select when read with its own keys |
| Tasks.SelectsSection | app/background/tasks.py:120-125 | the selects section writes one artifact per "edl" entry and nothing for any other format |
| Tasks.SelectsFcpxmlIgnored | app/background/tasks.py:120-125 | selects in FCPXML alone pass the schema but write no artifact |
| Tasks.CreateArtifactRecord | app/background/tasks.py:558-582 | no record exactly for a missing or empty path; the file name has no slash; type and format are kept; a missing size is 0 |
| Tasks.RecordNamesFile | app/background/tasks.py:558-582 | the record names the last path component and its URL is base/spark id/file |
| Tasks.SuccessesAll | app/background/tasks.py:363-432 | successes never exceed attempts, and equal them iff every attempt succeeds |
| Tasks.SplitCounters | app/background/tasks.py:363-432 | successes plus failures count the attempts, processed counts individual segments, and the job completes iff every attempt succeeds |
| Tasks.ImportTotals | app/background/tasks.py:222-266 | batches have sizes in 1..1000 summing to the total, the totals add up the batch results, and the error is the last batch's |
| Tasks.BatchCount | app/background/tasks.py:222-266 | the batch count is the ceiling of total over the batch size |
| VideoSplit.SegmentTimes | app/client/video_split_client.py:77-87 | the window is clamped to 0 and to the duration, widened by the handle, and its duration is end minus start |
| VideoSplit.WindowContainsSegment | app/client/video_split_client.py:77-87 | with a non-negative handle the window contains the segment and lies in the video |
| VideoSplit.ZeroHandleIsExact | app/client/video_split_client.py:77-87 | a zero handle gives the segment itself |
| VideoSplit.HandleWidens | app/client/video_split_client.py:77-87 | a larger handle never gives a smaller window |
| VideoSplit.SafeLabel | app/client/video_split_client.py:221-223 | the label keeps only ASCII letters, digits, `-` and `_`, is no longer than its input, is empty exactly when the input has no such character, and each of its characters is one of the input's or `_` standing for an input space |
| VideoSplit.FromKeptFrom | app/client/video_split_client.py:222-223 | after stripping and replacing, each character is a kept one or `_` for a kept space |
| VideoSplit.SafeLabelFrom | app/client/video_split_client.py:221-223 | each label character is one of the input's, or `_` for an input space |
| VideoSplit.KeepChars | app/client/video_split_client.py:222 | the filter keeps only letters, digits, space, `-` and `_` and is no longer than its input |
| VideoSplit.KeepCharsMembers | app/client/video_split_client.py:222 | every kept character comes from the input, and every input character the filter accepts is kept |
| VideoSplit.KeepCharsAppend | app/client/video_split_client.py:222 | filtering a concatenation filters each part |
| VideoSplit.FromKeptSafe | app/client/video_split_client.py:222-223 | stripping the filtered characters and replacing spaces leaves only safe characters |
| VideoSplit.KeptAllSpace | app/client/video_split_client.py:222 | the filtered characters are all whitespace exactly when no input character is safe |
| VideoSplit.SafeLabelEmpty | app/client/video_split_client.py:221-223 | the cleaned label is empty exactly when no input character is safe |
| VideoSplit.SafeLabelDropsUnkept | app/client/video_split_client.py:222 | a character the filter drops can be removed beforehand without changing the label |
| VideoSplit.SafeLabelJoinsWords | app/client/video_split_client.py:222-223 | two safe words around one space become the words joined by `_` |
| VideoSplit.SafeLabelKeepsSafe | app/client/video_split_client.py:211-227 | a label of safe characters is unchanged |
| VideoSplit.SafeLabelIdempotent | app/client/video_split_client.py:211-227 | cleaning a label twice is cleaning it once |
| VideoSplit.OutputFilename | app/client/video_split_client.py:211-227 | the name starts with stem, underscore and index and ends with the source suffix |
| VideoSplit.IndexFieldReads | app/client/video_split_client.py:211-227 | the zero-padded index reads back as the index and has three digits below 1000 |
| VideoSplit.NoLabelPart | app/client/video_split_client.py:211-227 | without a label the name is prefix plus time tail |
| VideoSplit.EmptyLabelIsNoLabel | app/client/video_split_client.py:211-227 | an empty label is treated as no label |
| VideoSplit.LabelPart | app/client/video_split_client.py:211-227 | a label is inserted, cleaned, between prefix and tail |
| Fields.WithDefault | app/schemas/export_schemas.py:28-29 | an absent field takes its default, a given one its value, and an explicit null is rejected |
| Fields.Required | app/schemas/export_schemas.py:98 | a required field succeeds exactly when given |
| ExportSchemas.FirstOutside | app/schemas/export_schemas.py:19-23 | no entry is reported iff every entry is allowed |
| ExportSchemas.ValidateFormats | app/schemas/export_schemas.py:13-23 | a format list is accepted iff it is non-empty with only allowed formats, and is kept |
| ExportSchemas.ParseOutputFormats | app/schemas/export_schemas.py:11-23 | output formats parse iff given and valid; a missing single-segment flag is false |
| ExportSchemas.ParseSelects | app/schemas/export_schemas.py:26-38 | selects parse iff nothing is null and given formats are EDL or FCPXML; given values are kept; the defaults are off and both formats |
| ExportSchemas.DefaultSelectsAllowed | app/schemas/export_schemas.py:29-38 | the default selects formats pass their own validator |
| ExportSchemas.ParseSubclips | app/schemas/export_schemas.py:46-59 | subclips parse iff nothing is null, a given handle is in 0..30 and given sources are allowed; given values are kept; the defaults are on, both sources and 2 s |
| ExportSchemas.ParseMetadata | app/schemas/export_schemas.py:87-92 | metadata parses iff preset and mode are not null and a given mode is one of the five; given preset and mode are kept, the requester is kept or none; preset and mode default to editorial |
| ExportSchemas.ParseExportInputs | app/schemas/export_schemas.py:68-70 | the inputs part parses iff its event ids are not null; given ids are kept and missing ones default to none |
| ExportSchemas.ParseUserInputs | app/schemas/export_schemas.py:72-75 | the prompt is kept when given and none otherwise; the LLM-instructions flag is on when missing, none when null and kept when given |
| ExportSchemas.ParseMedia | app/schemas/export_schemas.py:62-65 | the media part parses iff the proxy flag is not null and its subclips part parses; the subclips are kept and the proxy is on only when given as true |
| ExportSchemas.DefaultMedia | app/schemas/export_schemas.py:46-65 | a missing subclips part is on, with both sources and a 2 s handle, and a missing media part has no proxy and those subclips |
| ExportSchemas.ParseWorkOrder | app/schemas/export_schemas.py:95-103 | the order parses iff its version is not null, its repository id has 1..255 characters and its inputs, user inputs, outputs, media and metadata all parse; the parsed order holds exactly the given id and parts; the version defaults to 1.0 |
| ExportSchemas.OrderHandleBounded | app/schemas/export_schemas.py:95-103 | every parsed order has a subclip handle of 0..30 s, and a given handle outside that range refuses the whole order |
| VideoSplitSchemas.ParseInputs | app/schemas/video_split_schemas.py:11-14 | inputs parse iff the video path is given and non-empty; event ids default to none |
| VideoSplitSchemas.ParseOutputs | app/schemas/video_split_schemas.py:16-20 | each missing flag is false and a flag is true only when given as true |
| VideoSplitSchemas.ParseWorkOrder | app/schemas/video_split_schemas.py:22-31 | the order parses iff nothing required is null, the repository id has 1..255 characters, the inputs parse, a given handle is non-negative and a given requester has at most 255 characters; given values are kept; defaults 0, "copy" and 1.0 |
| ImportSchemas.Confidence | app/schemas/import_schemas.py:28 | a present confidence lies in 0..100 |
| ImportSchemas.ParseEvidence | app/schemas/import_schemas.py:19-22 | evidence accepts only its own key, with a list of strings |
| ImportSchemas.ParseHighlight | app/schemas/import_schemas.py:24-37 | a parsed highlight has no unknown keys, an end after its start and a confidence in range |
| ImportSchemas.ParseAsset | app/schemas/import_schemas.py:40-44 | an asset parses iff it is an object with only its two keys, each a string, and holds those two strings |
| ImportSchemas.ParseHighlights | app/schemas/import_schemas.py:49 | the list parses iff every element parses, keeping order |
| ImportSchemas.ParseWorkOrder | app/schemas/import_schemas.py:46-58 | a work order parses iff it is an object without unknown keys, with the fixed schema version, a valid asset and a non-empty valid highlight list; it holds that asset and those highlights, each valid |
| ImportSchemas.EvidenceRoundTrip | app/schemas/import_schemas.py:19-22 | dumped evidence parses back to itself |
| ImportSchemas.HighlightRoundTrip | app/schemas/import_schemas.py:24-37 | a valid highlight, dumped, parses back to itself |
| ImportService.MessagesDistinct | app/services/import_service.py:111-128 | each rule's message identifies the rule |
| ImportService.Checks | app/services/import_service.py:111-128 | a highlight has no errors iff it breaks no rule, and has at most three |
| ImportService.ChecksExact | app/services/import_service.py:111-128 | a rule's error is reported iff the highlight breaks it |
| ImportService.ChecksOrdered | app/services/import_service.py:111-128 | errors name their own rule and come in the order the rules are checked |
| ImportService.AllChecksEmpty | app/services/import_service.py:103-136 | the list has no errors iff every highlight is clean |
| ImportService.AllChecksAppend | app/services/import_service.py:103-136 | errors of a concatenation are the errors of each part, with indices shifted |
| ImportService.ViolationReported | app/services/import_service.py:111-128 | a broken rule of highlight k is reported with index k |
| ImportService.Convert | app/services/import_service.py:103-110 | conversion succeeds iff every entry converts, keeping order |
| ImportService.ValidateHighlights | app/services/import_service.py:103-136 | a conversion failure gives the single unexpected error; otherwise the rule errors; no errors iff all clean |
| ImportService.RangeRuleUnreachable | app/services/import_service.py:117-121 | schema-valid highlights never get the range error |
| ImportService.KnownMessages | app/services/import_service.py:111-128 | every rule error carries one of the three messages |
| ImportService.StoreAll | app/services/import_service.py:58-69 | one stored row per highlight, in order |
| ImportService.CreateImportJob | app/services/import_service.py:28-95 | no job iff an entry fails to convert; the job has failed iff there are errors, which are stored; otherwise it is pending; highlights stored in order |
| ImportService.UnexpectedErrorNeverStored | app/services/import_service.py:41-55 | when every entry converts a job is created, and its stored errors never include the unexpected-error entry |
| ImportService.StoredZeroConfidence | app/services/import_service.py:58-69 | a stored confidence is 0 iff it was missing or zero |
| ExportService.StoredJob | app/services/export_service.py:44-59 | no row iff the transcript asks for EDL; otherwise a pending row with the order's repository, mode, preset and requester, not yet started, finished or failed |
| ExportService.ToResponse | app/services/export_service.py:282-301 | the response validates iff every field `ExportJobResponse` declares without a default (app/schemas/export_schemas.py:127-137) is supplied, and then carries the job; otherwise a missing required field is reported |
| ExportService.ResponseLacksSparkId | app/services/export_service.py:284-301 | the dict `_to_response` builds lacks exactly one required field, `spark_id`; adding it supplies them all |
| ExportService.CreateExportJobWith | app/services/export_service.py:32-67 | the stored row is StoredJob's; the call returns a job iff one was stored and its response validates, and then returns that job |
| ExportService.CreateExportJob | app/services/export_service.py:32-67 | as written: a row is stored exactly when the EDL rule passes, and the call returns nothing for every order |
| ExportService.IntendedCreateExportJob | app/services/export_service.py:32-67 | with `spark_id` supplied the call returns exactly the job it stored, and nothing iff the EDL rule refused the order |
| ExportService.GetExportJobWith | app/services/export_service.py:86-106 | a job is returned iff one is found and its response validates, and it is the found job |
| ExportService.ListExportJobsWith | app/services/export_service.py:111-127 | with every required field supplied the listing is the jobs found; otherwise it is empty |
| ExportService.ReadersAsWritten | app/services/export_service.py:86-127 | as written a found job is never returned and a listing is always empty; with `spark_id` supplied both return the stored jobs |
| ExportService.TranscriptEdlPassesSchemaOnly | app/services/export_service.py:72-81 | a transcript EDL request passes the schema and is refused by the service |
| ExportService.UpdateJobStatus | app/services/export_service.py:132-166 | found iff a job; status, message and update time are set; details kept iff non-empty; processing sets the start once; finishing sets the end; nothing else changes |
| ExportService.StartKept | app/services/export_service.py:149-153 | a start time once set never changes |
| ExportService.ProcessThenFinish | app/services/export_service.py:149-157 | processing then finishing keeps the first start and records the finish |
| ExportService.TruthyTexts | app/services/export_service.py:304-317 | kept texts are non-empty and none are kept iff no item is truthy |
| ExportService.JoinNonEmpty | app/services/export_service.py:304-317 | joining non-empty texts is empty only for no texts |
| ExportService.ParseErrorMessage | app/services/export_service.py:304-317 | never the empty text; nothing for nothing; text that is not JSON as is; a string itself; a list its truthy items joined by " \| "; other values their `str` |
| ExportService.StoredListShown | app/services/export_service.py:304-317 | a stored list shows its non-empty texts joined |
| ExportService.NullShownAsNone | app/services/export_service.py:304-317 | a stored JSON null shows as "None" |
| Config.CommaList | app/core/config.py:66-71 | a comma list has one item more than commas; item i is the i-th comma part stripped, with no commas and no surrounding spaces |
| Config.StripEach | app/core/config.py:69 | each item is stripped |
| Config.CommaListRoundTrip | app/core/config.py:66-76 | items without commas or surrounding spaces, joined by commas, read back |
| Config.ParseCorsOrigins | app/core/config.py:66-71 | a string becomes the list of its comma items; any other value is unchanged |
| Config.CorsRoundTrip | app/core/config.py:66-71 | origins written as one string read back as the same list |
| Config.CorsDefaultsRoundTrip | app/core/config.py:61-71 | the default origins, written as one string, read back |
| Config.AllowedImportFormatsList | app/core/config.py:73-76 | the formats list has one item per comma-separated part, each that part stripped of surrounding whitespace, with no commas |
| Config.DefaultImportFormats | app/core/config.py:49-76 | the default setting lists JSON and CSV |
| Config.DatabaseUrl | app/core/config.py:78-80 | the URL is the async SQLite scheme followed by the path, which reads back |
| Config.DefaultDatabaseUrl | app/core/config.py:42-80 | the default URL names the default database file |

## Left out

- File and directory writing, XML building and pretty-printing, and the `ffprobe` subprocess are not modelled. The probe is an input, and the artifact text stands for the written file.
- Python's printing of floats (`str(float)`, `repr`) is not modelled. It enters as a function parameter wherever numbers become text.
- `timedelta` rounding to microseconds is not modelled. Times are exact reals.
- Database sessions, commits and rollbacks are not modelled, nor are exceptions other than the ones that change a returned value. Failures the code logs and swallows are modelled through their effect.
- `get_import_job`, the import list-by-repository query, `save_manifest`, `save_artifacts` and the LLM prompt get/update are not modelled. They read and write rows without rules of their own. The export readers `get_export_job` and `get_export_jobs_by_repo` are modelled only through `_to_response`; the database query, the ordering and limit of the listing, and the manifest `get_export_job` attaches are not.
- ExportService.ToResponse: only which required fields the dict supplies is modelled. The field values are the job's, and the type checks Pydantic applies to them (a UUID, a datetime) are not modelled.
- `generate_grounding_prompt` and `generate_llm_instructions` are not modelled. They write fixed text.
- The export, import and video-split routes, the fabric client's database queries, logging and `main.py` are context. They are not part of this model. Only the shape of a fetched comment (app/client/fabric_client.py:139-149) is modelled, as `Tasks.FetchedComment`.
- Reading settings from the environment and `.env` is not modelled. The parsers are applied to the value read.
- `requested_at` in the export metadata is not modelled, because its default is a clock reading.
- Pydantic's lax coercion and its error texts are not modelled. Values of the wrong type are rejected.
- ExportSchemas.ParseMetadata: the `^(editorial|llm|review|promo|custom)$` pattern is modelled as membership of the five modes. Pydantic's Rust regex `$` does not accept a trailing newline, so the two agree.
- VideoSplit.SafeLabel: Python's `str.isalnum` accepts Unicode letters and digits. The model keeps only ASCII ones.
- The import service's `update_job_status` follows the same pattern as the export one. Only the export one is modelled.
- The video split task's per-attempt outcome (ffmpeg success) is a function parameter. The actual splitting is not modelled.
- Paths.Name: paths are split at `/` only, as on POSIX. The source uses `Path`, and its configured folders are Windows paths such as `D:\\SDNA\\...` (app/core/config.py:45-47). On Windows `Path("D:\\a\\x.mp4").name` is `x.mp4`, while the model gives the whole text. `Name(".")` is `.` in the model, where Python gives the empty name.
- Segments.Merge: a segment's fields are `Option`s, so a JSON null and a missing key are the same `None`, read as 0. In the source a null `start` or `end` is passed on as `None`, and `min`/`max` raise on it (app/services/artifact_generator.py:53-54).
- Subtitles.VttText: a null `eventValue` reads as empty text and the segment is skipped. In the source `.get("eventValue", "")` returns `None` for a null, and `.strip()` raises on it (app/services/artifact_generator.py:133).
- Subtitles.TranscriptVttAsWritten: a null `start` or `end` reads as 0, like a missing key, so a segment with text and a null time can still give a cue (a null `start` with a positive `end`). In the source `.get("start", 0)` returns `None` for a null, and `_format_vtt_time(None)` raises (app/services/artifact_generator.py:137-138). The same holds for Subtitles.TranscriptVtt.
- Subtitles.SrtCues: a null `eventValue` is treated like a missing key and the call fails naming `'eventValue'`. In the source the f-string writes the text `None` for it (app/services/artifact_generator.py:110-113). A null `start` or `end` also fails in the model, where the source raises a `TypeError` rather than a `KeyError`.
- Markers.XMarkerOf: a null `start` reads as 0 and a null `end` as the start, like missing keys. In the source `float(None)` raises on either (app/services/artifact_generator.py:407-408), so the whole XMEML call fails. A null `eventValue` is empty text in the model, so with an event type `t` the label is `[t] ` where the source writes `[t] None` (app/services/artifact_generator.py:409-411).
- Markers.FMarkerOf: a null `start` reads as 0 and a null `end` as the start, like missing keys. In the source `float(None)` raises on either (app/services/artifact_generator.py:635-636), so the whole FCPXML call fails. A null `id`, `sdnaEventType` or `eventValue` is written as `""` in the model, while in the source it becomes a `None` attribute of the marker element (app/services/artifact_generator.py:638-648), which ElementTree refuses to serialise, so the whole FCPXML call fails.
- Edl.EdlText: a null `start` or `end` fails like a missing key and names that key. In the source the failure is a `TypeError` from the subtraction or from `seconds_to_timecode`, not a `KeyError` (app/services/artifact_generator.py:688-692); both are failures of the whole call.
- Tasks.SelectsSection: selects in FCPXML have no writer in the source; the loop at app/background/tasks.py:122-125 passes over them, and the model does the same.
- Tasks.IntendedMethodsExist: the comments EDL only reaches `generate_insights_edl` once the dispatcher is corrected. That method returns the EDL text rather than the file path (app/services/artifact_generator.py:1005, unlike :730). The corrected dispatcher therefore promises only the generator's own result, not a file path.

## Findings

| source | as written | input that shows it | evidently intended | confidence | as-written member | corrected member |
|---|---|---|---|---|---|---|
| app/background/tasks.py:523-538 | the comments dispatcher looks up `generate_comments_<fmt>`, which the generator does not define | any comments format, e.g. "json" | use the `generate_insights_<fmt>` methods the generator provides | high, not executed | Tasks.CommentsAlwaysFailAsWritten | Tasks.IntendedMethodsExist |
| app/background/tasks.py:120-121 | selects are built from the comments payload dict, so the loop walks its keys and the exception handler returns no selects; the builder also reads `start_time`, `end_time` and `label`, which the fetched comments (app/client/fabric_client.py:139-149) do not carry, so passing the list alone still gives none | a payload with one comment whose start is 1.0 and end 2.0 | build selects from the payload's segment list, reading `start`, `end` and `eventValue` as the range and label | medium, not executed | Tasks.SelectsPayloadCounterexample | Tasks.SelectsFromPayload |
| app/services/artifact_generator.py:118-153 | `idx` is only bound inside the loop. With an empty segment list the `with` block writes and closes the header-only file `WEBVTT\n\n`, and then the `logger.info` f-string at line 152 raises `UnboundLocalError`, so the call fails although the file is already on disk | an empty segment list | an empty transcript gives a VTT file with only the header | medium, not executed | Subtitles.TranscriptVttAsWritten | Subtitles.TranscriptVtt |
| app/services/artifact_generator.py:935-1005 | `generate_insights_edl` returns the EDL text instead of the path of the file it wrote, so once comments reach it the text is recorded as a path | a comments EDL request, with the comments dispatcher corrected | return the file path, as `generate_events_edl` does at line 730 | medium, not executed | Tasks.IntendedCommentsEdlIsText | Tasks.IntendedCommentsEdlRecordsPath |
| app/services/export_service.py:32-67 | `_to_response` (lines 282-301) validates a dict that holds `export_id` but not `spark_id`, which `ExportJobResponse` requires without a default (app/schemas/export_schemas.py:129); the `ValidationError` is caught at lines 65-67, so the committed job is never returned | any order the EDL rule accepts, e.g. one with no outputs | return the stored job, its id given as `spark_id` | high, not executed | ExportService.CreateExportJob | ExportService.IntendedCreateExportJob |

=== FILE: config.dfy ===
/** The settings rules of app/core/config.py: comma-separated lists and the
    database URL built from the SQLite file name. */
module Config {
  import opened Text
  import opened Json

  const SqliteDbPath := "ai_spark.db"
  const AllowedImportFormats := "json,csv"
  const DefaultCorsOrigins: seq<string> := ["http://localhost:3000", "http://localhost:8000"]
  const DatabaseScheme := "sqlite+aiosqlite:///"

  /** A comma-separated setting read as a list: split at every comma, each
      piece stripped of surrounding whitespace. */
  function CommaList(s: string): (r: seq<string>)
    ensures |r| == Count(s, ',') + 1
    ensures forall i :: 0 <= i < |r| ==> ',' !in r[i]
    ensures forall i :: 0 <= i < |r| ==> |r[i]| > 0 ==> !IsSpace(r[i][0]) && !IsSpace(r[i][|r[i]| - 1])
    ensures forall i :: 0 <= i < |r| ==> r[i] == Strip(Split(s, ',')[i])
  {
    var parts := Split(s, ',');
    forall i | 0 <= i < |parts| ensures ',' !in Strip(parts[i]) {
      StripKeepsOut(parts[i], ',');
    }
    StripEach(parts)
  }

  /** Stripping adds no character. */
  lemma StripKeepsOut(p: string, c: char)
    requires c !in p
    ensures c !in Strip(p)
  {
    StripChars(p);
  }

  function StripEach(parts: seq<string>): (r: seq<string>)
    ensures |r| == |parts| && forall i :: 0 <= i < |r| ==> r[i] == Strip(parts[i])
  {
    if |parts| == 0 then []
    else [Strip(parts[0])] + StripEach(parts[1..])
  }

  /** Items with no comma and no surrounding whitespace survive being
      written as one comma-separated setting and read back. */
  lemma CommaListRoundTrip(items: seq<string>)
    requires |items| > 0
    requires forall i :: 0 <= i < |items| ==> ',' !in items[i]
    requires forall i :: 0 <= i < |items| ==> |items[i]| > 0 ==> !IsSpace(items[i][0]) && !IsSpace(items[i][|items[i]| - 1])
    ensures CommaList(Join(items, ",")) == items
  {
    assert [','] == ",";
    SplitJoin(items, ',');
    StripEachClean(items);
  }

  lemma StripEachClean(items: seq<string>)
    requires forall i :: 0 <= i < |items| ==> |items[i]| > 0 ==> !IsSpace(items[i][0]) && !IsSpace(items[i][|items[i]| - 1])
    ensures StripEach(items) == items
  {
    var r := StripEach(items);
    forall i | 0 <= i < |items| ensures r[i] == items[i] {
      if |items[i]| > 0 {
        StripUnchanged(items[i]);
      } else {
        assert AllSpace(items[i]);
      }
    }
  }

  /** `parse_cors_origins`: a string setting becomes the list of its
      comma-separated origins; a value that is already a list, or anything
      else, passes through unchanged. */
  function ParseCorsOrigins(v: Json): (r: Json)
    ensures !v.JStr? ==> r == v
    ensures v.JStr? ==> r.JList? && |r.items| == Count(v.s, ',') + 1
    ensures v.JStr? ==> forall i :: 0 <= i < |r.items| ==> r.items[i] == JStr(CommaList(v.s)[i])
  {
    match v
    case JStr(s) =>
      var origins := CommaList(s);
      JList(seq(|origins|, i requires 0 <= i < |origins| => JStr(origins[i])))
    case _ => v
  }

  /** Origins with no comma and no surrounding whitespace, written as one
      string setting, read back as the same origins. */
  lemma CorsRoundTrip(origins: seq<string>)
    requires |origins| > 0
    requires forall i :: 0 <= i < |origins| ==> ',' !in origins[i]
    requires forall i :: 0 <= i < |origins| ==> |origins[i]| > 0 ==> !IsSpace(origins[i][0]) && !IsSpace(origins[i][|origins[i]| - 1])
    ensures var r := ParseCorsOrigins(JStr(Join(origins, ",")));
      r.JList? && |r.items| == |origins| && forall i :: 0 <= i < |origins| ==> r.items[i] == JStr(origins[i])
  {
    CommaListRoundTrip(origins);
  }

  /** The default origins qualify. */
  lemma CorsDefaultsRoundTrip()
    ensures var r := ParseCorsOrigins(JStr(Join(DefaultCorsOrigins, ",")));
      r.JList? && r.items == [JStr(DefaultCorsOrigins[0]), JStr(DefaultCorsOrigins[1])]
  {
    var o := DefaultCorsOrigins;
    NoComma(o[0]);
    NoComma(o[1]);
    CorsRoundTrip(o);
  }

  lemma NoComma(origin: string)
    requires origin == "http://localhost:3000" || origin == "http://localhost:8000"
    ensures ',' !in origin && !IsSpace(origin[0]) && !IsSpace(origin[|origin| - 1])
  {
  }

  /** `allowed_import_formats_list`: the comma-separated setting as a
      list, each format stripped of surrounding whitespace. */
  function AllowedImportFormatsList(setting: string): (r: seq<string>)
    ensures |r| == Count(setting, ',') + 1
    ensures forall i :: 0 <= i < |r| ==> ',' !in r[i]
    ensures forall i :: 0 <= i < |r| ==> |r[i]| > 0 ==> !IsSpace(r[i][0]) && !IsSpace(r[i][|r[i]| - 1])
    ensures forall i :: 0 <= i < |r| ==> r[i] == Strip(Split(setting, ',')[i])
  {
    CommaList(setting)
  }

  /** With the default setting the allowed formats are JSON and CSV. */
  lemma DefaultImportFormats()
    ensures AllowedImportFormatsList(AllowedImportFormats) == ["json", "csv"]
  {
    JoinTwo("json", "csv", ",");
    assert Join(["json", "csv"], ",") == AllowedImportFormats;
    CommaListRoundTrip(["json", "csv"]);
  }

  /** `database_url`: the async SQLite scheme followed by the file path,
      which can be read back from the URL. */
  function DatabaseUrl(path: string): (r: string)
    ensures |r| == |DatabaseScheme| + |path|
    ensures r[..|DatabaseScheme|] == DatabaseScheme && r[|DatabaseScheme|..] == path
  {
    DatabaseScheme + path
  }

  lemma DefaultDatabaseUrl()
    ensures DatabaseUrl(SqliteDbPath) == "sqlite+aiosqlite:///ai_spark.db"
  {
  }
}

=== FILE: csvrows.dfy ===
/** The CSV writers of app/services/artifact_generator.py
    (`generate_events_csv`, `generate_insights_csv`): a fixed header and one
    row per segment, written by Python's `csv.DictWriter` with its default
    dialect (comma, double quote, minimal quoting, `\r\n` line ends). */
module CsvRows {
  import opened Wrappers
  import opened Text
  import opened Segments

  const EventsColumns: seq<string> := ["id", "sdnaEventType", "eventValue", "start", "end"]
  const InsightsColumns: seq<string> := EventsColumns + ["source"]

  const LineEnd := "\r\n"

  /** A field needs quoting when it holds the delimiter, the quote or a line
      break. */
  predicate NeedsQuotes(f: string) {
    exists i :: 0 <= i < |f| && f[i] in {',', '"', '\r', '\n'}
  }

  /** Each quote doubled. */
  function DoubleQuotes(f: string): (r: string)
    ensures |r| == |f| + Count(f, '"')
  {
    if |f| == 0 then ""
    else (if f[0] == '"' then "\"\"" else [f[0]]) + DoubleQuotes(f[1..])
  }

  /** Minimal quoting of one field. */
  function Quote(f: string): (r: string)
    ensures !NeedsQuotes(f) ==> r == f
    ensures NeedsQuotes(f) ==> |r| >= 2 && r[0] == '"' && r[|r| - 1] == '"'
  {
    if NeedsQuotes(f) then "\"" + DoubleQuotes(f) + "\"" else f
  }

  /** Undoing the quote doubling. */
  function UndoubleQuotes(r: string): string {
    if |r| >= 2 && r[0] == '"' && r[1] == '"' then "\"" + UndoubleQuotes(r[2..])
    else if |r| == 0 then ""
    else [r[0]] + UndoubleQuotes(r[1..])
  }

  /** Doubling quotes is undone by collapsing each pair again. */
  lemma {:induction false} UndoubleDouble(f: string)
    ensures UndoubleQuotes(DoubleQuotes(f)) == f
  {
    if |f| > 0 {
      UndoubleDouble(f[1..]);
      var rest := DoubleQuotes(f[1..]);
      if f[0] == '"' {
        assert DoubleQuotes(f) == "\"\"" + rest;
        assert (DoubleQuotes(f))[2..] == rest;
      } else {
        assert DoubleQuotes(f) == [f[0]] + rest;
        assert (DoubleQuotes(f))[1..] == rest;
      }
      assert [f[0]] + f[1..] == f;
    }
  }

  /** A quoted field reads back as the original text. */
  lemma QuoteRoundTrip(f: string)
    requires NeedsQuotes(f)
    ensures UndoubleQuotes(Quote(f)[1..|Quote(f)| - 1]) == f
  {
    var q := Quote(f);
    assert q[1..|q| - 1] == DoubleQuotes(f);
    UndoubleDouble(f);
  }

  /** A cell: an absent value is written empty. */
  function Cell(f: Option<string>): string {
    match f
    case None => ""
    case Some(v) => Quote(v)
  }

  /** The cells of an events row; `num` writes a float the way Python's
      `str` does, which is outside this model. */
  function EventsCells(s: Segment, num: real -> string): (r: seq<string>)
    ensures |r| == |EventsColumns|
  {
    [Cell(s.id), Cell(s.eventType), Cell(s.eventValue),
     Cell(if s.start.Some? then Some(num(s.start.value)) else None),
     Cell(if s.end.Some? then Some(num(s.end.value)) else None)]
  }

  /** The cells of an insights row: the events cells and the source; the
      nested metadata is never written. */
  function InsightsCells(s: Segment, num: real -> string): (r: seq<string>)
    ensures |r| == |InsightsColumns|
    ensures r[..|EventsColumns|] == EventsCells(s, num)
    ensures r[|EventsColumns|] == Cell(s.source)
  {
    EventsCells(s, num) + [Cell(s.source)]
  }

  /** Two segments that differ only in their metadata and path write the
      same insights row. */
  lemma InsightsIgnoresMetadata(a: Segment, b: Segment, num: real -> string)
    requires a.(metadata := b.metadata, fullPath := b.fullPath) == b
    ensures InsightsCells(a, num) == InsightsCells(b, num)
  {
  }

  function Line(cells: seq<string>): string {
    Join(cells, ",") + LineEnd
  }

  /** The file: the header line, then one line per segment. */
  function CsvText(columns: seq<string>, segs: seq<Segment>, cells: Segment -> seq<string>): string {
    Line(columns) + ConcatMap(segs, (s: Segment) => Line(cells(s)))
  }

  /** One more segment adds its line at the end of the file. */
  lemma CsvTextSnoc(columns: seq<string>, segs: seq<Segment>, cells: Segment -> seq<string>)
    requires |segs| > 0
    ensures CsvText(columns, segs, cells) == CsvText(columns, segs[..|segs| - 1], cells) + Line(cells(segs[|segs| - 1]))
  {
    ConcatMapSnoc(segs, (s: Segment) => Line(cells(s)));
  }

  /** Without segments the file is the header line alone. */
  lemma NoRows(columns: seq<string>, cells: Segment -> seq<string>)
    ensures CsvText(columns, [], cells) == Line(columns)
  {
  }

  /** What the writers find under the payload's `segments` key: the payload
      may not be an object at all, the key may be missing or hold null, or
      it holds the list. */
  datatype Payload = NotAnObject | Missing | Null | Given(segs: seq<Segment>)

  function EventsRow(num: real -> string): Segment -> seq<string> {
    s => EventsCells(s, num)
  }

  function InsightsRow(num: real -> string): Segment -> seq<string> {
    s => InsightsCells(s, num)
  }

  /** `generate_events_csv`: anything but a given list reads as no
      segments. */
  function EventsCsv(p: Payload, num: real -> string): (r: string)
    ensures !p.Given? || p.segs == [] ==> r == Line(EventsColumns)
    ensures p.Given? && |p.segs| > 0 ==>
      r == EventsCsv(Given(p.segs[..|p.segs| - 1]), num) + Line(EventsCells(p.segs[|p.segs| - 1], num))
    decreases if p.Given? then |p.segs| else 0
  {
    match p
    case Given(ss) =>
      if |ss| > 0 then
        CsvTextSnoc(EventsColumns, ss, EventsRow(num));
        CsvText(EventsColumns, ss, EventsRow(num))
      else
        NoRows(EventsColumns, EventsRow(num));
        CsvText(EventsColumns, ss, EventsRow(num))
    case _ =>
      NoRows(EventsColumns, EventsRow(num));
      CsvText(EventsColumns, [], EventsRow(num))
  }

  /** `generate_insights_csv`: a missing key reads as no segments; a null
      value cannot be iterated and a payload that is not an object has no
      `get`. */
  function InsightsCsv(p: Payload, num: real -> string): (r: Result<string>)
    ensures r.Failure? <==> p.Null? || p.NotAnObject?
    ensures p.Missing? || p == Given([]) ==> r == Success(Line(InsightsColumns))
    ensures p.Given? && |p.segs| > 0 ==>
      r == Success(InsightsCsv(Given(p.segs[..|p.segs| - 1]), num).value + Line(InsightsCells(p.segs[|p.segs| - 1], num)))
    decreases if p.Given? then |p.segs| else 0
  {
    match p
    case NotAnObject => Failure("object has no attribute 'get'")
    case Null => Failure("'NoneType' object is not iterable")
    case Missing =>
      NoRows(InsightsColumns, InsightsRow(num));
      Success(CsvText(InsightsColumns, [], InsightsRow(num)))
    case Given(ss) =>
      if |ss| > 0 then
        CsvTextSnoc(InsightsColumns, ss, InsightsRow(num));
        Success(CsvText(InsightsColumns, ss, InsightsRow(num)))
      else
        NoRows(InsightsColumns, InsightsRow(num));
        Success(CsvText(InsightsColumns, ss, InsightsRow(num)))
  }

  /** On a given list the insights file has the events file's shape: the
      same number of lines, each insights row extending the events row by
      the source. */
  lemma InsightsExtendsEvents(s: Segment, num: real -> string)
    ensures Line(InsightsCells(s, num)) == Join(EventsCells(s, num), ",") + "," + Cell(s.source) + LineEnd
  {
    var e := EventsCells(s, num);
    JoinSnoc(e, Cell(s.source), ",");
    assert InsightsCells(s, num) == e + [Cell(s.source)];
  }

  /** When no cell needs quoting, splitting a row at commas gives its
      cells back. */
  lemma RowFieldsRecoverable(s: Segment, num: real -> string)
    requires forall i :: 0 <= i < |InsightsCells(s, num)| ==> ',' !in InsightsCells(s, num)[i]
    ensures Split(Join(InsightsCells(s, num), ","), ',') == InsightsCells(s, num)
  {
    SplitJoin(InsightsCells(s, num), ',');
  }
}

=== FILE: edl.dfy ===
/** The edit decision lists written by app/services/artifact_generator.py:
    the events and insights lists (`generate_events_edl`,
    `generate_insights_edl`), whose record side lays the edits back to back
    through a running cursor, and the selects list (`generate_selects_edl`). */
module Edl {
  import opened Wrappers
  import opened Text
  import opened Json
  import opened Timecode
  import opened Segments

  /** The two writers differ only in the label of the identifier line. */
  datatype Variant = Events | Insights

  function IdTag(v: Variant): string {
    match v
    case Events => "* EVENT ID: "
    case Insights => "* COMMENT ID: "
  }

  const ClipTag := "* FROM CLIP NAME: "
  const TypeTag := "* SDNA EVENT TYPE: "
  const ValueTag := "* EVENT VALUE: "

  /** Both writers emit the same title. */
  const EdlHeader := "TITLE: AI Spark Events\nFCM: NON-DROP FRAME\n\n"

  /** Reel and track of every edit (the writers' default arguments). */
  const Reel := "AX"
  const Track := "V"

  /** A segment the writers can read: `event["start"]` and `event["end"]`
      both exist. */
  predicate Timed(s: Segment) {
    s.start.Some? && s.end.Some?
  }

  /** `str(KeyError(k))` for the first key the writers miss. */
  function EdlMissingKey(s: Segment): string {
    if s.start.None? then "'start'" else "'end'"
  }

  function Duration(s: Segment): real
    requires Timed(s)
  {
    s.end.value - s.start.value
  }

  /** Total duration of a run of segments. */
  function TotalDuration(segs: seq<Segment>): real
    requires forall i :: 0 <= i < |segs| ==> Timed(segs[i])
  {
    if |segs| == 0 then 0.0 else Duration(segs[0]) + TotalDuration(segs[1..])
  }

  /** One edit: its number, its source range and its record range. */
  datatype Edit = Edit(number: nat, srcIn: real, srcOut: real, recIn: real, recOut: real)

  /** The edits numbered from `first`, the record cursor starting at
      `cursor`; the first segment lacking a key raises `KeyError`. */
  function Edits(segs: seq<Segment>, first: nat, cursor: real): (r: Result<seq<Edit>>)
    ensures r.Success? <==> forall i :: 0 <= i < |segs| ==> Timed(segs[i])
    ensures r.Success? ==> |r.value| == |segs|
    ensures r.Success? ==> forall i :: 0 <= i < |segs| ==>
      && r.value[i].number == first + i
      && r.value[i].srcIn == segs[i].start.value
      && r.value[i].srcOut == segs[i].end.value
      && r.value[i].recOut == r.value[i].recIn + Duration(segs[i])
    ensures r.Success? && |segs| > 0 ==> r.value[0].recIn == cursor
    ensures r.Success? ==> forall i :: 0 <= i < |segs| - 1 ==> r.value[i].recOut == r.value[i + 1].recIn
  {
    if |segs| == 0 then Success([])
    else if !Timed(segs[0]) then Failure(EdlMissingKey(segs[0]))
    else
      var s := segs[0];
      var d := Duration(s);
      var rest := Edits(segs[1..], first + 1, cursor + d);
      assert forall i :: 1 <= i < |segs| ==> segs[1..][i - 1] == segs[i];
      if rest.Failure? then rest
      else Success([Edit(first, s.start.value, s.end.value, cursor, cursor + d)] + rest.value)
  }

  /** The record-in of edit `k` is the cursor advanced by the durations of
      every earlier edit. */
  lemma {:induction false} RecordInIsPrefixSum(segs: seq<Segment>, first: nat, cursor: real, k: nat)
    requires forall i :: 0 <= i < |segs| ==> Timed(segs[i])
    requires k < |segs|
    ensures Edits(segs, first, cursor).value[k].recIn == cursor + TotalDuration(segs[..k])
    decreases k
  {
    if k == 0 {
      assert segs[..0] == [];
    } else {
      var rest := segs[1..];
      assert forall i :: 0 <= i < |rest| ==> rest[i] == segs[i + 1];
      RecordInIsPrefixSum(rest, first + 1, cursor + Duration(segs[0]), k - 1);
      assert segs[..k][1..] == rest[..k - 1];
      assert Edits(segs, first, cursor).value[k] == Edits(rest, first + 1, cursor + Duration(segs[0])).value[k - 1];
    }
  }

  /** With no negative duration the record cursor never moves back. */
  lemma {:induction false} RecordCursorMonotone(segs: seq<Segment>, first: nat, cursor: real, j: nat, k: nat)
    requires forall i :: 0 <= i < |segs| ==> Timed(segs[i]) && Duration(segs[i]) >= 0.0
    requires j <= k < |segs|
    ensures Edits(segs, first, cursor).value[j].recIn <= Edits(segs, first, cursor).value[k].recIn
    decreases k - j
  {
    if j < k {
      var e := Edits(segs, first, cursor).value;
      RecordCursorMonotone(segs, first, cursor, j + 1, k);
      assert e[j].recOut == e[j + 1].recIn;
    }
  }

  /** The timecode written for a time in these lists. */
  function Tc(seconds: real): string {
    SmpteTimecode(seconds, EdlFps)
  }

  /** The edit line: number, reel and track in their columns, a cut, then
      source in/out and record in/out. */
  function EditLine(e: Edit): string {
    EditRow(e.number, Tc(e.srcIn), Tc(e.srcOut), Tc(e.recIn), Tc(e.recOut))
  }

  function EditRow(number: nat, srcIn: string, srcOut: string, recIn: string, recOut: string): string {
    ZeroPad(number, 3) + "  " + LeftAlign(Reel, 8) + " " + LeftAlign(Track, 5) + " C        "
      + srcIn + " " + srcOut + " " + recIn + " " + recOut
  }

  /** Splitting an edit row at spaces yields the four times last, when
      they hold no space. */
  lemma EditRowFields(number: nat, srcIn: string, srcOut: string, recIn: string, recOut: string)
    requires ' ' !in srcIn && ' ' !in srcOut && ' ' !in recIn && ' ' !in recOut
    ensures var p := Split(EditRow(number, srcIn, srcOut, recIn, recOut), ' ');
      |p| >= 4 && p[|p| - 4..] == [srcIn, srcOut, recIn, recOut]
  {
    var head := ZeroPad(number, 3) + "  " + LeftAlign(Reel, 8) + " " + LeftAlign(Track, 5) + " C       ";
    assert head + [' '] == ZeroPad(number, 3) + "  " + LeftAlign(Reel, 8) + " " + LeftAlign(Track, 5) + " C        ";
    SplitLastFour(head, srcIn, srcOut, recIn, recOut, ' ');
  }

  /** A timecode holds no space. */
  lemma TcHasNoSpace(seconds: real)
    ensures ' ' !in Tc(seconds)
  {
    var c := SmpteClock(seconds, EdlFps);
    var h, m, x, f := ZeroPad(c.hours, 2), ZeroPad(c.minutes, 2), ZeroPad(c.seconds, 2), ZeroPad(c.sub, 2);
    assert ' ' !in h && ' ' !in m && ' ' !in x && ' ' !in f;
    assert Tc(seconds) == h + ":" + m + ":" + x + [':'] + f;
  }

  /** Splitting an edit line at spaces yields its four timecodes last, in
      the order source in, source out, record in, record out. */
  lemma EditLineTimecodes(e: Edit)
    ensures var p := Split(EditLine(e), ' ');
      |p| >= 4 && p[|p| - 4..] == [Tc(e.srcIn), Tc(e.srcOut), Tc(e.recIn), Tc(e.recOut)]
  {
    TcHasNoSpace(e.srcIn);
    TcHasNoSpace(e.srcOut);
    TcHasNoSpace(e.recIn);
    TcHasNoSpace(e.recOut);
    EditRowFields(e.number, Tc(e.srcIn), Tc(e.srcOut), Tc(e.recIn), Tc(e.recOut));
  }

  /** Python truthiness of an optional text field. */
  predicate Present(f: Option<string>) {
    f.Some? && f.value != ""
  }

  /** The metadata line for a field, when the field is truthy. */
  function Note(tag: string, f: Option<string>): seq<string> {
    if Present(f) then [tag + f.value] else []
  }

  /** The lines written for one edit whose edit line is `line`. */
  function Block(line: string, s: Segment, v: Variant, clip: string): (r: seq<string>)
    ensures 3 <= |r| <= 6
    ensures r[0] == line && r[1] == ClipTag + clip && r[|r| - 1] == ""
    ensures |r| == 3 + |Note(IdTag(v), s.id)| + |Note(TypeTag, s.eventType)| + |Note(ValueTag, s.eventValue)|
  {
    [line, ClipTag + clip] + Note(IdTag(v), s.id) + Note(TypeTag, s.eventType)
      + Note(ValueTag, s.eventValue) + [""]
  }

  /** An edit line begins with the digits of its number. */
  lemma EditLineStartsWithDigit(e: Edit)
    ensures |EditLine(e)| > 0 && IsDigit(EditLine(e)[0])
  {
    var num := ZeroPad(e.number, 3);
    assert EditLine(e)[0] == num[0];
  }

  /** No fixed line of a block begins like a metadata line: the edit line
      starts with a digit and the clip line with a different tag. */
  lemma FixedLinesAreNotNotes(line: string, clip: string, tag: string)
    requires |line| > 0 && IsDigit(line[0])
    requires tag in {IdTag(Events), IdTag(Insights), TypeTag, ValueTag}
    ensures !StartsWith(line, tag)
    ensures !StartsWith(ClipTag + clip, tag)
    ensures !StartsWith("", tag)
  {
    assert tag[0] == '*';
    assert (ClipTag + clip)[2] == 'F';
  }

  /** A metadata line of one kind never begins like one of another. */
  lemma NotesAreDistinct(t1: string, t2: string, x: string)
    requires t1 in {IdTag(Events), IdTag(Insights), TypeTag, ValueTag}
    requires t2 in {IdTag(Events), IdTag(Insights), TypeTag, ValueTag}
    requires t1 != t2
    ensures !StartsWith(t1 + x, t2)
  {
    var l := t1 + x;
    assert l[2] == t1[2] && l[8] == t1[8];
  }

  /** The three optional metadata lines of a block. */
  datatype Field = IdField | TypeField | ValueField

  function Tag(k: Field, v: Variant): string {
    match k
    case IdField => IdTag(v)
    case TypeField => TypeTag
    case ValueField => ValueTag
  }

  function FieldOf(s: Segment, k: Field): Option<string> {
    match k
    case IdField => s.id
    case TypeField => s.eventType
    case ValueField => s.eventValue
  }

  /** Where a truthy field's line sits in its block. */
  lemma BlockNoteAt(line: string, s: Segment, v: Variant, clip: string, k: Field)
    requires Present(FieldOf(s, k))
    ensures var r := Block(line, s, v, clip);
      var i := match k
        case IdField => 2
        case TypeField => 2 + |Note(IdTag(v), s.id)|
        case ValueField => 2 + |Note(IdTag(v), s.id)| + |Note(TypeTag, s.eventType)|;
      i < |r| && r[i] == Tag(k, v) + FieldOf(s, k).value
  {
  }

  /** With the field falsy no line of the block begins with its tag. */
  lemma BlockLacksNote(line: string, s: Segment, v: Variant, clip: string, k: Field)
    requires |line| > 0 && IsDigit(line[0])
    requires !Present(FieldOf(s, k))
    ensures forall i :: 0 <= i < |Block(line, s, v, clip)| ==> !StartsWith(Block(line, s, v, clip)[i], Tag(k, v))
  {
    var tag := Tag(k, v);
    var r := Block(line, s, v, clip);
    var ids := Note(IdTag(v), s.id);
    var types := Note(TypeTag, s.eventType);
    assert r == [line, ClipTag + clip] + ids + types + Note(ValueTag, s.eventValue) + [""];
    forall i | 0 <= i < |r| ensures !StartsWith(r[i], tag) {
      FixedLinesAreNotNotes(line, clip, tag);
      if 2 <= i < 2 + |ids| {
        NotesAreDistinct(IdTag(v), tag, s.id.value);
      } else if 2 + |ids| <= i < 2 + |ids| + |types| {
        NotesAreDistinct(TypeTag, tag, s.eventType.value);
      } else if 2 + |ids| + |types| <= i < |r| - 1 {
        NotesAreDistinct(ValueTag, tag, s.eventValue.value);
      }
    }
  }

  /** A block carries a line beginning with a metadata tag exactly when the
      segment's field for that tag is truthy. */
  lemma BlockHasNoteIff(e: Edit, s: Segment, v: Variant, clip: string, k: Field)
    ensures (exists i :: 0 <= i < |Block(EditLine(e), s, v, clip)| && StartsWith(Block(EditLine(e), s, v, clip)[i], Tag(k, v)))
      <==> Present(FieldOf(s, k))
  {
    EditLineStartsWithDigit(e);
    var line := EditLine(e);
    if Present(FieldOf(s, k)) {
      BlockNoteAt(line, s, v, clip, k);
      var r := Block(line, s, v, clip);
      var i := match k
        case IdField => 2
        case TypeField => 2 + |Note(IdTag(v), s.id)|
        case ValueField => 2 + |Note(IdTag(v), s.id)| + |Note(TypeTag, s.eventType)|;
      assert StartsWith(r[i], Tag(k, v)) by {
        assert r[i][..|Tag(k, v)|] == Tag(k, v);
      }
    } else {
      BlockLacksNote(line, s, v, clip, k);
    }
  }

  /** The insights block is the events block with the identifier line
      relabelled, and nothing else changed. */
  lemma InsightsRelabelsId(line: string, s: Segment, clip: string)
    ensures |Block(line, s, Insights, clip)| == |Block(line, s, Events, clip)|
    ensures forall i :: 0 <= i < |Block(line, s, Events, clip)| && i != 2 ==>
      Block(line, s, Insights, clip)[i] == Block(line, s, Events, clip)[i]
    ensures Present(s.id) ==>
      (Block(line, s, Events, clip)[2] == IdTag(Events) + s.id.value
       && Block(line, s, Insights, clip)[2] == IdTag(Insights) + s.id.value)
  {
  }

  /** `f` applied to corresponding items of two lists of equal length, the
      results concatenated in order. */
  function FlatMapPairs<A, B, C>(xs: seq<A>, ys: seq<B>, f: (A, B) -> seq<C>): seq<C>
    requires |xs| == |ys|
  {
    if |xs| == 0 then [] else f(xs[0], ys[0]) + FlatMapPairs(xs[1..], ys[1..], f)
  }

  lemma {:induction false} FlatMapPairsAppend<A, B, C>(x1: seq<A>, y1: seq<B>, x2: seq<A>, y2: seq<B>, f: (A, B) -> seq<C>)
    requires |x1| == |y1| && |x2| == |y2|
    ensures FlatMapPairs(x1 + x2, y1 + y2, f) == FlatMapPairs(x1, y1, f) + FlatMapPairs(x2, y2, f)
  {
    if |x1| == 0 {
      assert x1 + x2 == x2 && y1 + y2 == y2;
    } else {
      assert (x1 + x2)[1..] == x1[1..] + x2 && (y1 + y2)[1..] == y1[1..] + y2;
      FlatMapPairsAppend(x1[1..], y1[1..], x2, y2, f);
    }
  }

  /** Item `i` contributes its part between the parts of the items before
      and after it. */
  lemma FlatMapPairsAt<A, B, C>(xs: seq<A>, ys: seq<B>, f: (A, B) -> seq<C>, i: nat)
    requires |xs| == |ys| && i < |xs|
    ensures FlatMapPairs(xs, ys, f)
      == FlatMapPairs(xs[..i], ys[..i], f) + f(xs[i], ys[i]) + FlatMapPairs(xs[i + 1..], ys[i + 1..], f)
  {
    assert xs == xs[..i] + xs[i..] && ys == ys[..i] + ys[i..];
    FlatMapPairsAppend(xs[..i], ys[..i], xs[i..], ys[i..], f);
    assert xs[i..][1..] == xs[i + 1..] && ys[i..][1..] == ys[i + 1..];
  }

  /** The lines of the edits, each with its segment's metadata. */
  function Blocks(edits: seq<Edit>, segs: seq<Segment>, v: Variant, clip: string): seq<string>
    requires |edits| == |segs|
  {
    FlatMapPairs(edits, segs, (e: Edit, s: Segment) => Block(EditLine(e), s, v, clip))
  }

  /** Edit `i` contributes its block between the blocks of the edits before
      it and those after it. */
  lemma BlocksAt(edits: seq<Edit>, segs: seq<Segment>, v: Variant, clip: string, i: nat)
    requires |edits| == |segs| && i < |edits|
    ensures Blocks(edits, segs, v, clip)
      == Blocks(edits[..i], segs[..i], v, clip) + Block(EditLine(edits[i]), segs[i], v, clip)
         + Blocks(edits[i + 1..], segs[i + 1..], v, clip)
  {
    FlatMapPairsAt(edits, segs, (e: Edit, s: Segment) => Block(EditLine(e), s, v, clip), i);
  }

  /** The whole list: the title and frame-count mode, then the lines of
      every edit joined by newlines. `clip` is the clip name the writers
      take from the video path. */
  function EdlText(segs: seq<Segment>, v: Variant, clip: string): (r: Result<string>)
    ensures r.Success? <==> forall i :: 0 <= i < |segs| ==> Timed(segs[i])
    ensures r.Success? ==> StartsWith(r.value, EdlHeader)
    ensures r.Success? ==> r.value == EdlHeader + Join(Blocks(Edits(segs, 1, 0.0).value, segs, v, clip), "\n")
    ensures r.Failure? ==> r.error == "'start'" || r.error == "'end'"
  {
    var edits := Edits(segs, 1, 0.0);
    if edits.Failure? then
      FailureIsMissingKey(segs, 1, 0.0);
      Failure(edits.error)
    else
      var t := EdlHeader + Join(Blocks(edits.value, segs, v, clip), "\n");
      assert t[..|EdlHeader|] == EdlHeader;
      Success(t)
  }

  /** Edit `k` of the list sits between the edits before and after it:
      number `k + 1`, the segment's own times as source, and as record the
      total duration of the segments before it and that plus its own. */
  lemma EdlTextEdit(segs: seq<Segment>, v: Variant, clip: string, k: nat)
    requires forall i :: 0 <= i < |segs| ==> Timed(segs[i])
    requires k < |segs|
    ensures var e := Edits(segs, 1, 0.0).value;
      var recIn := TotalDuration(segs[..k]);
      && e[k] == Edit(k + 1, segs[k].start.value, segs[k].end.value, recIn, recIn + Duration(segs[k]))
      && EdlText(segs, v, clip).value == EdlHeader + Join(
           Blocks(e[..k], segs[..k], v, clip) + Block(EditLine(e[k]), segs[k], v, clip)
           + Blocks(e[k + 1..], segs[k + 1..], v, clip), "\n")
  {
    var e := Edits(segs, 1, 0.0).value;
    EditAt(segs, k);
    BlocksAt(e, segs, v, clip, k);
  }

  /** Edit `k` of a list that starts recording at zero. */
  lemma EditAt(segs: seq<Segment>, k: nat)
    requires forall i :: 0 <= i < |segs| ==> Timed(segs[i])
    requires k < |segs|
    ensures var recIn := TotalDuration(segs[..k]);
      Edits(segs, 1, 0.0).value[k] == Edit(k + 1, segs[k].start.value, segs[k].end.value, recIn, recIn + Duration(segs[k]))
  {
    RecordInIsPrefixSum(segs, 1, 0.0, k);
  }

  lemma {:induction false} FailureIsMissingKey(segs: seq<Segment>, first: nat, cursor: real)
    ensures Edits(segs, first, cursor).Failure? ==>
      Edits(segs, first, cursor).error == "'start'" || Edits(segs, first, cursor).error == "'end'"
  {
    if |segs| > 0 && Timed(segs[0]) {
      FailureIsMissingKey(segs[1..], first + 1, cursor + Duration(segs[0]));
    }
  }

  /** The error names the first segment's missing key, `start` before
      `end`. */
  lemma {:induction false} EdlFailureNamesFirstMissing(segs: seq<Segment>, first: nat, cursor: real, k: nat)
    requires k < |segs| && !Timed(segs[k])
    requires forall i :: 0 <= i < k ==> Timed(segs[i])
    ensures Edits(segs, first, cursor) == Failure(EdlMissingKey(segs[k]))
    decreases k
  {
    if k > 0 {
      assert segs[1..][k - 1] == segs[k];
      EdlFailureNamesFirstMissing(segs[1..], first + 1, cursor + Duration(segs[0]), k - 1);
    }
  }

  /** A select as the selects writer reads it; `name` is the `label` entry: `None` when the
      key is absent and `Some(JNull)` when it holds Python `None`. */
  datatype Select = Select(id: Option<Json>, name: Option<Json>, startTime: real, endTime: real)

  const SelectsHeader := "TITLE: AI Spark Selects\nFCM: NON-DROP FRAME\n\n"

  /** The lines for one select: its range written twice, as source and as
      record, then the clip name when a label key exists, then a blank
      line. */
  function SelectEntry(s: Select): string {
    var range := SelectsTimecode(s.startTime, SelectsFps) + " " + SelectsTimecode(s.endTime, SelectsFps);
    range + " " + range + "\n"
      + (if s.name.Some? then ClipTag + Str(s.name.value) + "\n" else "")
      + "\n"
  }

  /** `generate_selects_edl`: the selects title, then one entry per select,
      in the order given. */
  function SelectsEdl(sel: seq<Select>): (r: string)
    ensures StartsWith(r, SelectsHeader)
    ensures |sel| == 0 ==> r == SelectsHeader
    ensures |sel| > 0 ==> r == SelectsEdl(sel[..|sel| - 1]) + SelectEntry(sel[|sel| - 1])
  {
    HeadedConcatMap(SelectsHeader, sel, SelectEntry);
    SelectsHeader + ConcatMap(sel, SelectEntry)
  }

  /** Each entry's first line writes the select's range twice: the record
      side repeats the source side. */
  lemma SelectEntryRepeatsRange(s: Select)
    ensures var range := SelectsTimecode(s.startTime, SelectsFps) + " " + SelectsTimecode(s.endTime, SelectsFps);
      StartsWith(SelectEntry(s), range + " " + range + "\n")
  {
  }
}

=== FILE: exportservice.dfy ===
/** The rules of app/services/export_service.py: the EDL-for-transcript
    check that guards job creation, the response validation every reader
    goes through, the status timestamps of `update_job_status`, and how a
    stored error message is shown. */
module ExportService {
  import opened Wrappers
  import opened Text
  import opened Json
  import opened ExportSchemas
  import Jobs

  /** `_validate_edl_usage`: a transcript output may not ask for EDL. */
  function ValidateEdlUsage(o: ExportOutputs): (r: bool) {
    !(o.transcript.Some? && "edl" in o.transcript.value.formats)
  }

  /** A stored export job; times are clock readings. */
  datatype ExportJob = ExportJob(
    repoGuid: string, exportMode: string, exportPreset: string, requestedBy: Option<string>,
    status: Jobs.Status, errorMessage: Option<string>, errorDetails: Option<Json>,
    startedAt: Option<nat>, completedAt: Option<nat>, updatedAt: Option<nat>)

  /** The row `create_export_job` commits: none when the EDL rule fails,
      otherwise a pending job carrying the order's repository, mode, preset
      and requester. */
  function StoredJob(wo: ExportWorkOrder): (r: Option<ExportJob>)
    ensures r.None? <==> (wo.outputs.transcript.Some? && "edl" in wo.outputs.transcript.value.formats)
    ensures r.Some? ==> (r.value.status == Jobs.Pending && r.value.repoGuid == wo.repoGuid
      && r.value.exportMode == wo.metadata.exportMode && r.value.exportPreset == wo.metadata.exportPreset
      && r.value.requestedBy == wo.metadata.requestedBy)
    ensures r.Some? ==> r.value.startedAt.None? && r.value.completedAt.None? && r.value.errorMessage.None?
  {
    if !ValidateEdlUsage(wo.outputs) then None
    else Some(ExportJob(wo.repoGuid, wo.metadata.exportMode, wo.metadata.exportPreset, wo.metadata.requestedBy,
                        Jobs.Pending, None, None, None, None, None))
  }

  /** The keys of the dict `_to_response` hands to
      `ExportJobResponse.model_validate`. */
  const ResponseKeys: set<string> := {
    "export_id", "repo_guid", "export_mode", "export_preset", "work_order", "status",
    "zip_file_path", "requested_by", "export_path", "manifest", "error_message",
    "error_details", "created_at", "started_at", "completed_at", "updated_at"}

  /** The fields of `ExportJobResponse` that have no default, in declaration
      order. */
  const ResponseRequired: seq<string> := ["spark_id", "repo_guid", "status", "export_mode", "export_preset", "created_at"]

  /** The keys a corrected `_to_response` supplies: the job's id is also
      given under the name the response declares. */
  const IntendedResponseKeys: set<string> := ResponseKeys + {"spark_id"}

  /** `_to_response` for a dict with the given keys: validation succeeds
      iff every required field is supplied, and then the response carries
      the job's fields; otherwise the first missing field is reported. */
  function ToResponse(keys: set<string>, job: ExportJob): (r: Result<ExportJob>)
    ensures r.Success? <==> forall i :: 0 <= i < |ResponseRequired| ==> ResponseRequired[i] in keys
    ensures r.Success? ==> r.value == job
    ensures r.Failure? ==> exists k :: k in ResponseRequired && k !in keys && r.error == k + ": Field required"
  {
    match FirstOutside(ResponseRequired, keys)
    case Some(k) => Failure(k + ": Field required")
    case None => Success(job)
  }

  /** The dict `_to_response` builds lacks exactly one required field,
      `spark_id`; the corrected key set lacks none. */
  lemma ResponseLacksSparkId()
    ensures FirstOutside(ResponseRequired, ResponseKeys) == Some("spark_id")
    ensures forall i :: 0 <= i < |ResponseRequired| && ResponseRequired[i] != "spark_id" ==> ResponseRequired[i] in ResponseKeys
    ensures forall i :: 0 <= i < |ResponseRequired| ==> ResponseRequired[i] in IntendedResponseKeys
  {
    assert ResponseRequired[0] == "spark_id" && "spark_id" !in ResponseKeys;
  }

  /** `create_export_job` with a response built from `keys`: the stored
      row, and the returned value. A failing validation is caught by the
      handler, so the row stays committed and nothing is returned. */
  function CreateExportJobWith(wo: ExportWorkOrder, keys: set<string>): (r: (Option<ExportJob>, Option<ExportJob>))
    ensures r.0 == StoredJob(wo)
    ensures r.1.Some? <==> r.0.Some? && forall i :: 0 <= i < |ResponseRequired| ==> ResponseRequired[i] in keys
    ensures r.1.Some? ==> r.1 == r.0
  {
    match StoredJob(wo)
    case None => (None, None)
    case Some(job) =>
      match ToResponse(keys, job)
      case Failure(_) => (Some(job), None)
      case Success(resp) => (Some(job), Some(resp))
  }

  /** `create_export_job` as written: a valid order is stored as a pending
      job, yet the call returns nothing for every order, because the
      response lacks `spark_id`. */
  function CreateExportJob(wo: ExportWorkOrder): (r: (Option<ExportJob>, Option<ExportJob>))
    ensures r.0.None? <==> (wo.outputs.transcript.Some? && "edl" in wo.outputs.transcript.value.formats)
    ensures r.0 == StoredJob(wo)
    ensures r.1.None?
  {
    ResponseLacksSparkId();
    CreateExportJobWith(wo, ResponseKeys)
  }

  /** `create_export_job` once the response is given `spark_id`: the call
      returns exactly the job it stored, and nothing iff the EDL rule
      refused the order. */
  function IntendedCreateExportJob(wo: ExportWorkOrder): (r: (Option<ExportJob>, Option<ExportJob>))
    ensures r.0 == StoredJob(wo)
    ensures r.1 == r.0
    ensures r.1.None? <==> (wo.outputs.transcript.Some? && "edl" in wo.outputs.transcript.value.formats)
  {
    ResponseLacksSparkId();
    CreateExportJobWith(wo, IntendedResponseKeys)
  }

  /** `get_export_job` with a response built from `keys`: nothing when no
      job is found, and otherwise the job's response, or nothing when its
      validation fails and the handler swallows the error. */
  function GetExportJobWith(job: Option<ExportJob>, keys: set<string>): (r: Option<ExportJob>)
    ensures r.Some? <==> job.Some? && forall i :: 0 <= i < |ResponseRequired| ==> ResponseRequired[i] in keys
    ensures r.Some? ==> r == job
  {
    match job
    case None => None
    case Some(j) =>
      match ToResponse(keys, j)
      case Failure(_) => None
      case Success(resp) => Some(resp)
  }

  /** `get_export_jobs_by_repo` with a response built from `keys`: the
      list comprehension fails on the first job whose validation fails,
      and the handler then returns the empty list. */
  function ListExportJobsWith(jobs: seq<ExportJob>, keys: set<string>): (r: seq<ExportJob>)
    ensures (forall i :: 0 <= i < |ResponseRequired| ==> ResponseRequired[i] in keys) ==> r == jobs
    ensures !(forall i :: 0 <= i < |ResponseRequired| ==> ResponseRequired[i] in keys) ==> r == []
  {
    if |jobs| == 0 then []
    else match ToResponse(keys, jobs[0])
      case Failure(_) => []
      case Success(resp) => [resp] + ListExportJobsWith(jobs[1..], keys)
  }

  /** As written, a found job is never returned and a listing is always
      empty; with the corrected keys both return the stored jobs. */
  lemma ReadersAsWritten(job: Option<ExportJob>, jobs: seq<ExportJob>)
    ensures GetExportJobWith(job, ResponseKeys).None?
    ensures ListExportJobsWith(jobs, ResponseKeys) == []
    ensures GetExportJobWith(job, IntendedResponseKeys) == job
    ensures ListExportJobsWith(jobs, IntendedResponseKeys) == jobs
  {
    ResponseLacksSparkId();
  }

  /** The EDL rule is the service's own: the schema lets a transcript ask
      for EDL, and the service then refuses the order. */
  lemma TranscriptEdlPassesSchemaOnly(wo: ExportWorkOrder)
    requires wo.outputs.transcript == Some(OutputFormats(["edl"], Some(false)))
    ensures ParseOutputFormats(Fields.Given(["edl"]), Fields.Absent) == Success(OutputFormats(["edl"], Some(false)))
    ensures StoredJob(wo).None?
  {
    assert ["edl"][0] == "edl";
  }

  /** `update_job_status` on a found job: status and error fields are
      overwritten, `updated_at` is the first clock reading, and the second
      one starts a job that had not started or finishes a completed or
      failed one. The error details are kept only when not empty. A job
      that is not found is reported as such and nothing changes. */
  function UpdateJobStatus(job: Option<ExportJob>, status: Jobs.Status, errorMessage: Option<string>,
                           errorDetails: Option<seq<(string, Json)>>, now: nat, stamp: nat): (r: (bool, Option<ExportJob>))
    ensures r.0 <==> job.Some?
    ensures job.None? ==> r.1.None?
    ensures job.Some? ==> (r.1.Some? && r.1.value.status == status && r.1.value.errorMessage == errorMessage
      && r.1.value.updatedAt == Some(now))
    ensures job.Some? ==> (r.1.value.errorDetails.Some? <==> errorDetails.Some? && |errorDetails.value| > 0)
    ensures job.Some? && status == Jobs.Processing ==>
      r.1.value.startedAt == (if job.value.startedAt.None? then Some(stamp) else job.value.startedAt)
    ensures job.Some? && status != Jobs.Processing ==> r.1.value.startedAt == job.value.startedAt
    ensures job.Some? && Jobs.Finished(status) ==> r.1.value.completedAt == Some(stamp)
    ensures job.Some? && !Jobs.Finished(status) ==> r.1.value.completedAt == job.value.completedAt
    ensures job.Some? ==> r.1.value.(status := job.value.status, errorMessage := job.value.errorMessage,
      errorDetails := job.value.errorDetails, startedAt := job.value.startedAt,
      completedAt := job.value.completedAt, updatedAt := job.value.updatedAt) == job.value
  {
    match job
    case None => (false, None)
    case Some(j) =>
      var details := if errorDetails.Some? && |errorDetails.value| > 0 then Some(JObject(errorDetails.value)) else None;
      var j1 := j.(status := status, errorMessage := errorMessage, errorDetails := details, updatedAt := Some(now));
      var j2 :=
        if status == Jobs.Processing && j.startedAt.None? then j1.(startedAt := Some(stamp))
        else if status == Jobs.Completed || status == Jobs.Failed then j1.(completedAt := Some(stamp))
        else j1;
      (true, Some(j2))
  }

  /** Once a job has started, its start time never changes. */
  lemma StartKept(j: ExportJob, status: Jobs.Status, m: Option<string>, d: Option<seq<(string, Json)>>, now: nat, stamp: nat)
    requires j.startedAt.Some?
    ensures UpdateJobStatus(Some(j), status, m, d, now, stamp).1.value.startedAt == j.startedAt
  {
  }

  /** Processing then finishing: the job keeps the first start time and
      records the finishing time. */
  lemma ProcessThenFinish(j: ExportJob, finish: Jobs.Status, now1: nat, stamp1: nat, now2: nat, stamp2: nat)
    requires j.startedAt.None? && Jobs.Finished(finish)
    ensures var j1 := UpdateJobStatus(Some(j), Jobs.Processing, None, None, now1, stamp1).1.value;
      var j2 := UpdateJobStatus(Some(j1), finish, None, None, now2, stamp2).1.value;
      j2.startedAt == Some(stamp1) && j2.completedAt == Some(stamp2) && j2.status == finish
  {
  }

  /** The non-empty texts of the truthy items, in order. */
  function TruthyTexts(xs: seq<Json>): (r: seq<string>)
    ensures forall i :: 0 <= i < |r| ==> r[i] != ""
    ensures |r| == 0 <==> forall i :: 0 <= i < |xs| ==> !Truthy(xs[i])
  {
    if |xs| == 0 then []
    else
      var rest := TruthyTexts(xs[1..]);
      assert forall i :: 1 <= i < |xs| ==> xs[i] == xs[1..][i - 1];
      if Truthy(xs[0]) then
        StrEmpty(xs[0]);
        [Str(xs[0])] + rest
      else rest
  }

  /** Joining non-empty texts gives the empty text only for no texts. */
  lemma {:induction false} JoinNonEmpty(parts: seq<string>, sep: string)
    requires forall i :: 0 <= i < |parts| ==> parts[i] != ""
    ensures Join(parts, sep) == "" <==> |parts| == 0
  {
    if |parts| > 1 {
      assert |Join(parts, sep)| >= |parts[0]|;
    }
  }

  const ListSeparator := " | "

  /** `_parse_error_message`: `loads` stands for `json.loads`, with `None`
      for text that is not JSON. Nothing stored, or the empty text, shows
      as nothing; a JSON list shows its truthy items joined by " | "; a
      JSON string shows itself; any other JSON value its `str`; text that
      is not JSON shows as it is. */
  function ParseErrorMessage(raw: Option<string>, loads: string -> Option<Json>): (r: Option<string>)
    ensures r != Some("")
    ensures raw.None? || raw == Some("") ==> r.None?
    ensures raw.Some? && raw.value != "" && loads(raw.value).None? ==> r == raw
    ensures raw.Some? && raw.value != "" && loads(raw.value).Some? && loads(raw.value).value.JStr? ==>
      r == (if loads(raw.value).value.s == "" then None else Some(loads(raw.value).value.s))
    ensures raw.Some? && raw.value != "" && loads(raw.value).Some? && loads(raw.value).value.JList? ==>
      (r.None? <==> forall i :: 0 <= i < |loads(raw.value).value.items| ==> !Truthy(loads(raw.value).value.items[i]))
    ensures raw.Some? && raw.value != "" && loads(raw.value).Some? && loads(raw.value).value.JList? && r.Some? ==>
      r.value == Join(TruthyTexts(loads(raw.value).value.items), ListSeparator)
    ensures (raw.Some? && raw.value != "" && loads(raw.value).Some?
      && !loads(raw.value).value.JList? && !loads(raw.value).value.JStr?) ==> r == Some(Repr(loads(raw.value).value))
  {
    if raw.None? || raw.value == "" then None
    else match loads(raw.value)
      case None => raw
      case Some(JList(xs)) =>
        var texts := TruthyTexts(xs);
        JoinNonEmpty(texts, ListSeparator);
        var joined := Join(texts, ListSeparator);
        if joined == "" then None else Some(joined)
      case Some(JStr(s)) => if s == "" then None else Some(s)
      case Some(j) => Some(Str(j))
  }

  /** A message stored as a list of texts shows them joined, skipping the
      empty ones. */
  lemma StoredListShown(raw: string, loads: string -> Option<Json>, a: string, b: string)
    requires raw != "" && loads(raw) == Some(JList([JStr(a), JStr(""), JStr(b)]))
    requires a != "" && b != ""
    ensures ParseErrorMessage(Some(raw), loads) == Some(a + " | " + b)
  {
    var xs := [JStr(a), JStr(""), JStr(b)];
    assert xs[1..] == [JStr(""), JStr(b)];
    assert xs[1..][1..] == [JStr(b)];
    assert Truthy(JStr(a)) && Truthy(JStr(b)) && !Truthy(JStr(""));
    assert TruthyTexts([JStr(b)]) == [b];
    assert TruthyTexts(xs[1..]) == [b];
    assert TruthyTexts(xs) == [a, b];
    JoinTwo(a, b, ListSeparator);
  }

  /** The JSON text `null` shows as "None", as Python's `str` gives it. */
  lemma NullShownAsNone(raw: string, loads: string -> Option<Json>)
    requires raw != "" && loads(raw) == Some(JNull)
    ensures ParseErrorMessage(Some(raw), loads) == Some("None")
  {
  }
}

=== FILE: importservice.dfy ===
/** The highlight checks and job creation of
    app/services/import_service.py (`_validate_highlights`,
    `create_import_job`). */
module ImportService {
  import opened Wrappers
  import opened Text
  import opened Json
  import opened ImportSchemas
  import Jobs

  /** The three rules checked of each highlight, in the order they are
      checked. */
  datatype Rule = NegativeStart | EmptyRange | ZeroConfidence

  predicate Violates(rule: Rule, h: Highlight) {
    match rule
    case NegativeStart => h.start < 0.0
    case EmptyRange => h.end <= h.start
    case ZeroConfidence => h.confidenceScore == Some(0.0)
  }

  /** A highlight that breaks none of the rules. */
  predicate Clean(h: Highlight) {
    !Violates(NegativeStart, h) && !Violates(EmptyRange, h) && !Violates(ZeroConfidence, h)
  }

  function Rank(rule: Rule): nat {
    match rule
    case NegativeStart => 0
    case EmptyRange => 1
    case ZeroConfidence => 2
  }

  /** The value reported with an error: a number, the whole highlight
      (`model_dump`) or an exception text. */
  datatype ErrorValue = NumberValue(x: real) | HighlightValue(h: Highlight) | TextValue(text: string)

  datatype ValidationError = ValidationError(field: string, message: string, value: ErrorValue)

  function Message(rule: Rule): string {
    match rule
    case NegativeStart => "start timestamp cannot be negative"
    case EmptyRange => "end must be greater than start"
    case ZeroConfidence => "confidence must be > 0 for LLM highlights"
  }

  /** The rule a message belongs to. */
  function RuleOf(message: string): Option<Rule> {
    if message == Message(NegativeStart) then Some(NegativeStart)
    else if message == Message(EmptyRange) then Some(EmptyRange)
    else if message == Message(ZeroConfidence) then Some(ZeroConfidence)
    else None
  }

  /** Each rule has a message of its own. */
  lemma MessagesDistinct(rule: Rule)
    ensures RuleOf(Message(rule)) == Some(rule)
  {
  }

  /** `highlights[i]`, followed by the name of the checked field. */
  function FieldName(rule: Rule, i: nat): string {
    var at := "highlights[" + Digits(i) + "]";
    match rule
    case NegativeStart => at + ".start"
    case EmptyRange => at
    case ZeroConfidence => at + ".confidence"
  }

  function ErrorFor(rule: Rule, i: nat, h: Highlight): ValidationError {
    ValidationError(FieldName(rule, i), Message(rule),
      match rule
      case NegativeStart => NumberValue(h.start)
      case EmptyRange => HighlightValue(h)
      case ZeroConfidence => NumberValue(h.confidenceScore.GetOr(0.0)))
  }

  /** The errors of the highlight at index `i`: one per broken rule, in
      rule order. */
  function Checks(i: nat, h: Highlight): (r: seq<ValidationError>)
    ensures r == [] <==> Clean(h)
    ensures |r| <= 3
  {
    (if h.start < 0.0 then [ErrorFor(NegativeStart, i, h)] else [])
    + (if h.end <= h.start then [ErrorFor(EmptyRange, i, h)] else [])
    + (if h.confidenceScore.Some? && h.confidenceScore.value == 0.0 then [ErrorFor(ZeroConfidence, i, h)] else [])
  }

  /** A highlight's errors are exactly those of the rules it breaks. */
  lemma ChecksExact(i: nat, h: Highlight)
    ensures forall rule :: ErrorFor(rule, i, h) in Checks(i, h) <==> Violates(rule, h)
  {
    forall rule ensures ErrorFor(rule, i, h) in Checks(i, h) <==> Violates(rule, h) {
      MessagesDistinct(rule);
      MessagesDistinct(NegativeStart);
      MessagesDistinct(EmptyRange);
      MessagesDistinct(ZeroConfidence);
    }
  }

  /** Each error names its rule, and the rules come in order, each once. */
  lemma ChecksOrdered(i: nat, h: Highlight)
    ensures var r := Checks(i, h);
      forall k :: 0 <= k < |r| ==> RuleOf(r[k].message).Some? && r[k] == ErrorFor(RuleOf(r[k].message).value, i, h)
    ensures var r := Checks(i, h);
      forall a, b :: 0 <= a < b < |r| ==> Rank(RuleOf(r[a].message).value) < Rank(RuleOf(r[b].message).value)
  {
    MessagesDistinct(NegativeStart);
    MessagesDistinct(EmptyRange);
    MessagesDistinct(ZeroConfidence);
  }

  /** The lists `f` gives the items numbered from `base`, concatenated in
      order. */
  function FlatMapFrom<T, U>(xs: seq<T>, base: nat, f: (nat, T) -> seq<U>): seq<U> {
    if |xs| == 0 then [] else f(base, xs[0]) + FlatMapFrom(xs[1..], base + 1, f)
  }

  lemma {:induction false} FlatMapFromAppend<T, U>(a: seq<T>, b: seq<T>, base: nat, f: (nat, T) -> seq<U>)
    ensures FlatMapFrom(a + b, base, f) == FlatMapFrom(a, base, f) + FlatMapFrom(b, base + |a|, f)
  {
    if |a| == 0 {
      assert a + b == b;
    } else {
      assert (a + b)[1..] == a[1..] + b;
      FlatMapFromAppend(a[1..], b, base + 1, f);
    }
  }

  /** The errors of highlights numbered from `base`, highlight by
      highlight. */
  function AllChecks(hs: seq<Highlight>, base: nat): seq<ValidationError> {
    FlatMapFrom(hs, base, Checks)
  }

  /** No errors exactly when every highlight is clean. */
  lemma {:induction false} AllChecksEmpty(hs: seq<Highlight>, base: nat)
    ensures AllChecks(hs, base) == [] <==> forall k :: 0 <= k < |hs| ==> Clean(hs[k])
  {
    if |hs| > 0 {
      AllChecksEmpty(hs[1..], base + 1);
      assert forall k :: 1 <= k < |hs| ==> hs[k] == hs[1..][k - 1];
    }
  }

  /** The errors of an earlier highlight come before those of a later
      one: checking a list in two parts gives the same errors. */
  lemma AllChecksAppend(a: seq<Highlight>, b: seq<Highlight>, base: nat)
    ensures AllChecks(a + b, base) == AllChecks(a, base) + AllChecks(b, base + |a|)
  {
    FlatMapFromAppend(a, b, base, Checks);
  }

  lemma AllChecksCons(hs: seq<Highlight>, base: nat)
    requires |hs| > 0
    ensures AllChecks(hs, base) == Checks(base, hs[0]) + AllChecks(hs[1..], base + 1)
  {
  }

  lemma ViolationInChecks(i: nat, h: Highlight, rule: Rule)
    requires Violates(rule, h)
    ensures ErrorFor(rule, i, h) in Checks(i, h)
  {
    ChecksExact(i, h);
  }

  lemma InMiddle<T>(x: T, a: seq<T>, b: seq<T>, c: seq<T>)
    requires x in b
    ensures x in a + (b + c)
  {
  }

  /** What `f` gives for one item is part of the whole. */
  lemma FlatMapFromHas<T, U>(xs: seq<T>, k: nat, base: nat, f: (nat, T) -> seq<U>, x: U)
    requires k < |xs| && x in f(base + k, xs[k])
    ensures x in FlatMapFrom(xs, base, f)
  {
    FlatMapFromAt(xs, k, base, f);
    InMiddle(x, FlatMapFrom(xs[..k], base, f), f(base + k, xs[k]), FlatMapFrom(xs[k + 1..], base + k + 1, f));
  }

  lemma FlatMapFromAt<T, U>(xs: seq<T>, k: nat, base: nat, f: (nat, T) -> seq<U>)
    requires k < |xs|
    ensures FlatMapFrom(xs, base, f)
      == FlatMapFrom(xs[..k], base, f) + (f(base + k, xs[k]) + FlatMapFrom(xs[k + 1..], base + k + 1, f))
  {
    var rest := xs[k..];
    FlatMapFromAppend(xs[..k], rest, base, f);
    assert xs[..k] + rest == xs;
    assert rest[0] == xs[k] && rest[1..] == xs[k + 1..];
  }

  /** Each broken rule of the highlight at index `k` is reported under
      that index. */
  lemma ViolationReported(hs: seq<Highlight>, k: nat, rule: Rule)
    requires k < |hs| && Violates(rule, hs[k])
    ensures ErrorFor(rule, k, hs[k]) in AllChecks(hs, 0)
  {
    ViolationInChecks(k, hs[k], rule);
    FlatMapFromHas(hs, k, 0, Checks, ErrorFor(rule, k, hs[k]));
  }

  /** A highlight as the service receives it: already a model, or a plain
      dictionary still to be converted. */
  datatype Entry = Model(h: Highlight) | Dict(raw: Json)

  function ConvertOne(e: Entry): Result<Highlight> {
    match e
    case Model(h) => Success(h)
    case Dict(j) => ParseHighlight(j)
  }

  /** Converting the whole list, as the comprehension does: the first
      conversion that raises stops it. */
  function Convert(es: seq<Entry>): (r: Result<seq<Highlight>>)
    ensures r.Success? <==> forall k :: 0 <= k < |es| ==> ConvertOne(es[k]).Success?
    ensures r.Success? ==> |r.value| == |es| && forall k :: 0 <= k < |es| ==> ConvertOne(es[k]) == Success(r.value[k])
  {
    if |es| == 0 then Success([])
    else
      assert forall k :: 1 <= k < |es| ==> es[k] == es[1..][k - 1];
      match ConvertOne(es[0])
      case Failure(e) => Failure(e)
      case Success(h) =>
        match Convert(es[1..])
        case Failure(e) => Failure(e)
        case Success(rest) => Success([h] + rest)
  }

  const UnexpectedField := "highlights"
  const UnexpectedMessage := "Unexpected validation failure"

  /** `_validate_highlights`: a failed conversion gives one error naming
      the list; otherwise each highlight's errors, in index order. */
  function ValidateHighlights(es: seq<Entry>): (r: seq<ValidationError>)
    ensures Convert(es).Failure? ==> r == [ValidationError(UnexpectedField, UnexpectedMessage, TextValue(Convert(es).error))]
    ensures Convert(es).Success? ==> r == AllChecks(Convert(es).value, 0)
    ensures r == [] <==> Convert(es).Success? && forall k :: 0 <= k < |Convert(es).value| ==> Clean(Convert(es).value[k])
  {
    match Convert(es)
    case Failure(e) => [ValidationError(UnexpectedField, UnexpectedMessage, TextValue(e))]
    case Success(hs) =>
      AllChecksEmpty(hs, 0);
      AllChecks(hs, 0)
  }

  /** Every highlight the schema accepted already ends after it starts, so
      the range rule never fires for them. */
  lemma RangeRuleUnreachable(es: seq<Entry>)
    requires forall k :: 0 <= k < |es| ==> es[k].Model? ==> ValidHighlight(es[k].h)
    ensures forall k :: 0 <= k < |ValidateHighlights(es)| ==> ValidateHighlights(es)[k].message != Message(EmptyRange)
  {
    var r := ValidateHighlights(es);
    if Convert(es).Success? {
      var hs := Convert(es).value;
      forall k | 0 <= k < |hs| ensures ValidHighlight(hs[k]) {
        assert ConvertOne(es[k]) == Success(hs[k]);
      }
      NoRangeErrors(hs, 0);
    }
  }

  lemma {:induction false} NoRangeErrors(hs: seq<Highlight>, base: nat)
    requires forall k :: 0 <= k < |hs| ==> ValidHighlight(hs[k])
    ensures forall k :: 0 <= k < |AllChecks(hs, base)| ==> AllChecks(hs, base)[k].message != Message(EmptyRange)
  {
    if |hs| > 0 {
      var c := Checks(base, hs[0]);
      AllChecksCons(hs, base);
      ChecksExact(base, hs[0]);
      ChecksOrdered(base, hs[0]);
      assert forall k :: 0 <= k < |c| ==> c[k].message != Message(EmptyRange) by {
        forall k | 0 <= k < |c| ensures c[k].message != Message(EmptyRange) {
          var rule := RuleOf(c[k].message).value;
          assert c[k] == ErrorFor(rule, base, hs[0]);
          assert ErrorFor(rule, base, hs[0]) in c;
          assert rule != EmptyRange;
        }
      }
      NoRangeErrors(hs[1..], base + 1);
    }
  }

  /** A highlight row as stored: a missing confidence is stored as 0. */
  datatype StoredHighlight = StoredHighlight(insight: string, start: real, end: real, confidenceScore: real, eventMeta: Evidence)

  datatype ImportJob = ImportJob(
    asset: Asset, status: Jobs.Status, validationErrors: Option<seq<ValidationError>>,
    errorMessage: Option<string>, highlights: seq<StoredHighlight>)

  function Store(h: Highlight): StoredHighlight {
    StoredHighlight(h.insight, h.start, h.end, h.confidenceScore.GetOr(0.0), h.eventMeta)
  }

  function StoreAll(hs: seq<Highlight>): (r: seq<StoredHighlight>)
    ensures |r| == |hs| && forall k :: 0 <= k < |hs| ==> r[k] == Store(hs[k])
  {
    if |hs| == 0 then [] else [Store(hs[0])] + StoreAll(hs[1..])
  }

  const ValidationFailed := "Validation failed"

  /** `create_import_job`: a job that failed validation is stored as failed
      with its errors, any other as pending; the highlights are stored
      either way. A conversion that raises while storing them aborts the
      whole job (`None`). */
  function CreateImportJob(asset: Asset, es: seq<Entry>): (r: Option<ImportJob>)
    ensures r.None? <==> exists k :: 0 <= k < |es| && ConvertOne(es[k]).Failure?
    ensures r.Some? ==> r.value.asset == asset
    ensures r.Some? ==> (r.value.status == Jobs.Failed <==> ValidateHighlights(es) != [])
    ensures r.Some? ==> (r.value.status == Jobs.Failed || r.value.status == Jobs.Pending)
    ensures r.Some? && r.value.status == Jobs.Failed ==>
      r.value.validationErrors == Some(ValidateHighlights(es)) && r.value.errorMessage == Some(ValidationFailed)
    ensures r.Some? && r.value.status == Jobs.Pending ==> r.value.validationErrors.None? && r.value.errorMessage.None?
    ensures r.Some? ==> |r.value.highlights| == |es|
    ensures r.Some? ==> forall k :: 0 <= k < |es| ==> (ConvertOne(es[k]).Success?
      && r.value.highlights[k] == Store(ConvertOne(es[k]).value))
  {
    var errors := ValidateHighlights(es);
    match Convert(es)
    case Failure(_) => None
    case Success(hs) =>
      if |errors| > 0 then Some(ImportJob(asset, Jobs.Failed, Some(errors), Some(ValidationFailed), StoreAll(hs)))
      else Some(ImportJob(asset, Jobs.Pending, None, None, StoreAll(hs)))
  }

  /** The error a failed conversion produces is never stored: the same
      conversion aborts the job before it is written. */
  lemma UnexpectedErrorNeverStored(asset: Asset, es: seq<Entry>)
    requires forall k :: 0 <= k < |es| ==> ConvertOne(es[k]).Success?
    ensures CreateImportJob(asset, es).Some?
    ensures var errors := CreateImportJob(asset, es).value.validationErrors;
      errors.Some? ==> forall k :: 0 <= k < |errors.value| ==> errors.value[k].message != UnexpectedMessage
  {
    var hs := Convert(es).value;
    var errors := ValidateHighlights(es);
    assert errors == AllChecks(hs, 0);
    KnownMessages(hs, 0);
  }

  lemma {:induction false} KnownMessages(hs: seq<Highlight>, base: nat)
    ensures forall k :: 0 <= k < |AllChecks(hs, base)| ==> RuleOf(AllChecks(hs, base)[k].message).Some?
  {
    if |hs| > 0 {
      AllChecksCons(hs, base);
      ChecksOrdered(base, hs[0]);
      KnownMessages(hs[1..], base + 1);
    }
  }

  /** A stored confidence of 0 means the highlight gave none or gave 0;
      only the latter is reported by validation. */
  lemma StoredZeroConfidence(h: Highlight)
    ensures Store(h).confidenceScore == 0.0 <==> h.confidenceScore.None? || Violates(ZeroConfidence, h)
  {
  }
}

=== FILE: jobs.dfy ===
/** The job life-cycle shared by export, import and video-split jobs
    (`JobStatus` in app/models/models.py). */
module Jobs {

  datatype Status = Pending | Processing | Completed | Failed | Cancelled

  /** The value stored in the database column. */
  function Value(s: Status): (r: string)
    ensures |r| > 0
  {
    match s
    case Pending => "pending"
    case Processing => "processing"
    case Completed => "completed"
    case Failed => "failed"
    case Cancelled => "cancelled"
  }

  /** A job has finished once it completed or failed. */
  predicate Finished(s: Status) {
    s == Completed || s == Failed
  }
}

=== FILE: json.dfy ===
/** Decoded JSON values as Python sees them after `json.loads`, with Python's
    truthiness and `str()`. */
module Json {
  import opened Text
  import opened Wrappers

  type NonEmptyString = s: string | |s| > 0 witness "0"

  /** A decoded JSON value. A number keeps its value and the text Python's
      `str()` gives it, because float printing is outside this model. An
      object keeps its entries in insertion order. */
  datatype Json =
    | JNull
    | JBool(b: bool)
    | JNum(value: real, text: NonEmptyString)
    | JStr(s: string)
    | JList(items: seq<Json>)
    | JObject(entries: seq<(string, Json)>)

  /** Python truthiness: None, False, zero, "" and empty containers are false. */
  predicate Truthy(j: Json) {
    match j
    case JNull => false
    case JBool(b) => b
    case JNum(v, _) => v != 0.0
    case JStr(s) => s != ""
    case JList(xs) => |xs| > 0
    case JObject(es) => |es| > 0
  }

  /** `d.get(key)`: the value stored under `key`, the last entry winning as
      it does when `json.loads` meets a repeated key. */
  function Get(entries: seq<(string, Json)>, key: string): (r: Option<Json>)
    ensures r.Some? ==> exists i :: 0 <= i < |entries| && entries[i] == (key, r.value)
    ensures r.None? ==> forall i :: 0 <= i < |entries| ==> entries[i].0 != key
  {
    if |entries| == 0 then None
    else if entries[|entries| - 1].0 == key then Some(entries[|entries| - 1].1)
    else
      var r := Get(entries[..|entries| - 1], key);
      assert forall i :: 0 <= i < |entries| - 1 ==> entries[..|entries| - 1][i] == entries[i];
      r
  }

  /** A key held by exactly one entry is found at that entry. */
  lemma {:induction false} GetUnique(entries: seq<(string, Json)>, key: string, i: nat)
    requires i < |entries| && entries[i].0 == key
    requires forall j :: 0 <= j < |entries| && j != i ==> entries[j].0 != key
    ensures Get(entries, key) == Some(entries[i].1)
  {
    if i != |entries| - 1 {
      var init := entries[..|entries| - 1];
      GetUnique(init, key, i);
    }
  }

  /** Python `str(j)`: a string is itself, anything else its `repr`. */
  function Str(j: Json): string {
    if j.JStr? then j.s else Repr(j)
  }

  /** Python `repr(j)`; string quoting is simplified to surrounding quotes. */
  function Repr(j: Json): (r: string)
    ensures |r| > 0
    decreases j, 1
  {
    match j
    case JNull => "None"
    case JBool(b) => if b then "True" else "False"
    case JNum(_, t) => t
    case JStr(s) => "'" + s + "'"
    case JList(xs) => "[" + ReprItems(j, xs) + "]"
    case JObject(es) => "{" + ReprEntries(j, es) + "}"
  }

  function ReprItems(parent: Json, xs: seq<Json>): string
    requires forall i :: 0 <= i < |xs| ==> xs[i] < parent
    decreases parent, 0, |xs|
  {
    if |xs| == 0 then ""
    else if |xs| == 1 then Repr(xs[0])
    else Repr(xs[0]) + ", " + ReprItems(parent, xs[1..])
  }

  function ReprEntries(parent: Json, es: seq<(string, Json)>): string
    requires forall i :: 0 <= i < |es| ==> es[i].1 < parent
    decreases parent, 0, |es|
  {
    if |es| == 0 then ""
    else
      var head := "'" + es[0].0 + "': " + Repr(es[0].1);
      if |es| == 1 then head else head + ", " + ReprEntries(parent, es[1..])
  }

  /** `str()` is empty only for the empty string. */
  lemma StrEmpty(j: Json)
    ensures Str(j) == "" <==> j == JStr("")
  {
  }
}

=== FILE: markers.dfy ===
/** The timeline arithmetic of the XML writers in
    app/services/artifact_generator.py: the frame rate, clip duration and
    markers of the transcript XMEML (`generate_transcript_fcpxml`), and the
    frame duration, clip duration and markers of the events and insights
    FCPXML (`generate_events_fcpxml`, `generate_insights_fcpxml`). The XML
    tree itself is not modelled; its numbers and labels are. */
module Markers {
  import opened Wrappers
  import opened Text
  import opened Timecode
  import opened Segments

  /** What the video probe reports: the frame rate as ffprobe writes it
      (`"30000/1001"`), the duration in seconds, the frame size. Whether the
      video file exists is outside the model: a missing file is `None`. */
  datatype Probe = Probe(fps: string, duration: real, width: int, height: int)

  /** Frame rate used when there is no probe. */
  const DefaultFps: int := 25

  /** `max(float(seg["end"]) for seg in segments)`, or 1 for no segments;
      the first segment without `end` raises `KeyError`. */
  function FallbackDuration(segs: seq<Segment>): (r: Result<real>)
    ensures r.Success? <==> forall i :: 0 <= i < |segs| ==> segs[i].end.Some?
    ensures |segs| == 0 ==> r == Success(1.0)
    ensures r.Failure? ==> r.error == "'end'"
    ensures r.Success? && |segs| > 0 ==>
      (forall i :: 0 <= i < |segs| ==> segs[i].end.value <= r.value)
      && (exists i :: 0 <= i < |segs| && segs[i].end.value == r.value)
  {
    if |segs| == 0 then Success(1.0)
    else if forall i :: 0 <= i < |segs| ==> segs[i].end.Some? then
      var m := MaxEnd(segs);
      assert forall i :: 0 <= i < |segs| ==> EndOr0(segs[i]) == segs[i].end.value;
      Success(m)
    else Failure("'end'")
  }

  /** `round(int(num) / int(den))` for a rate written `num/den`, or
      `round(float(raw))` otherwise; `float` of a text is the parameter
      `number`, since Python's float parser is outside this model. */
  function ProbeFps(raw: string, number: string -> Result<real>): (r: Result<int>)
    ensures '/' in raw && Count(raw, '/') != 1 ==> r.Failure?
  {
    if '/' in raw then
      var parts := Split(raw, '/');
      if |parts| != 2 then Failure(UnpackError(|parts|))
      else
        var num :- ParseInt(parts[0]);
        var den :- ParseInt(parts[1]);
        if den == 0 then Failure("division by zero")
        else Success(RoundHalfEven(num as real / den as real))
    else
      var x :- number(raw);
      Success(RoundHalfEven(x))
  }

  /** A rate written as two parts around one `/` splits into those parts. */
  lemma RateParts(num: string, den: string)
    requires '/' !in num && '/' !in den
    ensures '/' in num + "/" + den
    ensures Split(num + "/" + den, '/') == [num, den]
  {
    var raw := num + "/" + den;
    assert raw[|num|] == '/';
    SplitJoin([num, den], '/');
    assert Join([num, den], ['/']) == raw;
  }

  /** A well-formed rate `num/den` rounds to the nearest whole frame rate. */
  lemma ProbeFpsFraction(num: nat, den: nat, number: string -> Result<real>)
    requires den > 0
    ensures ProbeFps(Digits(num) + "/" + Digits(den), number)
      == Success(RoundHalfEven(num as real / den as real))
  {
    RateParts(Digits(num), Digits(den));
    ParseIntDigits(num);
    ParseIntDigits(den);
  }

  /** A zero denominator is a division by zero. */
  lemma ProbeFpsZeroDen(num: nat, number: string -> Result<real>)
    ensures ProbeFps(Digits(num) + "/" + Digits(0), number) == Failure("division by zero")
  {
    RateParts(Digits(num), Digits(0));
    ParseIntDigits(num);
    ParseIntDigits(0);
  }

  /** One XMEML marker: its label and its in and out frames. */
  datatype XMarker = XMarker(name: string, inFrame: int, outFrame: int)

  /** The XMEML timeline numbers: the frame rate, the clip length in frames,
      the frame size and the markers. */
  datatype Timeline = Timeline(fps: int, durationFrames: int, width: string, height: string, markers: seq<XMarker>)

  /** `int(round(float(seconds) * fps))`. */
  function ToFrames(seconds: real, fps: int): int {
    RoundHalfEven(seconds * fps as real)
  }

  /** `"[type] text"` when the segment has a type, else the text alone;
      a missing key reads as the empty string. */
  function MarkerLabel(s: Segment): string {
    var eventType := s.eventType.GetOr("");
    var text := s.eventValue.GetOr("");
    if eventType != "" then "[" + eventType + "] " + text else text
  }

  /** The marker of one segment: in at the start, out at the end or, when
      the end is missing, the start; a missing start reads as 0. */
  function XMarkerOf(s: Segment, fps: int): (m: XMarker)
    ensures m.name == MarkerLabel(s)
    ensures m.inFrame == ToFrames(StartOr0(s), fps)
    ensures StartOr0(s) * fps as real - 0.5 <= m.inFrame as real <= StartOr0(s) * fps as real + 0.5
    ensures s.end.Some? ==> m.outFrame == ToFrames(s.end.value, fps)
    ensures s.end.None? ==> m.outFrame == m.inFrame
  {
    var start := StartOr0(s);
    var end := s.end.GetOr(start);
    XMarker(MarkerLabel(s), ToFrames(start, fps), ToFrames(end, fps))
  }

  function XMarkers(segs: seq<Segment>, fps: int): (r: seq<XMarker>)
    ensures |r| == |segs|
    ensures forall i :: 0 <= i < |segs| ==> r[i] == XMarkerOf(segs[i], fps)
  {
    seq(|segs|, i requires 0 <= i < |segs| => XMarkerOf(segs[i], fps))
  }

  /** The XMEML timeline: from the probe when there is one, else at 25 fps
      for the latest segment end (1 second without segments) at 1920x1080. */
  function TranscriptTimeline(segs: seq<Segment>, probe: Option<Probe>, number: string -> Result<real>): (r: Result<Timeline>)
    ensures probe.None? ==> (r.Success? <==> forall i :: 0 <= i < |segs| ==> segs[i].end.Some?)
    ensures r.Success? ==> |r.value.markers| == |segs|
    ensures r.Success? ==> forall i :: 0 <= i < |segs| ==> r.value.markers[i] == XMarkerOf(segs[i], r.value.fps)
    ensures r.Success? && probe.None? ==> r.value.fps == DefaultFps && r.value.width == "1920" && r.value.height == "1080"
  {
    match probe
    case Some(p) =>
      var fps :- ProbeFps(p.fps, number);
      Success(Timeline(fps, Trunc(p.duration * fps as real), IntText(p.width), IntText(p.height), XMarkers(segs, fps)))
    case None =>
      var dur :- FallbackDuration(segs);
      Success(Timeline(DefaultFps, Trunc(dur * DefaultFps as real), "1920", "1080", XMarkers(segs, DefaultFps)))
  }

  /** `str(n)` of an integer. */
  function IntText(n: int): string {
    if n < 0 then "-" + Digits(-n) else Digits(n)
  }

  /** Without a probe and without segments the clip is one second: 25
      frames. */
  lemma EmptyTimeline(number: string -> Result<real>)
    ensures TranscriptTimeline([], None, number) == Success(Timeline(25, 25, "1920", "1080", []))
  {
    assert (1.0 * 25 as real).Floor == 25;
  }

  /** Without a probe the clip reaches the last frame of the latest end:
      every segment's end lies within the clip. */
  lemma FallbackCoversSegments(segs: seq<Segment>, number: string -> Result<real>)
    requires forall i :: 0 <= i < |segs| ==> segs[i].end.Some? && segs[i].end.value >= 0.0
    ensures var r := TranscriptTimeline(segs, None, number);
      r.Success? && forall i :: 0 <= i < |segs| ==> Trunc(segs[i].end.value * 25.0) <= r.value.durationFrames
  {
    var dur := FallbackDuration(segs).value;
    NoProbeFrames(segs, number);
    assert DefaultFps as real == 25.0;
    forall i | 0 <= i < |segs| ensures Trunc(segs[i].end.value * 25.0) <= Trunc(dur * 25.0) {
      FramesWithin(segs[i].end.value, dur);
    }
  }

  lemma NoProbeFrames(segs: seq<Segment>, number: string -> Result<real>)
    requires FallbackDuration(segs).Success?
    ensures TranscriptTimeline(segs, None, number).Success?
    ensures TranscriptTimeline(segs, None, number).value.durationFrames == Trunc(FallbackDuration(segs).value * DefaultFps as real)
  {
  }

  lemma FramesWithin(e: real, dur: real)
    requires 0.0 <= e <= dur
    ensures Trunc(e * 25.0) <= Trunc(dur * 25.0)
  {
    ScaleMonotone(e, dur, 25);
    TruncMonotone(e * 25.0, dur * 25.0);
  }

  /** Truncation never reverses order among non-negative values. */
  lemma TruncMonotone(x: real, y: real)
    requires 0.0 <= x <= y
    ensures Trunc(x) <= Trunc(y)
  {
  }

  /** Round-half-even never reverses order. */
  lemma RoundMonotone(x: real, y: real)
    requires x <= y
    ensures RoundHalfEven(x) <= RoundHalfEven(y)
  {
  }

  /** Scaling by a non-negative factor keeps order. */
  lemma ScaleMonotone(x: real, y: real, f: int)
    requires x <= y && f >= 0
    ensures x * f as real <= y * f as real
  {
    assert y * f as real - x * f as real == (y - x) * f as real;
  }

  /** Later times never map to earlier frames. */
  lemma ToFramesMonotone(x: real, y: real, fps: int)
    requires x <= y && fps >= 0
    ensures ToFrames(x, fps) <= ToFrames(y, fps)
  {
    ScaleMonotone(x, y, fps);
    RoundMonotone(x * fps as real, y * fps as real);
    assert RoundHalfEven(x * fps as real) <= RoundHalfEven(y * fps as real);
    assert ToFrames(x, fps) == RoundHalfEven(x * fps as real);
    assert ToFrames(y, fps) == RoundHalfEven(y * fps as real);
  }

  /** A marker whose end does not precede its start never has its out frame
      before its in frame. */
  lemma MarkerInBeforeOut(s: Segment, fps: int)
    requires fps >= 0
    requires s.end.Some? ==> StartOr0(s) <= s.end.value
    ensures XMarkerOf(s, fps).inFrame <= XMarkerOf(s, fps).outFrame
  {
    var start := StartOr0(s);
    ToFramesMonotone(start, s.end.GetOr(start), fps);
  }

  /** Markers of segments in time order come out in frame order. */
  lemma MarkersKeepOrder(segs: seq<Segment>, fps: int, i: nat, j: nat)
    requires fps >= 0 && i < |segs| && j < |segs|
    requires StartOr0(segs[i]) <= StartOr0(segs[j])
    ensures XMarkers(segs, fps)[i].inFrame <= XMarkers(segs, fps)[j].inFrame
  {
    ToFramesMonotone(StartOr0(segs[i]), StartOr0(segs[j]), fps);
  }

  /** A typed label is the type in brackets, a space and the text, so the
      text can be recovered after the first `"] "`. */
  lemma LabelCarriesText(s: Segment)
    requires s.eventType.Some? && s.eventType.value != ""
    ensures var t := s.eventType.value;
      MarkerLabel(s)[|t| + 3..] == s.eventValue.GetOr("") && MarkerLabel(s)[..|t| + 3] == "[" + t + "] "
  {
  }

  /** One FCPXML marker, its times in seconds. */
  datatype FMarker = FMarker(id: string, start: real, end: real, duration: real, eventType: string, value: string)

  /** `max(end - start, 0)` with the end falling back to the start. */
  function FMarkerOf(s: Segment): (m: FMarker)
    ensures m.start == StartOr0(s)
    ensures s.end.None? ==> m.end == m.start
    ensures m.duration >= 0.0
    ensures m.end >= m.start ==> m.duration == m.end - m.start
    ensures m.end < m.start ==> m.duration == 0.0
  {
    var start := StartOr0(s);
    var end := s.end.GetOr(start);
    FMarker(s.id.GetOr(""), start, end, if end - start > 0.0 then end - start else 0.0,
      s.eventType.GetOr(""), s.eventValue.GetOr(""))
  }

  /** The FCPXML timeline numbers: the format's frame duration, the clip
      duration in seconds, the frame size and the markers. */
  datatype FTimeline = FTimeline(frameDuration: string, duration: real, width: string, height: string, markers: seq<FMarker>)

  /** The events and insights FCPXML timeline: from the probe when there is
      one, else `1/25s` for the latest segment end (1 second without
      segments) at 1920x1080. */
  function EventsTimeline(segs: seq<Segment>, probe: Option<Probe>): (r: Result<FTimeline>)
    ensures probe.None? ==> (r.Success? <==> forall i :: 0 <= i < |segs| ==> segs[i].end.Some?)
    ensures probe.Some? ==> (r.Success? <==> Count(probe.value.fps, '/') == 1)
    ensures r.Success? ==> |r.value.markers| == |segs|
    ensures r.Success? ==> forall i :: 0 <= i < |segs| ==> r.value.markers[i] == FMarkerOf(segs[i])
    ensures r.Success? && probe.None? ==> r.value.frameDuration == "1/25s"
  {
    var markers := seq(|segs|, i requires 0 <= i < |segs| => FMarkerOf(segs[i]));
    match probe
    case Some(p) =>
      var fd :- FrameDuration(p.fps);
      Success(FTimeline(fd, p.duration, IntText(p.width), IntText(p.height), markers))
    case None =>
      var dur :- FallbackDuration(segs);
      Success(FTimeline("1/25s", dur, "1920", "1080", markers))
  }

  /** A marker's written duration never carries a minus sign. */
  lemma MarkerDurationText(s: Segment)
    ensures FcpxTime(FMarkerOf(s).duration)[0] != '-'
  {
  }
}

=== FILE: schemas.dfy ===
/** A field of a request body as the validators see it: left out, given as
    null, or given a value of the right type. */
module Fields {
  datatype Field<+T> = Absent | Null | Given(value: T)

  /** A field with a default: absent takes the default, null is refused. */
  function WithDefault<T>(f: Field<T>, name: string, default: T): (r: Result<T>)
    ensures f.Absent? ==> r == Success(default)
    ensures f.Given? ==> r == Success(f.value)
    ensures f.Null? ==> r.Failure?
  {
    match f
    case Absent => Success(default)
    case Null => Failure(name + ": Input should not be None")
    case Given(v) => Success(v)
  }

  /** An optional field with a default: absent takes the default and null
      is kept as `None`. */
  function OptionalWithDefault<T>(f: Field<T>, default: Option<T>): Option<T> {
    match f
    case Absent => default
    case Null => None
    case Given(v) => Some(v)
  }

  /** A required field: it must be given. */
  function Required<T>(f: Field<T>, name: string): (r: Result<T>)
    ensures r.Success? <==> f.Given?
    ensures f.Given? ==> r == Success(f.value)
  {
    match f
    case Given(v) => Success(v)
    case _ => Failure(name + ": Field required")
  }

  import opened Wrappers
}

/** The export request schema of app/schemas/export_schemas.py. */
module ExportSchemas {
  import opened Wrappers
  import opened Fields

  /** The formats an output may ask for. */
  const AllowedFormats: set<string> := {"json", "csv", "srt", "vtt", "fcpxml", "edl"}
  const AllowedSelectsFormats: set<string> := {"edl", "fcpxml"}
  const AllowedSources: set<string> := {"comments", "markers"}
  const ExportModes: set<string> := {"editorial", "llm", "review", "promo", "custom"}

  datatype OutputFormats = OutputFormats(formats: seq<string>, isSingleSegment: Option<bool>)
  datatype SelectsConfig = SelectsConfig(enabled: bool, formats: seq<string>)
  datatype SubclipsConfig = SubclipsConfig(enabled: bool, source: seq<string>, handleSeconds: int)
  datatype ExportMetadata = ExportMetadata(requestedBy: Option<string>, exportPreset: string, exportMode: string)
  datatype ExportOutputs = ExportOutputs(
    transcript: Option<OutputFormats>, events: Option<OutputFormats>,
    comments: Option<OutputFormats>, markers: Option<OutputFormats>,
    selects: SelectsConfig, grounding: bool)
  datatype ExportInputs = ExportInputs(eventIds: seq<string>)
  datatype UserInputs = UserInputs(prompt: Option<string>, llmInstructions: Option<bool>)
  datatype MediaConfig = MediaConfig(includeFullProxy: bool, subclips: SubclipsConfig)
  datatype ExportWorkOrder = ExportWorkOrder(
    sparkVersion: string, repoGuid: string, inputs: ExportInputs, userInputs: UserInputs,
    outputs: ExportOutputs, media: MediaConfig, metadata: ExportMetadata)

  /** The first entry of `v` outside `allowed`, if any. */
  function FirstOutside(v: seq<string>, allowed: set<string>): (r: Option<string>)
    ensures r.None? <==> forall i :: 0 <= i < |v| ==> v[i] in allowed
    ensures r.Some? ==> r.value in v && r.value !in allowed
  {
    if |v| == 0 then None
    else if v[0] !in allowed then Some(v[0])
    else
      var r := FirstOutside(v[1..], allowed);
      assert forall i :: 1 <= i < |v| ==> v[i] == v[1..][i - 1];
      r
  }

  /** `OutputFormats.formats`: at least one entry, each an allowed format;
      a valid list is returned as it is. */
  function ValidateFormats(v: seq<string>): (r: Result<seq<string>>)
    ensures r.Success? <==> |v| >= 1 && forall i :: 0 <= i < |v| ==> v[i] in AllowedFormats
    ensures r.Success? ==> r.value == v
  {
    if |v| == 0 then Failure("formats: List should have at least 1 item after validation, not 0")
    else match FirstOutside(v, AllowedFormats)
      case Some(f) => Failure("Invalid format: " + f)
      case None => Success(v)
  }

  function ParseOutputFormats(formats: Field<seq<string>>, isSingleSegment: Field<bool>): (r: Result<OutputFormats>)
    ensures r.Success? <==> formats.Given? && ValidateFormats(formats.value).Success?
    ensures r.Success? ==> r.value.formats == formats.value
    ensures isSingleSegment.Absent? && r.Success? ==> r.value.isSingleSegment == Some(false)
  {
    match Required(formats, "formats")
    case Failure(e) => Failure(e)
    case Success(v) =>
      match ValidateFormats(v)
      case Failure(e) => Failure(e)
      case Success(w) => Success(OutputFormats(w, OptionalWithDefault(isSingleSegment, Some(false))))
  }

  const DefaultSelectsFormats: seq<string> := ["edl", "fcpxml"]

  /** `SelectsConfig`: disabled by default; formats default to EDL and
      FCPXML and may only name those two (an empty list is accepted). */
  function ParseSelects(enabled: Field<bool>, formats: Field<seq<string>>): (r: Result<SelectsConfig>)
    ensures r.Success? <==> (!enabled.Null? && !formats.Null?
      && (formats.Given? ==> forall i :: 0 <= i < |formats.value| ==> formats.value[i] in AllowedSelectsFormats))
    ensures r.Success? ==> forall i :: 0 <= i < |r.value.formats| ==> r.value.formats[i] in AllowedSelectsFormats
    ensures r.Success? && enabled.Absent? ==> !r.value.enabled
    ensures r.Success? && formats.Absent? ==> r.value.formats == DefaultSelectsFormats
    ensures r.Success? && enabled.Given? ==> r.value.enabled == enabled.value
    ensures r.Success? && formats.Given? ==> r.value.formats == formats.value
  {
    match WithDefault(enabled, "enabled", false)
    case Failure(e) => Failure(e)
    case Success(en) =>
      match WithDefault(formats, "formats", DefaultSelectsFormats)
      case Failure(e) => Failure(e)
      case Success(fs) =>
        if formats.Absent? then Success(SelectsConfig(en, fs))
        else match FirstOutside(fs, AllowedSelectsFormats)
          case Some(f) => Failure("Invalid selects format: " + f)
          case None => Success(SelectsConfig(en, fs))
  }

  /** The default selects formats are themselves allowed. */
  lemma DefaultSelectsAllowed()
    ensures FirstOutside(DefaultSelectsFormats, AllowedSelectsFormats).None?
    ensures ParseSelects(Absent, Absent) == Success(SelectsConfig(false, ["edl", "fcpxml"]))
  {
  }

  const DefaultSources: seq<string> := ["comments", "markers"]

  /** `SubclipsConfig`: enabled by default; sources default to comments and
      markers and may only name those; the handle is an integer number of
      seconds from 0 to 30, 2 by default. */
  function ParseSubclips(enabled: Field<bool>, source: Field<seq<string>>, handleSeconds: Field<int>): (r: Result<SubclipsConfig>)
    ensures r.Success? <==> (!enabled.Null? && !source.Null? && !handleSeconds.Null?
      && (handleSeconds.Given? ==> 0 <= handleSeconds.value <= 30)
      && (source.Given? ==> forall i :: 0 <= i < |source.value| ==> source.value[i] in AllowedSources))
    ensures r.Success? ==> 0 <= r.value.handleSeconds <= 30
    ensures r.Success? ==> forall i :: 0 <= i < |r.value.source| ==> r.value.source[i] in AllowedSources
    ensures r.Success? && enabled.Given? ==> r.value.enabled == enabled.value
    ensures r.Success? && source.Given? ==> r.value.source == source.value
    ensures r.Success? && handleSeconds.Given? ==> r.value.handleSeconds == handleSeconds.value
    ensures handleSeconds.Given? && !(0 <= handleSeconds.value <= 30) ==> r.Failure?
    ensures r.Success? && handleSeconds.Absent? ==> r.value.handleSeconds == 2
    ensures r.Success? && source.Absent? ==> r.value.source == DefaultSources
    ensures r.Success? && enabled.Absent? ==> r.value.enabled
  {
    match WithDefault(enabled, "enabled", true)
    case Failure(e) => Failure(e)
    case Success(en) =>
      match WithDefault(source, "source", DefaultSources)
      case Failure(e) => Failure(e)
      case Success(src) =>
        match WithDefault(handleSeconds, "handle_seconds", 2)
        case Failure(e) => Failure(e)
        case Success(h) =>
          if h < 0 then Failure("handle_seconds: Input should be greater than or equal to 0")
          else if h > 30 then Failure("handle_seconds: Input should be less than or equal to 30")
          else if source.Absent? then
            assert src[0] in AllowedSources && src[1] in AllowedSources;
            Success(SubclipsConfig(en, src, h))
          else match FirstOutside(src, AllowedSources)
            case Some(s) => Failure("Invalid subclip source: " + s)
            case None => Success(SubclipsConfig(en, src, h))
  }

  /** `ExportMetadata`: the mode must be one of five names and defaults to
      editorial, as does the preset. */
  function ParseMetadata(requestedBy: Field<string>, exportPreset: Field<string>, exportMode: Field<string>): (r: Result<ExportMetadata>)
    ensures r.Success? <==> (!exportPreset.Null? && !exportMode.Null?
      && (exportMode.Given? ==> exportMode.value in ExportModes))
    ensures r.Success? ==> r.value.exportMode in ExportModes
    ensures r.Success? && exportPreset.Given? ==> r.value.exportPreset == exportPreset.value
    ensures r.Success? ==> r.value.requestedBy == (if requestedBy.Given? then Some(requestedBy.value) else None)
    ensures exportMode.Given? ==> (r.Success? ==> r.value.exportMode == exportMode.value)
    ensures exportMode.Given? && exportMode.value !in ExportModes ==> r.Failure?
    ensures r.Success? && exportMode.Absent? ==> r.value.exportMode == "editorial"
    ensures r.Success? && exportPreset.Absent? ==> r.value.exportPreset == "editorial"
  {
    match WithDefault(exportPreset, "export_preset", "editorial")
    case Failure(e) => Failure(e)
    case Success(preset) =>
      match WithDefault(exportMode, "export_mode", "editorial")
      case Failure(e) => Failure(e)
      case Success(mode) =>
        if mode in ExportModes then Success(ExportMetadata(OptionalWithDefault(requestedBy, None), preset, mode))
        else Failure("export_mode: String should match pattern '^(editorial|llm|review|promo|custom)$'")
  }

  /** `ExportInputs`: the event ids default to none; null is refused. */
  function ParseExportInputs(eventIds: Field<seq<string>>): (r: Result<ExportInputs>)
    ensures r.Success? <==> !eventIds.Null?
    ensures r.Success? && eventIds.Given? ==> r.value.eventIds == eventIds.value
    ensures r.Success? && eventIds.Absent? ==> r.value.eventIds == []
  {
    match WithDefault(eventIds, "event_ids", [])
    case Failure(e) => Failure(e)
    case Success(ids) => Success(ExportInputs(ids))
  }

  /** `UserInputs`: both fields are optional, so an explicit null is kept as
      `None`; the prompt defaults to none and the LLM instructions to on. */
  function ParseUserInputs(prompt: Field<string>, llmInstructions: Field<bool>): (r: UserInputs)
    ensures r.prompt == (if prompt.Given? then Some(prompt.value) else None)
    ensures llmInstructions.Absent? ==> r.llmInstructions == Some(true)
    ensures llmInstructions.Null? ==> r.llmInstructions.None?
    ensures llmInstructions.Given? ==> r.llmInstructions == Some(llmInstructions.value)
  {
    UserInputs(OptionalWithDefault(prompt, None), OptionalWithDefault(llmInstructions, Some(true)))
  }

  /** The subclips configuration a media part without `subclips` gets. */
  const DefaultSubclips: SubclipsConfig := SubclipsConfig(true, DefaultSources, 2)

  /** `MediaConfig`: the full proxy is off by default; the subclips part is
      parsed on its own (`DefaultSubclips` standing for it left out) and a
      failure there fails the media part. */
  function ParseMedia(includeFullProxy: Field<bool>, subclips: Result<SubclipsConfig>): (r: Result<MediaConfig>)
    ensures r.Success? <==> !includeFullProxy.Null? && subclips.Success?
    ensures r.Success? ==> r.value.subclips == subclips.value
    ensures r.Success? ==> r.value.includeFullProxy == (includeFullProxy.Given? && includeFullProxy.value)
  {
    match WithDefault(includeFullProxy, "include_full_proxy", false)
    case Failure(e) => Failure(e)
    case Success(proxy) =>
      match subclips
      case Failure(e) => Failure(e)
      case Success(c) => Success(MediaConfig(proxy, c))
  }

  /** A subclips part left out parses to `DefaultSubclips`, and the media
      part left out to no proxy with those subclips. */
  lemma DefaultMedia()
    ensures ParseSubclips(Absent, Absent, Absent) == Success(DefaultSubclips)
    ensures ParseMedia(Absent, ParseSubclips(Absent, Absent, Absent)) == Success(MediaConfig(false, DefaultSubclips))
  {
  }

  /** `ExportWorkOrderCreate`: the repository id is 1 to 255 characters;
      the version defaults to "1.0"; the nested parts (inputs, user inputs,
      outputs, media, metadata) are validated on their own, and the order
      parses only when every one of them does. */
  function ParseWorkOrder(sparkVersion: Field<string>, repoGuid: Field<string>, inputs: Result<ExportInputs>,
                          userInputs: Result<UserInputs>, outputs: Result<ExportOutputs>,
                          media: Result<MediaConfig>, metadata: Result<ExportMetadata>): (r: Result<ExportWorkOrder>)
    ensures r.Success? ==> 1 <= |r.value.repoGuid| <= 255
    ensures r.Success? <==> (!sparkVersion.Null? && repoGuid.Given? && 1 <= |repoGuid.value| <= 255
      && inputs.Success? && userInputs.Success? && outputs.Success? && media.Success? && metadata.Success?)
    ensures r.Success? && sparkVersion.Absent? ==> r.value.sparkVersion == "1.0"
    ensures r.Success? && sparkVersion.Given? ==> r.value.sparkVersion == sparkVersion.value
    ensures r.Success? ==> r.value == ExportWorkOrder(r.value.sparkVersion, repoGuid.value, inputs.value,
      userInputs.value, outputs.value, media.value, metadata.value)
  {
    match WithDefault(sparkVersion, "spark_version", "1.0")
    case Failure(e) => Failure(e)
    case Success(version) =>
      match Required(repoGuid, "repo_guid")
      case Failure(e) => Failure(e)
      case Success(g) =>
        if |g| < 1 then Failure("repo_guid: String should have at least 1 character")
        else if |g| > 255 then Failure("repo_guid: String should have at most 255 characters")
        else match inputs
          case Failure(e) => Failure(e)
          case Success(i) =>
            match userInputs
            case Failure(e) => Failure(e)
            case Success(u) =>
              match outputs
              case Failure(e) => Failure(e)
              case Success(o) =>
                match media
                case Failure(e) => Failure(e)
                case Success(m) =>
                  match metadata
                  case Failure(e) => Failure(e)
                  case Success(md) => Success(ExportWorkOrder(version, g, i, u, o, m, md))
  }

  /** Every parsed order carries a subclip handle of 0 to 30 seconds: a
      handle outside that range anywhere in the media part refuses the
      whole order. */
  lemma {:induction false} OrderHandleBounded(sparkVersion: Field<string>, repoGuid: Field<string>,
      inputs: Result<ExportInputs>, userInputs: Result<UserInputs>, outputs: Result<ExportOutputs>,
      proxy: Field<bool>, enabled: Field<bool>, source: Field<seq<string>>, handle: Field<int>,
      metadata: Result<ExportMetadata>)
    ensures var r := ParseWorkOrder(sparkVersion, repoGuid, inputs, userInputs, outputs,
                                    ParseMedia(proxy, ParseSubclips(enabled, source, handle)), metadata);
      (r.Success? ==> 0 <= r.value.media.subclips.handleSeconds <= 30)
      && (handle.Given? && !(0 <= handle.value <= 30) ==> r.Failure?)
  {
    var c := ParseSubclips(enabled, source, handle);
    var m := ParseMedia(proxy, c);
    if m.Success? {
      assert m.value.subclips == c.value;
    }
  }
}

/** The video-split request schema of app/schemas/video_split_schemas.py. */
module VideoSplitSchemas {
  import opened Wrappers
  import opened Fields

  datatype Inputs = Inputs(eventIds: seq<string>, videoPath: string)
  datatype Outputs = Outputs(fullVideo: Option<bool>, individualSegments: Option<bool>, mergeSegments: Option<bool>)
  datatype WorkOrder = WorkOrder(
    schemaVersion: string, repoGuid: string, inputs: Inputs, outputs: Outputs,
    handleSeconds: real, outputFolder: Option<string>, encoding: Option<string>, requestedBy: Option<string>)

  /** `ExportVideoInputs`: the video path is required and not empty. */
  function ParseInputs(eventIds: Field<seq<string>>, videoPath: Field<string>): (r: Result<Inputs>)
    ensures r.Success? <==> !eventIds.Null? && videoPath.Given? && |videoPath.value| >= 1
    ensures r.Success? ==> r.value.videoPath == videoPath.value
    ensures r.Success? && eventIds.Absent? ==> r.value.eventIds == []
  {
    match WithDefault(eventIds, "event_ids", [])
    case Failure(e) => Failure(e)
    case Success(ids) =>
      match Required(videoPath, "video_path")
      case Failure(e) => Failure(e)
      case Success(p) =>
        if |p| < 1 then Failure("video_path: String should have at least 1 character")
        else Success(Inputs(ids, p))
  }

  /** `ExportVideoOutputs`: each flag is off unless given (an explicit null
      stays null, which reads as off too). */
  function ParseOutputs(fullVideo: Field<bool>, individualSegments: Field<bool>, mergeSegments: Field<bool>): (r: Outputs)
    ensures fullVideo.Absent? ==> r.fullVideo == Some(false)
    ensures individualSegments.Absent? ==> r.individualSegments == Some(false)
    ensures mergeSegments.Absent? ==> r.mergeSegments == Some(false)
    ensures r.fullVideo == Some(true) <==> fullVideo == Given(true)
    ensures r.individualSegments == Some(true) <==> individualSegments == Given(true)
    ensures r.mergeSegments == Some(true) <==> mergeSegments == Given(true)
  {
    Outputs(OptionalWithDefault(fullVideo, Some(false)),
            OptionalWithDefault(individualSegments, Some(false)),
            OptionalWithDefault(mergeSegments, Some(false)))
  }

  /** `VideoSplitWorkOrderCreate`: repository id of 1 to 255 characters, a
      non-negative handle (0.0 by default), "copy" encoding by default and a
      requester of at most 255 characters. */
  function ParseWorkOrder(
    schemaVersion: Field<string>, repoGuid: Field<string>, inputs: Result<Inputs>, outputs: Outputs,
    handleSeconds: Field<real>, outputFolder: Field<string>, encoding: Field<string>, requestedBy: Field<string>): (r: Result<WorkOrder>)
    ensures r.Success? <==> (!schemaVersion.Null? && repoGuid.Given? && 1 <= |repoGuid.value| <= 255
      && inputs.Success? && !handleSeconds.Null? && (handleSeconds.Given? ==> handleSeconds.value >= 0.0)
      && (requestedBy.Given? ==> |requestedBy.value| <= 255))
    ensures r.Success? ==> 1 <= |r.value.repoGuid| <= 255
    ensures r.Success? ==> r.value.handleSeconds >= 0.0
    ensures r.Success? ==> r.value.repoGuid == repoGuid.value && r.value.inputs == inputs.value && r.value.outputs == outputs
    ensures r.Success? && schemaVersion.Given? ==> r.value.schemaVersion == schemaVersion.value
    ensures r.Success? && handleSeconds.Given? ==> r.value.handleSeconds == handleSeconds.value
    ensures r.Success? && requestedBy.Given? ==> r.value.requestedBy == Some(requestedBy.value)
    ensures r.Success? && requestedBy.Null? ==> r.value.requestedBy.None?
    ensures r.Success? && encoding.Given? ==> r.value.encoding == Some(encoding.value)
    ensures r.Success? && outputFolder.Given? ==> r.value.outputFolder == Some(outputFolder.value)
    ensures r.Success? && r.value.requestedBy.Some? ==> |r.value.requestedBy.value| <= 255
    ensures handleSeconds.Given? && handleSeconds.value < 0.0 ==> r.Failure?
    ensures requestedBy.Given? && |requestedBy.value| > 255 ==> r.Failure?
    ensures r.Success? && handleSeconds.Absent? ==> r.value.handleSeconds == 0.0
    ensures r.Success? && encoding.Absent? ==> r.value.encoding == Some("copy")
    ensures r.Success? && schemaVersion.Absent? ==> r.value.schemaVersion == "1.0"
    ensures r.Success? && outputFolder.Absent? ==> r.value.outputFolder.None?
  {
    match WithDefault(schemaVersion, "schemaVersion", "1.0")
    case Failure(e) => Failure(e)
    case Success(version) =>
      match Required(repoGuid, "repo_guid")
      case Failure(e) => Failure(e)
      case Success(g) =>
        if |g| < 1 || |g| > 255 then Failure("repo_guid: String should have between 1 and 255 characters")
        else match inputs
          case Failure(e) => Failure(e)
          case Success(ins) =>
            match WithDefault(handleSeconds, "handle_seconds", 0.0)
            case Failure(e) => Failure(e)
            case Success(h) =>
              if h < 0.0 then Failure("handle_seconds: Input should be greater than or equal to 0")
              else if requestedBy.Given? && |requestedBy.value| > 255 then
                Failure("requested_by: String should have at most 255 characters")
              else Success(WorkOrder(version, g, ins, outputs, h,
                OptionalWithDefault(outputFolder, None), OptionalWithDefault(encoding, Some("copy")),
                OptionalWithDefault(requestedBy, None)))
  }
}

/** The import request schema of app/schemas/import_schemas.py, read from
    the decoded JSON body: every object refuses keys it does not declare. */
module ImportSchemas {
  import opened Wrappers
  import opened Json

  const SchemaVersion := "sdna.spark.import.v1"

  datatype Evidence = Evidence(associatedEventIds: Option<seq<string>>)
  datatype Highlight = Highlight(insight: string, start: real, end: real, confidenceScore: Option<real>, eventMeta: Evidence)
  datatype Asset = Asset(repoGuid: string, fullPath: string)
  datatype ImportWorkOrder = ImportWorkOrder(asset: Asset, highlights: seq<Highlight>)

  /** What the `Highlight` model guarantees of an accepted value. */
  predicate ValidHighlight(h: Highlight) {
    h.end > h.start && (h.confidenceScore.Some? ==> 0.0 <= h.confidenceScore.value <= 100.0)
  }

  predicate OnlyKeys(entries: seq<(string, Json)>, allowed: set<string>) {
    forall i :: 0 <= i < |entries| ==> entries[i].0 in allowed
  }

  function Str(v: Option<Json>, name: string): (r: Result<string>)
    ensures r.Success? <==> v.Some? && v.value.JStr?
  {
    match v
    case Some(JStr(s)) => Success(s)
    case Some(_) => Failure(name + ": Input should be a valid string")
    case None => Failure(name + ": Field required")
  }

  function Number(v: Option<Json>, name: string): (r: Result<real>)
    ensures r.Success? <==> v.Some? && v.value.JNum?
  {
    match v
    case Some(JNum(x, _)) => Success(x)
    case Some(_) => Failure(name + ": Input should be a valid number")
    case None => Failure(name + ": Field required")
  }

  function Strings(xs: seq<Json>): (r: Option<seq<string>>)
    ensures r.Some? ==> |r.value| == |xs| && forall i :: 0 <= i < |xs| ==> xs[i] == JStr(r.value[i])
    ensures r.None? ==> exists i :: 0 <= i < |xs| && !xs[i].JStr?
  {
    if |xs| == 0 then Some([])
    else if !xs[0].JStr? then None
    else match Strings(xs[1..])
      case None => None
      case Some(rest) => Some([xs[0].s] + rest)
  }

  const EvidenceKeys: set<string> := {"associatedEventIds"}
  const HighlightKeys: set<string> := {"insight", "start", "end", "confidenceScore", "eventMeta"}
  const AssetKeys: set<string> := {"repo_guid", "fullPath"}
  const WorkOrderKeys: set<string> := {"schemaVersion", "asset", "highlights"}

  function EventIds(v: Option<Json>): Result<Evidence> {
    match v
    case None => Success(Evidence(None))
    case Some(JNull) => Success(Evidence(None))
    case Some(JList(xs)) =>
      (match Strings(xs)
       case Some(ids) => Success(Evidence(Some(ids)))
       case None => Failure("associatedEventIds: Input should be a valid string"))
    case Some(_) => Failure("associatedEventIds: Input should be a valid list")
  }

  function ParseEvidence(j: Json): (r: Result<Evidence>)
    ensures r.Success? ==> j.JObject? && OnlyKeys(j.entries, EvidenceKeys)
  {
    match j
    case JObject(es) =>
      if !OnlyKeys(es, EvidenceKeys) then Failure("eventMeta: Extra inputs are not permitted")
      else EventIds(Get(es, "associatedEventIds"))
    case _ => Failure("eventMeta: Input should be a valid dictionary")
  }

  /** The optional confidence: absent or null is none; a number must lie
      between 0 and 100. */
  function Confidence(v: Option<Json>): (r: Result<Option<real>>)
    ensures r.Success? && r.value.Some? ==> 0.0 <= r.value.value <= 100.0
  {
    match v
    case None => Success(None)
    case Some(JNull) => Success(None)
    case Some(JNum(c, _)) =>
      if c < 0.0 then Failure("confidenceScore: Input should be greater than or equal to 0")
      else if c > 100.0 then Failure("confidenceScore: Input should be less than or equal to 100")
      else Success(Some(c))
    case Some(_) => Failure("confidenceScore: Input should be a valid number")
  }

  function Meta(v: Option<Json>): Result<Evidence> {
    match v
    case None => Failure("eventMeta: Field required")
    case Some(m) => ParseEvidence(m)
  }

  /** The highlight made of its fields once each has been read: the first
      field in error is reported, then the end must come after the start. */
  function BuildHighlight(insight: Result<string>, start: Result<real>, end: Result<real>,
                          confidence: Result<Option<real>>, meta: Result<Evidence>): (r: Result<Highlight>)
    ensures r.Success? ==> r.value.end > r.value.start
  {
    var i :- insight;
    var s :- start;
    var e :- end;
    var c :- confidence;
    var m :- meta;
    if e <= s then Failure("Value error, end must be greater than start")
    else Success(Highlight(i, s, e, c, m))
  }

  /** `Highlight`: the five declared keys only, a confidence between 0 and
      100 when given, and an end after the start. */
  function ParseHighlight(j: Json): (r: Result<Highlight>)
    ensures r.Success? ==> ValidHighlight(r.value)
    ensures r.Success? ==> j.JObject? && OnlyKeys(j.entries, HighlightKeys)
  {
    match j
    case JObject(es) =>
      if !OnlyKeys(es, HighlightKeys) then Failure("Extra inputs are not permitted")
      else
        BuildHighlight(Str(Get(es, "insight"), "insight"), Number(Get(es, "start"), "start"),
          Number(Get(es, "end"), "end"), Confidence(Get(es, "confidenceScore")), Meta(Get(es, "eventMeta")))
    case _ => Failure("Input should be a valid dictionary")
  }

  function ParseAsset(j: Json): (r: Result<Asset>)
    ensures r.Success? <==> (j.JObject? && OnlyKeys(j.entries, AssetKeys)
      && Str(Get(j.entries, "repo_guid"), "repo_guid").Success? && Str(Get(j.entries, "fullPath"), "fullPath").Success?)
    ensures r.Success? ==> r.value == Asset(Get(j.entries, "repo_guid").value.s, Get(j.entries, "fullPath").value.s)
  {
    match j
    case JObject(es) =>
      if !OnlyKeys(es, AssetKeys) then Failure("asset: Extra inputs are not permitted")
      else
        var g :- Str(Get(es, "repo_guid"), "repo_guid");
        var p :- Str(Get(es, "fullPath"), "fullPath");
        Success(Asset(g, p))
    case _ => Failure("asset: Input should be a valid dictionary")
  }

  function ParseHighlights(xs: seq<Json>): (r: Result<seq<Highlight>>)
    ensures r.Success? ==> |r.value| == |xs|
    ensures r.Success? ==> forall i :: 0 <= i < |xs| ==> ParseHighlight(xs[i]) == Success(r.value[i])
    ensures r.Failure? ==> exists i :: 0 <= i < |xs| && ParseHighlight(xs[i]).Failure?
  {
    if |xs| == 0 then Success([])
    else
      match ParseHighlight(xs[0])
      case Failure(e) => Failure(e)
      case Success(h) =>
        match ParseHighlights(xs[1..])
        case Failure(e) =>
          assert forall i :: 1 <= i < |xs| ==> xs[i] == xs[1..][i - 1];
          Failure(e)
        case Success(rest) =>
          assert forall i :: 1 <= i < |xs| ==> xs[i] == xs[1..][i - 1];
          Success([h] + rest)
  }

  function AssetField(v: Option<Json>): Result<Asset> {
    match v
    case None => Failure("asset: Field required")
    case Some(a) => ParseAsset(a)
  }

  function HighlightsField(v: Option<Json>): (r: Result<seq<Highlight>>)
    ensures r.Success? ==> forall i :: 0 <= i < |r.value| ==> ValidHighlight(r.value[i])
  {
    match v
    case Some(JList(xs)) =>
      var r := ParseHighlights(xs);
      if r.Success? then
        assert forall i :: 0 <= i < |r.value| ==> ParseHighlight(xs[i]) == Success(r.value[i]);
        r
      else r
    case Some(_) => Failure("highlights: Input should be a valid list")
    case None => Failure("highlights: Field required")
  }

  /** `ImportWorkOrder`: the exact schema version, an asset, and at least
      one highlight, each of them valid. */
  function ParseWorkOrder(j: Json): (r: Result<ImportWorkOrder>)
    ensures r.Success? ==> j.JObject? && OnlyKeys(j.entries, WorkOrderKeys)
    ensures r.Success? ==> Get(j.entries, "schemaVersion") == Some(JStr(SchemaVersion))
    ensures r.Success? ==> |r.value.highlights| > 0
    ensures r.Success? ==> forall i :: 0 <= i < |r.value.highlights| ==> ValidHighlight(r.value.highlights[i])
    ensures r.Success? <==> (j.JObject? && OnlyKeys(j.entries, WorkOrderKeys)
      && Get(j.entries, "schemaVersion") == Some(JStr(SchemaVersion))
      && AssetField(Get(j.entries, "asset")).Success?
      && HighlightsField(Get(j.entries, "highlights")).Success?
      && |HighlightsField(Get(j.entries, "highlights")).value| > 0)
    ensures r.Success? ==> r.value.asset == AssetField(Get(j.entries, "asset")).value
    ensures r.Success? ==> r.value.highlights == HighlightsField(Get(j.entries, "highlights")).value
  {
    match j
    case JObject(es) =>
      if !OnlyKeys(es, WorkOrderKeys) then Failure("Extra inputs are not permitted")
      else if Get(es, "schemaVersion") != Some(JStr(SchemaVersion)) then
        Failure("schemaVersion: Input should be 'sdna.spark.import.v1'")
      else
        var asset :- AssetField(Get(es, "asset"));
        var hs :- HighlightsField(Get(es, "highlights"));
        if |hs| == 0 then Failure("highlights: Value error, highlights must contain at least one item")
        else Success(ImportWorkOrder(asset, hs))
    case _ => Failure("Input should be a valid dictionary")
  }

  /** The JSON form of a highlight (`model_dump`), numbers written by
      `num`. */
  function DumpHighlight(h: Highlight, num: real -> NonEmptyString): Json {
    JObject([
      ("insight", JStr(h.insight)),
      ("start", JNum(h.start, num(h.start))),
      ("end", JNum(h.end, num(h.end))),
      ("confidenceScore", if h.confidenceScore.Some? then JNum(h.confidenceScore.value, num(h.confidenceScore.value)) else JNull),
      ("eventMeta", DumpEvidence(h.eventMeta))])
  }

  function DumpEvidence(e: Evidence): Json {
    JObject([("associatedEventIds",
      if e.associatedEventIds.Some? then JList(seq(|e.associatedEventIds.value|, i requires 0 <= i < |e.associatedEventIds.value| => JStr(e.associatedEventIds.value[i])))
      else JNull)])
  }

  lemma EvidenceRoundTrip(e: Evidence)
    ensures ParseEvidence(DumpEvidence(e)) == Success(e)
  {
    var es := DumpEvidence(e).entries;
    assert OnlyKeys(es, EvidenceKeys);
    GetUnique(es, "associatedEventIds", 0);
    if e.associatedEventIds.Some? {
      var ids := e.associatedEventIds.value;
      var xs := seq(|ids|, i requires 0 <= i < |ids| => JStr(ids[i]));
      assert es[0].1 == JList(xs);
      assert forall i :: 0 <= i < |xs| ==> xs[i].JStr?;
      assert Strings(xs).value == ids;
    }
  }

  /** Where the dumped highlight keeps each field. */
  lemma DumpedFields(h: Highlight, num: real -> NonEmptyString)
    ensures var es := DumpHighlight(h, num).entries;
      && OnlyKeys(es, HighlightKeys)
      && Get(es, "insight") == Some(JStr(h.insight))
      && Get(es, "start") == Some(JNum(h.start, num(h.start)))
      && Get(es, "end") == Some(JNum(h.end, num(h.end)))
      && Get(es, "confidenceScore") == Some(es[3].1)
      && Get(es, "eventMeta") == Some(DumpEvidence(h.eventMeta))
  {
    var es := DumpHighlight(h, num).entries;
    GetUnique(es, "insight", 0);
    GetUnique(es, "start", 1);
    GetUnique(es, "end", 2);
    GetUnique(es, "confidenceScore", 3);
    GetUnique(es, "eventMeta", 4);
  }

  lemma FieldsRead(h: Highlight, num: real -> NonEmptyString)
    requires ValidHighlight(h)
    ensures var es := DumpHighlight(h, num).entries;
      && Str(Get(es, "insight"), "insight") == Success(h.insight)
      && Number(Get(es, "start"), "start") == Success(h.start)
      && Number(Get(es, "end"), "end") == Success(h.end)
      && Confidence(Get(es, "confidenceScore")) == Success(h.confidenceScore)
      && Meta(Get(es, "eventMeta")) == Success(h.eventMeta)
  {
    var es := DumpHighlight(h, num).entries;
    DumpedFields(h, num);
    var c := Get(es, "confidenceScore");
    assert c == Some(es[3].1);
    ConfidenceRead(h.confidenceScore, es[3].1, num);
    var m := Get(es, "eventMeta");
    assert m == Some(DumpEvidence(h.eventMeta));
    EvidenceRoundTrip(h.eventMeta);
  }

  lemma ConfidenceRead(c: Option<real>, j: Json, num: real -> NonEmptyString)
    requires c.Some? ==> 0.0 <= c.value <= 100.0
    requires j == (if c.Some? then JNum(c.value, num(c.value)) else JNull)
    ensures Confidence(Some(j)) == Success(c)
  {
  }

  lemma BuildValid(h: Highlight)
    requires ValidHighlight(h)
    ensures BuildHighlight(Success(h.insight), Success(h.start), Success(h.end),
      Success(h.confidenceScore), Success(h.eventMeta)) == Success(h)
  {
  }

  /** A valid highlight, dumped and read back, is the same highlight: the
      schema accepts what the service stores. */
  lemma HighlightRoundTrip(h: Highlight, num: real -> NonEmptyString)
    requires ValidHighlight(h)
    ensures ParseHighlight(DumpHighlight(h, num)) == Success(h)
  {
    var j := DumpHighlight(h, num);
    var es := j.entries;
    DumpedFields(h, num);
    assert ParseHighlight(j) == BuildHighlight(Str(Get(es, "insight"), "insight"), Number(Get(es, "start"), "start"),
      Number(Get(es, "end"), "end"), Confidence(Get(es, "confidenceScore")), Meta(Get(es, "eventMeta")));
    FieldsRead(h, num);
    BuildValid(h);
  }
}

=== FILE: segments.dfy ===
/** The time-coded segment records the artifact generator consumes, and the
    canonical JSON outputs built from them (app/services/artifact_generator.py:
    `generate_transcript_json`, `generate_events_json`,
    `generate_insights_json`). */
module Segments {
  import opened Wrappers
  import opened Text
  import opened Json

  /** One segment record. `None` stands for a key absent from the record
      and equally for a key holding JSON null; the writers that treat the
      two differently are listed as not modelled in that respect.
      Times are seconds; `metadata` is the insights-only nested object;
      `others` holds every further key with its value, in order, such as the
      `confidenceScore` and `positions` of a fetched event. */
  datatype Segment = Segment(
    id: Option<string>,
    eventType: Option<string>,
    eventValue: Option<string>,
    start: Option<real>,
    end: Option<real>,
    fullPath: Option<string>,
    source: Option<string>,
    metadata: Option<Json>,
    others: seq<(string, Json)>)

  /** `seg.get("start", 0)`. */
  function StartOr0(s: Segment): real {
    s.start.GetOr(0.0)
  }

  /** `seg.get("end", 0)`. */
  function EndOr0(s: Segment): real {
    s.end.GetOr(0.0)
  }

  /** Python truthiness of `seg.get("eventValue")`. */
  predicate HasText(s: Segment) {
    s.eventValue.Some? && s.eventValue.value != ""
  }

  /** `dict(item)` followed by `pop("fullPath", None)`. */
  function Clean(s: Segment): (r: Segment)
    ensures r.fullPath.None?
    ensures r.others == s.others
    ensures r.(fullPath := s.fullPath) == s
  {
    s.(fullPath := None)
  }

  /** The per-item copy loop shared by the transcript (unmerged), events and
      insights JSON outputs. */
  function CleanSegments(segs: seq<Segment>): (r: seq<Segment>)
    ensures |r| == |segs|
    ensures forall i :: 0 <= i < |r| ==> r[i].fullPath.None? && r[i].(fullPath := segs[i].fullPath) == segs[i]
  {
    seq(|segs|, i requires 0 <= i < |segs| => Clean(segs[i]))
  }

  /** Cleaning twice is cleaning once. */
  lemma CleanIdempotent(segs: seq<Segment>)
    ensures CleanSegments(CleanSegments(segs)) == CleanSegments(segs)
  {
  }

  /** Cleaning loses nothing but `fullPath`: two lists that clean to the same
      output agree everywhere else, item by item. */
  lemma CleanOnlyDropsPath(a: seq<Segment>, b: seq<Segment>)
    requires CleanSegments(a) == CleanSegments(b)
    ensures |a| == |b|
    ensures forall i :: 0 <= i < |a| ==> a[i].(fullPath := b[i].fullPath) == b[i]
  {
    assert |a| == |CleanSegments(a)|;
    forall i | 0 <= i < |a| ensures a[i].(fullPath := b[i].fullPath) == b[i] {
      assert CleanSegments(a)[i] == CleanSegments(b)[i];
    }
  }

  /** `min(seg.get("start", 0) for seg in segments)`. */
  function MinStart(segs: seq<Segment>): (r: real)
    requires |segs| > 0
    ensures forall i :: 0 <= i < |segs| ==> r <= StartOr0(segs[i])
    ensures exists i :: 0 <= i < |segs| && r == StartOr0(segs[i])
  {
    if |segs| == 1 then StartOr0(segs[0])
    else
      var m := MinStart(segs[1..]);
      assert forall i :: 1 <= i < |segs| ==> segs[1..][i - 1] == segs[i];
      if StartOr0(segs[0]) <= m then StartOr0(segs[0]) else m
  }

  /** `max(seg.get("end", 0) for seg in segments)`. */
  function MaxEnd(segs: seq<Segment>): (r: real)
    requires |segs| > 0
    ensures forall i :: 0 <= i < |segs| ==> EndOr0(segs[i]) <= r
    ensures exists i :: 0 <= i < |segs| && r == EndOr0(segs[i])
  {
    if |segs| == 1 then EndOr0(segs[0])
    else
      var m := MaxEnd(segs[1..]);
      assert forall i :: 1 <= i < |segs| ==> segs[1..][i - 1] == segs[i];
      if EndOr0(segs[0]) >= m then EndOr0(segs[0]) else m
  }

  /** The stripped texts of the segments whose raw text is non-empty, in
      input order. */
  function TextPieces(segs: seq<Segment>): (r: seq<string>)
    ensures |r| <= |segs|
  {
    if |segs| == 0 then []
    else
      var rest := TextPieces(segs[1..]);
      if HasText(segs[0]) then [Strip(segs[0].eventValue.value)] + rest else rest
  }

  /** Every piece is the stripped text of some segment with non-empty text. */
  lemma {:induction false} TextPiecesFrom(segs: seq<Segment>)
    ensures forall x | x in TextPieces(segs) ::
      exists i :: 0 <= i < |segs| && HasText(segs[i]) && x == Strip(segs[i].eventValue.value)
  {
    if |segs| > 0 {
      var rest := segs[1..];
      TextPiecesFrom(rest);
      forall x | x in TextPieces(segs)
        ensures exists i :: 0 <= i < |segs| && HasText(segs[i]) && x == Strip(segs[i].eventValue.value)
      {
        if HasText(segs[0]) && x == Strip(segs[0].eventValue.value) {
          assert 0 < |segs|;
        } else {
          assert x in TextPieces(rest);
          var j :| 0 <= j < |rest| && HasText(rest[j]) && x == Strip(rest[j].eventValue.value);
          assert segs[j + 1] == rest[j];
        }
      }
    }
  }

  /** The pieces of a concatenation are the pieces of its parts, so the
      merged text keeps input order. */
  lemma {:induction false} TextPiecesAppend(a: seq<Segment>, b: seq<Segment>)
    ensures TextPieces(a + b) == TextPieces(a) + TextPieces(b)
  {
    if |a| > 0 {
      assert (a + b)[1..] == a[1..] + b;
      TextPiecesAppend(a[1..], b);
    } else {
      assert a + b == b;
    }
  }

  /** A segment contributes a piece exactly when its raw text is non-empty. */
  lemma TextPiecesSingle(s: Segment)
    ensures TextPieces([s]) == if HasText(s) then [Strip(s.eventValue.value)] else []
  {
  }

  /** The merged transcript text: the pieces joined by single spaces. */
  function MergedText(segs: seq<Segment>): string {
    Join(TextPieces(segs), " ")
  }

  /** The single merged transcript segment. */
  function Merge(segs: seq<Segment>): (r: Segment)
    requires |segs| > 0
    ensures r.id == Some("1") && r.eventType == Some("transcript")
    ensures r.eventValue == Some(MergedText(segs))
    ensures r.start == Some(MinStart(segs)) && r.end == Some(MaxEnd(segs))
    ensures r.fullPath.None? && r.source.None? && r.metadata.None? && r.others == []
  {
    Segment(Some("1"), Some("transcript"), Some(MergedText(segs)),
      Some(MinStart(segs)), Some(MaxEnd(segs)), None, None, None, [])
  }

  /** The `segments` list written by `generate_transcript_json`: one merged
      segment when merging is asked for and there is something to merge,
      otherwise every segment without its `fullPath`. */
  function TranscriptJson(segs: seq<Segment>, singleSegment: bool): (r: seq<Segment>)
    ensures singleSegment && |segs| > 0 ==> r == [Merge(segs)]
    ensures !singleSegment || |segs| == 0 ==> |r| == |segs| && forall i :: 0 <= i < |segs| ==> r[i] == Clean(segs[i])
    ensures forall i :: 0 <= i < |r| ==> r[i].fullPath.None?
    ensures |segs| == 0 ==> r == []
  {
    if singleSegment && |segs| > 0 then [Merge(segs)] else CleanSegments(segs)
  }

  /** Merging two segments that both carry text: their stripped texts
      around one space, the earlier start and the later end. */
  lemma MergeTwo(a: Segment, b: Segment)
    requires HasText(a) && HasText(b)
    ensures TranscriptJson([a, b], true)
      == [Segment(Some("1"), Some("transcript"),
            Some(Strip(a.eventValue.value) + " " + Strip(b.eventValue.value)),
            Some(if StartOr0(a) <= StartOr0(b) then StartOr0(a) else StartOr0(b)),
            Some(if EndOr0(a) >= EndOr0(b) then EndOr0(a) else EndOr0(b)),
            None, None, None, [])]
  {
    assert [a, b][1..] == [b];
    assert [b][1..] == [];
    assert TextPieces([b]) == [Strip(b.eventValue.value)] + TextPieces([]);
    assert TextPieces([a, b]) == [Strip(a.eventValue.value), Strip(b.eventValue.value)];
    JoinTwo(Strip(a.eventValue.value), Strip(b.eventValue.value), " ");
  }
}

=== FILE: stamporder.dfy ===
/** How the WebVTT writer's string comparison of two timestamps relates to
    the times themselves: below 100 hours every field has a fixed width, so
    code-point order of the text is the order of the millisecond readings. */
module StampOrder {
  import opened Text
  import opened Timecode

  /** The whole milliseconds of a time, the reading a timestamp shows. */
  function Millis(s: real): int {
    (s * 1000.0).Floor
  }

  /** Lexicographic order of clock readings, field by field. */
  predicate ClockLess(a: Clock, b: Clock) {
    || a.hours < b.hours
    || (a.hours == b.hours && a.minutes < b.minutes)
    || (a.hours == b.hours && a.minutes == b.minutes && a.seconds < b.seconds)
    || (a.hours == b.hours && a.minutes == b.minutes && a.seconds == b.seconds && a.sub < b.sub)
  }

  /** A digit character's code is the digit's offset from `'0'`. */
  lemma DigitCharCode(d: nat)
    requires d < 10
    ensures DigitChar(d) as int == '0' as int + d
  {
    var ds := ['0', '1', '2', '3', '4', '5', '6', '7', '8', '9'];
    assert DigitChar(d) == ds[d];
  }

  /** Two-digit zero padding of a number below 100. */
  lemma Pad2(n: int)
    requires 0 <= n < 100
    ensures ZeroPad(n, 2) == [DigitChar(n / 10), DigitChar(n % 10)]
  {
    if n < 10 {
      assert Digits(n) == [DigitChar(n)];
      assert Zeros(1) == ['0'];
      assert DigitChar(0) == '0';
    } else {
      assert Digits(n) == Digits(n / 10) + [DigitChar(n % 10)];
      assert Digits(n / 10) == [DigitChar(n / 10)];
    }
  }

  /** Zero padding of a non-negative number: zeros in front of its digits
      up to the width. */
  lemma PadNat(n: nat, width: nat)
    ensures ZeroPad(n, width)
      == if |Digits(n)| < width then Zeros(width - |Digits(n)|) + Digits(n) else Digits(n)
  {
  }

  /** The digits of a number from 10 to 99. */
  lemma TwoDigitDigits(n: nat)
    requires 10 <= n < 100
    ensures Digits(n) == [DigitChar(n / 10), DigitChar(n % 10)]
  {
    assert Digits(n / 10) == [DigitChar(n / 10)];
  }

  /** Three-digit zero padding of a number below 1000. */
  lemma Pad3(n: int)
    requires 0 <= n < 1000
    ensures ZeroPad(n, 3) == [DigitChar(n / 100), DigitChar((n / 10) % 10), DigitChar(n % 10)]
  {
    PadNat(n, 3);
    if n < 10 {
      Pad3OneDigit(n);
    } else if n < 100 {
      Pad3TwoDigits(n);
    } else {
      Pad3ThreeDigits(n);
    }
  }

  lemma Pad3OneDigit(n: nat)
    requires n < 10
    ensures Zeros(2) + Digits(n) == [DigitChar(n / 100), DigitChar((n / 10) % 10), DigitChar(n % 10)]
  {
    assert DigitChar(0) == '0';
    assert Zeros(2) == ['0', '0'];
  }

  lemma Pad3TwoDigits(n: nat)
    requires 10 <= n < 100
    ensures Zeros(1) + Digits(n) == [DigitChar(n / 100), DigitChar((n / 10) % 10), DigitChar(n % 10)]
  {
    TwoDigitDigits(n);
    assert DigitChar(0) == '0';
    assert Zeros(1) == ['0'];
    assert n / 100 == 0 && (n / 10) % 10 == n / 10;
  }

  lemma Pad3ThreeDigits(n: nat)
    requires 100 <= n < 1000
    ensures |Digits(n)| == 3
    ensures Digits(n) == [DigitChar(n / 100), DigitChar((n / 10) % 10), DigitChar(n % 10)]
  {
    TwoDigitDigits(n / 10);
    assert (n / 10) / 10 == n / 100;
  }

  /** On two-character strings the comparison is the first character's,
      then the second's. */
  lemma LexLessTwo(a: string, b: string)
    requires |a| == 2 && |b| == 2
    ensures LexLess(a, b) <==> a[0] < b[0] || (a[0] == b[0] && a[1] < b[1])
  {
    if a[0] == b[0] {
      assert LexLess(a, b) == LexLess(a[1..], b[1..]);
      assert a[1..][0] == a[1] && b[1..][0] == b[1];
      assert a[1..][1..] == [] && b[1..][1..] == [];
      assert !LexLess(a[1..][1..], b[1..][1..]);
    }
  }

  /** Padded two-digit numbers compare and coincide as the numbers do. */
  lemma Pad2Order(x: int, y: int)
    requires 0 <= x < 100 && 0 <= y < 100
    ensures LexLess(ZeroPad(x, 2), ZeroPad(y, 2)) <==> x < y
    ensures ZeroPad(x, 2) == ZeroPad(y, 2) <==> x == y
  {
    Pad2(x);
    Pad2(y);
    DigitCharCode(x / 10);
    DigitCharCode(x % 10);
    DigitCharCode(y / 10);
    DigitCharCode(y % 10);
    LexLessTwo(ZeroPad(x, 2), ZeroPad(y, 2));
  }

  /** On three-character strings the comparison goes character by
      character. */
  lemma LexLessThree(a: string, b: string)
    requires |a| == 3 && |b| == 3
    ensures LexLess(a, b) <==> a[0] < b[0] || (a[0] == b[0] && LexLess(a[1..], b[1..]))
    ensures a == b <==> a[0] == b[0] && a[1..] == b[1..]
  {
    assert a == [a[0]] + a[1..] && b == [b[0]] + b[1..];
  }

  /** Three digit characters compare and coincide as the numbers they
      spell. */
  lemma DigitTripleOrder(x2: nat, x1: nat, x0: nat, y2: nat, y1: nat, y0: nat)
    requires x2 < 10 && x1 < 10 && x0 < 10 && y2 < 10 && y1 < 10 && y0 < 10
    ensures LexLess([DigitChar(x2), DigitChar(x1), DigitChar(x0)], [DigitChar(y2), DigitChar(y1), DigitChar(y0)])
      <==> x2 * 100 + x1 * 10 + x0 < y2 * 100 + y1 * 10 + y0
    ensures [DigitChar(x2), DigitChar(x1), DigitChar(x0)] == [DigitChar(y2), DigitChar(y1), DigitChar(y0)]
      <==> x2 * 100 + x1 * 10 + x0 == y2 * 100 + y1 * 10 + y0
  {
    var a := [DigitChar(x2), DigitChar(x1), DigitChar(x0)];
    var b := [DigitChar(y2), DigitChar(y1), DigitChar(y0)];
    DigitCharCode(x2);
    DigitCharCode(x1);
    DigitCharCode(x0);
    DigitCharCode(y2);
    DigitCharCode(y1);
    DigitCharCode(y0);
    LexLessThree(a, b);
    LexLessTwo(a[1..], b[1..]);
    assert a[1..] == b[1..] <==> a[1] == b[1] && a[2] == b[2];
    Base10Order(x2, x1, x0, y2, y1, y0);
  }

  /** Padded three-digit numbers compare and coincide as the numbers do. */
  lemma Pad3Order(x: int, y: int)
    requires 0 <= x < 1000 && 0 <= y < 1000
    ensures LexLess(ZeroPad(x, 3), ZeroPad(y, 3)) <==> x < y
    ensures ZeroPad(x, 3) == ZeroPad(y, 3) <==> x == y
  {
    Pad3(x);
    Pad3(y);
    ThreeDigits(x);
    ThreeDigits(y);
    DigitTripleOrder(x / 100, (x / 10) % 10, x % 10, y / 100, (y / 10) % 10, y % 10);
  }

  /** A number below 1000 is spelled by its three decimal digits. */
  lemma ThreeDigits(x: int)
    requires 0 <= x < 1000
    ensures 0 <= x / 100 < 10 && 0 <= (x / 10) % 10 < 10 && 0 <= x % 10 < 10
    ensures x == (x / 100) * 100 + ((x / 10) % 10) * 10 + x % 10
  {
    var t := x / 10;
    assert x == t * 10 + x % 10;
    assert t == (t / 10) * 10 + t % 10;
    assert t / 10 == x / 100;
  }

  /** Three decimal digits compare as the numbers they spell. */
  lemma Base10Order(x2: int, x1: int, x0: int, y2: int, y1: int, y0: int)
    requires 0 <= x1 < 10 && 0 <= x0 < 10 && 0 <= y1 < 10 && 0 <= y0 < 10
    ensures x2 * 100 + x1 * 10 + x0 < y2 * 100 + y1 * 10 + y0
      <==> x2 < y2 || (x2 == y2 && (x1 < y1 || (x1 == y1 && x0 < y0)))
  {
  }

  /** A shared separator character does not affect the comparison. */
  lemma LexLessSep(c: char, a: string, b: string)
    ensures LexLess([c] + a, [c] + b) <==> LexLess(a, b)
    ensures [c] + a == [c] + b <==> a == b
  {
    assert ([c] + a)[1..] == a && ([c] + b)[1..] == b;
  }

  /** A two-digit field followed by a separator and the rest. */
  lemma FieldThenRest(x: int, y: int, c: char, ra: string, rb: string)
    requires 0 <= x < 100 && 0 <= y < 100
    ensures LexLess(ZeroPad(x, 2) + ([c] + ra), ZeroPad(y, 2) + ([c] + rb))
      <==> x < y || (x == y && LexLess(ra, rb))
  {
    Pad2Order(x, y);
    Pad2(x);
    Pad2(y);
    LexLessConcat(ZeroPad(x, 2), [c] + ra, ZeroPad(y, 2), [c] + rb);
    LexLessSep(c, ra, rb);
  }

  /** The timestamp text of a clock reading, regrouped from the right. */
  lemma ClockTextRegroup(c: Clock, sep: char, w: nat)
    ensures ClockText(c, sep, w)
      == ZeroPad(c.hours, 2) + ([':'] + (ZeroPad(c.minutes, 2) + ([':'] + (ZeroPad(c.seconds, 2) + ([sep] + ZeroPad(c.sub, w))))))
  {
  }

  /** Below 100 hours, timestamp texts compare as their clock readings. */
  lemma StampTextOrder(a: Clock, b: Clock)
    requires 0 <= a.hours < 100 && 0 <= a.minutes < 60 && 0 <= a.seconds < 60 && 0 <= a.sub < 1000
    requires 0 <= b.hours < 100 && 0 <= b.minutes < 60 && 0 <= b.seconds < 60 && 0 <= b.sub < 1000
    ensures LexLess(ClockText(a, '.', 3), ClockText(b, '.', 3)) <==> ClockLess(a, b)
  {
    ClockTextRegroup(a, '.', 3);
    ClockTextRegroup(b, '.', 3);
    var ta := ZeroPad(a.seconds, 2) + (['.'] + ZeroPad(a.sub, 3));
    var tb := ZeroPad(b.seconds, 2) + (['.'] + ZeroPad(b.sub, 3));
    var ma := ZeroPad(a.minutes, 2) + ([':'] + ta);
    var mb := ZeroPad(b.minutes, 2) + ([':'] + tb);
    FieldThenRest(a.hours, b.hours, ':', ma, mb);
    FieldThenRest(a.minutes, b.minutes, ':', ta, tb);
    FieldThenRest(a.seconds, b.seconds, '.', ZeroPad(a.sub, 3), ZeroPad(b.sub, 3));
    Pad3Order(a.sub, b.sub);
  }

  /** Clock order is the order of the millisecond totals. */
  lemma ClockLessIsMillis(a: Clock, b: Clock)
    requires 0 <= a.minutes < 60 && 0 <= a.seconds < 60 && 0 <= a.sub < 1000
    requires 0 <= b.minutes < 60 && 0 <= b.seconds < 60 && 0 <= b.sub < 1000
    ensures ClockLess(a, b) <==>
      (a.hours * 3600 + a.minutes * 60 + a.seconds) * 1000 + a.sub
      < (b.hours * 3600 + b.minutes * 60 + b.seconds) * 1000 + b.sub
  {
    var ra := (a.minutes * 60 + a.seconds) * 1000 + a.sub;
    var rb := (b.minutes * 60 + b.seconds) * 1000 + b.sub;
    assert 0 <= ra < 3600000 && 0 <= rb < 3600000;
    var sa := a.seconds * 1000 + a.sub;
    var sb := b.seconds * 1000 + b.sub;
    assert 0 <= sa < 60000 && 0 <= sb < 60000;
  }

  /** The subtitle clock reads the whole milliseconds of the time. */
  lemma SubtitleClockMillis(s: real)
    ensures var c := SubtitleClock(s);
      (c.hours * 3600 + c.minutes * 60 + c.seconds) * 1000 + c.sub == Millis(s)
  {
    var c := SubtitleClock(s);
    var n := s.Floor;
    var f := s - n as real;
    assert s * 1000.0 == (n * 1000) as real + f * 1000.0;
    assert ((n * 1000) as real + f * 1000.0).Floor == n * 1000 + (f * 1000.0).Floor;
  }

  /** Below 100 hours the hour field has two digits. */
  lemma SubtitleClockHours(s: real)
    requires 0.0 <= s < 360000.0
    ensures 0 <= SubtitleClock(s).hours < 100
  {
    var c := SubtitleClock(s);
    assert c.hours * 3600 <= s.Floor < 360000;
  }

  /** For times from zero up to 100 hours the WebVTT writer's text
      comparison of two timestamps agrees with comparing their whole
      milliseconds. */
  lemma VttOrderIsNumeric(a: real, b: real)
    requires 0.0 <= a < 360000.0 && 0.0 <= b < 360000.0
    ensures LexLess(VttTime(a), VttTime(b)) <==> Millis(a) < Millis(b)
  {
    SubtitleClockHours(a);
    SubtitleClockHours(b);
    StampTextOrder(SubtitleClock(a), SubtitleClock(b));
    ClockLessIsMillis(SubtitleClock(a), SubtitleClock(b));
    SubtitleClockMillis(a);
    SubtitleClockMillis(b);
  }
}

=== FILE: subtitles.dfy ===
/** Subtitle outputs of the transcript: the SRT writer
    (`generate_transcript_srt`) and the WebVTT writer with its cue filter
    (`generate_transcript_vtt`), both in app/services/artifact_generator.py. */
module Subtitles {
  import opened Wrappers
  import opened Text
  import opened Timecode
  import opened Segments
  import StampOrder

  /** One written cue: its identifier line, its two times and its text. */
  datatype Cue = Cue(id: nat, start: real, end: real, text: string)

  /** `"{id}\n{start} --> {end}\n{text}\n\n"` with the times written by `stamp`. */
  function RenderCue(c: Cue, stamp: real -> string): string {
    Digits(c.id) + "\n" + stamp(c.start) + " --> " + stamp(c.end) + "\n" + c.text + "\n\n"
  }

  function RenderCues(cues: seq<Cue>, stamp: real -> string): string {
    if |cues| == 0 then "" else RenderCue(cues[0], stamp) + RenderCues(cues[1..], stamp)
  }

  /** Rendering distributes over concatenation of cue lists. */
  lemma {:induction false} RenderCuesAppend(a: seq<Cue>, b: seq<Cue>, stamp: real -> string)
    ensures RenderCues(a + b, stamp) == RenderCues(a, stamp) + RenderCues(b, stamp)
  {
    if |a| > 0 {
      assert (a + b)[1..] == a[1..] + b;
      RenderCuesAppend(a[1..], b, stamp);
    } else {
      assert a + b == b;
    }
  }

  /** A segment the SRT writer can read: `segment["start"]`,
      `segment["end"]` and `segment["eventValue"]` all exist. */
  predicate SrtReadable(s: Segment) {
    s.start.Some? && s.end.Some? && s.eventValue.Some?
  }

  /** `str(KeyError(k))` for the first key the SRT writer misses. */
  function SrtMissingKey(s: Segment): string {
    if s.start.None? then "'start'" else if s.end.None? then "'end'" else "'eventValue'"
  }

  /** The SRT cues, numbered from `first`: every segment is written, in
      order; the first segment lacking a key raises `KeyError`. */
  function SrtCues(segs: seq<Segment>, first: nat): (r: Result<seq<Cue>>)
    ensures r.Success? <==> forall i :: 0 <= i < |segs| ==> SrtReadable(segs[i])
    ensures r.Success? ==> |r.value| == |segs|
    ensures r.Success? ==> forall i :: 0 <= i < |segs| ==>
      r.value[i] == Cue(first + i, segs[i].start.value, segs[i].end.value, segs[i].eventValue.value)
  {
    if |segs| == 0 then Success([])
    else if !SrtReadable(segs[0]) then Failure(SrtMissingKey(segs[0]))
    else
      var rest := SrtCues(segs[1..], first + 1);
      assert forall i :: 1 <= i < |segs| ==> segs[1..][i - 1] == segs[i];
      if rest.Failure? then rest
      else
        var c := Cue(first, segs[0].start.value, segs[0].end.value, segs[0].eventValue.value);
        Success([c] + rest.value)
  }

  /** The SRT file content. */
  function TranscriptSrt(segs: seq<Segment>): Result<string> {
    var cues :- SrtCues(segs, 1);
    Success(RenderCues(cues, SrtTime))
  }

  /** The error the SRT writer raises names the first unreadable segment's
      missing key. */
  lemma {:induction false} SrtFailureNamesFirstMissing(segs: seq<Segment>, first: nat, k: nat)
    requires k < |segs| && !SrtReadable(segs[k])
    requires forall i :: 0 <= i < k ==> SrtReadable(segs[i])
    ensures SrtCues(segs, first) == Failure(SrtMissingKey(segs[k]))
    decreases k
  {
    if k > 0 {
      assert segs[1..][k - 1] == segs[k];
      SrtFailureNamesFirstMissing(segs[1..], first + 1, k - 1);
    }
  }

  /** The text a VTT cue would carry: `seg.get("eventValue", "").strip()`. */
  function VttText(s: Segment): string {
    Strip(s.eventValue.GetOr(""))
  }

  /** A cue is written when its text is non-empty and its start timestamp
      string sorts strictly before its end timestamp string. */
  predicate Shown(start: real, end: real, text: string) {
    text != "" && LexLess(VttTime(start), VttTime(end))
  }

  /** For times from zero up to 100 hours the text comparison is a time
      comparison: a cue is shown exactly when its text is non-empty and its
      end falls in a later millisecond than its start. */
  lemma ShownIsTimeOrder(start: real, end: real, text: string)
    requires 0.0 <= start < 360000.0 && 0.0 <= end < 360000.0
    ensures Shown(start, end, text)
      <==> text != "" && StampOrder.Millis(start) < StampOrder.Millis(end)
  {
    StampOrder.VttOrderIsNumeric(start, end);
  }

  /** The WebVTT writer keeps a segment when its cue would be shown. */
  predicate VttKept(s: Segment) {
    Shown(StartOr0(s), EndOr0(s), VttText(s))
  }

  function VttCueOf(s: Segment, id: nat): Cue {
    Cue(id, StartOr0(s), EndOr0(s), VttText(s))
  }

  /** The cues `cue` makes of the segments `keep` accepts, the segment at
      position `i` getting identifier `first + i`: a skipped segment still
      uses up its identifier. */
  function KeptCues(segs: seq<Segment>, first: nat, keep: Segment -> bool, cue: (Segment, nat) -> Cue): (r: seq<Cue>)
    ensures |r| <= |segs|
  {
    if |segs| == 0 then []
    else
      var rest := KeptCues(segs[1..], first + 1, keep, cue);
      if keep(segs[0]) then [cue(segs[0], first)] + rest else rest
  }

  /** A segment's cue is written exactly when the segment is kept, and
      every written cue is the cue of a kept segment at its own position. */
  lemma KeptCuesMembers(segs: seq<Segment>, first: nat, keep: Segment -> bool, cue: (Segment, nat) -> Cue)
    ensures forall i :: 0 <= i < |segs| && keep(segs[i]) ==> cue(segs[i], first + i) in KeptCues(segs, first, keep, cue)
    ensures forall c | c in KeptCues(segs, first, keep, cue) ::
      exists i :: 0 <= i < |segs| && keep(segs[i]) && c == cue(segs[i], first + i)
  {
    forall i | 0 <= i < |segs| && keep(segs[i])
      ensures cue(segs[i], first + i) in KeptCues(segs, first, keep, cue)
    {
      KeptCuesComplete(segs, first, keep, cue, i);
    }
    KeptCuesSound(segs, first, keep, cue);
  }

  lemma {:induction false} KeptCuesComplete(segs: seq<Segment>, first: nat, keep: Segment -> bool, cue: (Segment, nat) -> Cue, i: nat)
    requires i < |segs| && keep(segs[i])
    ensures cue(segs[i], first + i) in KeptCues(segs, first, keep, cue)
    decreases i
  {
    var rest := KeptCues(segs[1..], first + 1, keep, cue);
    if i > 0 {
      assert segs[1..][i - 1] == segs[i];
      KeptCuesComplete(segs[1..], first + 1, keep, cue, i - 1);
      assert cue(segs[i], first + i) in rest;
    }
  }

  lemma {:induction false} KeptCuesSound(segs: seq<Segment>, first: nat, keep: Segment -> bool, cue: (Segment, nat) -> Cue)
    ensures forall c | c in KeptCues(segs, first, keep, cue) ::
      exists i :: 0 <= i < |segs| && keep(segs[i]) && c == cue(segs[i], first + i)
  {
    if |segs| > 0 {
      var tail := segs[1..];
      var rest := KeptCues(tail, first + 1, keep, cue);
      KeptCuesSound(tail, first + 1, keep, cue);
      forall c | c in KeptCues(segs, first, keep, cue)
        ensures exists i :: 0 <= i < |segs| && keep(segs[i]) && c == cue(segs[i], first + i)
      {
        if c in rest {
          var j :| 0 <= j < |tail| && keep(tail[j]) && c == cue(tail[j], first + 1 + j);
          assert segs[j + 1] == tail[j];
        } else {
          assert keep(segs[0]) && c == cue(segs[0], first + 0);
        }
      }
    }
  }

  /** A segment that is not kept has no cue with its identifier. */
  lemma KeptCuesNoStray(segs: seq<Segment>, first: nat, keep: Segment -> bool, cue: (Segment, nat) -> Cue, i: nat)
    requires i < |segs| && !keep(segs[i])
    requires forall s, id :: cue(s, id).id == id
    ensures cue(segs[i], first + i) !in KeptCues(segs, first, keep, cue)
  {
    KeptCuesSound(segs, first, keep, cue);
    forall j | 0 <= j < |segs| && keep(segs[j])
      ensures cue(segs[i], first + i) != cue(segs[j], first + j)
    {
      assert cue(segs[j], first + j).id == first + j;
    }
  }

  /** When every cue carries the identifier it is given, the identifiers
      lie within the positions of the segments. */
  lemma {:induction false} KeptCuesBounds(segs: seq<Segment>, first: nat, keep: Segment -> bool, cue: (Segment, nat) -> Cue)
    requires forall s, id :: cue(s, id).id == id
    ensures forall k :: 0 <= k < |KeptCues(segs, first, keep, cue)| ==>
      first <= KeptCues(segs, first, keep, cue)[k].id < first + |segs|
  {
    var r := KeptCues(segs, first, keep, cue);
    KeptCuesSound(segs, first, keep, cue);
    forall k | 0 <= k < |r| ensures first <= r[k].id < first + |segs| {
      assert r[k] in r;
      var i :| 0 <= i < |segs| && keep(segs[i]) && r[k] == cue(segs[i], first + i);
    }
  }

  /** ... and they strictly increase along the written cues. */
  lemma {:induction false} KeptCuesIncreasing(segs: seq<Segment>, first: nat, keep: Segment -> bool, cue: (Segment, nat) -> Cue)
    requires forall s, id :: cue(s, id).id == id
    ensures forall j, k :: 0 <= j < k < |KeptCues(segs, first, keep, cue)| ==>
      KeptCues(segs, first, keep, cue)[j].id < KeptCues(segs, first, keep, cue)[k].id
  {
    if |segs| > 0 {
      var tail := segs[1..];
      var rest := KeptCues(tail, first + 1, keep, cue);
      var r := KeptCues(segs, first, keep, cue);
      KeptCuesIncreasing(tail, first + 1, keep, cue);
      KeptCuesBounds(tail, first + 1, keep, cue);
      if keep(segs[0]) {
        assert r == [cue(segs[0], first)] + rest;
        forall j, k | 0 <= j < k < |r| ensures r[j].id < r[k].id {
          assert r[k] == rest[k - 1];
          if j > 0 { assert r[j] == rest[j - 1]; } else { assert r[j].id == first; }
        }
      } else {
        assert r == rest;
      }
    }
  }

  /** The cues `generate_transcript_vtt` writes, numbered from `first`. */
  function VttCues(segs: seq<Segment>, first: nat): (r: seq<Cue>)
    ensures |r| <= |segs|
  {
    KeptCues(segs, first, VttKept, VttCueOf)
  }

  /** Every written cue has non-empty text and a start stamp that sorts
      before its end stamp. */
  lemma VttCuesShown(segs: seq<Segment>, first: nat)
    ensures forall c | c in VttCues(segs, first) :: Shown(c.start, c.end, c.text)
  {
    KeptCuesSound(segs, first, VttKept, VttCueOf);
  }

  /** Cue identifiers lie within the positions of the segments and strictly
      increase. */
  lemma VttCuesNumbered(segs: seq<Segment>, first: nat)
    ensures var r := VttCues(segs, first);
      && (forall k :: 0 <= k < |r| ==> first <= r[k].id < first + |segs|)
      && (forall j, k :: 0 <= j < k < |r| ==> r[j].id < r[k].id)
  {
    KeptCuesBounds(segs, first, VttKept, VttCueOf);
    KeptCuesIncreasing(segs, first, VttKept, VttCueOf);
  }

  /** Skipped segments leave gaps: segment `i` is kept exactly when its cue,
      with identifier `first + i`, is written. */
  lemma VttCueIds(segs: seq<Segment>, first: nat, i: nat)
    requires i < |segs|
    ensures VttKept(segs[i]) <==> VttCueOf(segs[i], first + i) in VttCues(segs, first)
  {
    if VttKept(segs[i]) {
      KeptCuesComplete(segs, first, VttKept, VttCueOf, i);
    } else {
      KeptCuesNoStray(segs, first, VttKept, VttCueOf, i);
    }
  }

  /** Cue identifiers strictly increase along the list. */
  predicate IdsIncrease(cues: seq<Cue>) {
    forall j, k :: 0 <= j < k < |cues| ==> cues[j].id < cues[k].id
  }

  /** A cue list described without the loop: segment `i` gets a cue,
      `cue(segs[i], first + i)`, exactly when `keep` accepts it; every cue
      is such a cue; and the cues follow the order of the segments. */
  predicate CueList(segs: seq<Segment>, first: nat, keep: Segment -> bool, cue: (Segment, nat) -> Cue, cues: seq<Cue>) {
    && (forall i :: 0 <= i < |segs| ==> (keep(segs[i]) <==> cue(segs[i], first + i) in cues))
    && (forall c | c in cues :: exists i :: 0 <= i < |segs| && keep(segs[i]) && c == cue(segs[i], first + i))
    && IdsIncrease(cues)
  }

  /** What the WebVTT writer promises of its cue list. */
  predicate VttCueList(segs: seq<Segment>, first: nat, cues: seq<Cue>) {
    CueList(segs, first, VttKept, VttCueOf, cues)
  }

  /** The cues the writer produces meet that description. */
  lemma VttCuesListed(segs: seq<Segment>, first: nat)
    ensures VttCueList(segs, first, VttCues(segs, first))
  {
    forall i | 0 <= i < |segs|
      ensures VttKept(segs[i]) <==> VttCueOf(segs[i], first + i) in VttCues(segs, first)
    {
      VttCueIds(segs, first, i);
    }
    KeptCuesSound(segs, first, VttKept, VttCueOf);
    VttCuesNumbered(segs, first);
  }

  /** Two cue lists with increasing identifiers and the same members are
      the same list. */
  lemma {:induction false} IncreasingSameCues(a: seq<Cue>, b: seq<Cue>)
    requires IdsIncrease(a) && IdsIncrease(b)
    requires forall c :: c in a <==> c in b
    ensures a == b
    decreases |a|
  {
    if |a| == 0 {
      assert forall c :: c !in b;
    } else {
      assert a[0] in a;
      assert |b| > 0;
      assert b[0] in b;
      var j :| 0 <= j < |a| && a[j] == b[0];
      var k :| 0 <= k < |b| && b[k] == a[0];
      assert a[0].id <= a[j].id;
      assert b[0].id <= b[k].id;
      assert j == 0;
      forall c ensures c in a[1..] <==> c in b[1..] {
        if c in a[1..] {
          var m :| 1 <= m < |a| && a[m] == c;
          assert c.id > a[0].id;
          assert c in b;
          var n :| 0 <= n < |b| && b[n] == c;
          assert n != 0;
          assert b[1..][n - 1] == c;
        }
        if c in b[1..] {
          var n :| 1 <= n < |b| && b[n] == c;
          assert c.id > b[0].id;
          assert c in a;
          var m :| 0 <= m < |a| && a[m] == c;
          assert m != 0;
          assert a[1..][m - 1] == c;
        }
      }
      IncreasingSameCues(a[1..], b[1..]);
      assert a == [a[0]] + a[1..];
      assert b == [b[0]] + b[1..];
    }
  }

  /** Every cue of one list meeting a description is in any other. */
  lemma SameCueMembers(segs: seq<Segment>, first: nat, keep: Segment -> bool, cue: (Segment, nat) -> Cue, a: seq<Cue>, b: seq<Cue>)
    requires CueList(segs, first, keep, cue, a) && CueList(segs, first, keep, cue, b)
    ensures forall c :: c in a ==> c in b
  {
    forall c | c in a ensures c in b {
      var i :| 0 <= i < |segs| && keep(segs[i]) && c == cue(segs[i], first + i);
    }
  }

  /** The description fixes the cue list: the writer's cues are the only
      list that meets it. */
  lemma VttCueListUnique(segs: seq<Segment>, first: nat, cues: seq<Cue>)
    requires VttCueList(segs, first, cues)
    ensures cues == VttCues(segs, first)
  {
    var w := VttCues(segs, first);
    VttCuesListed(segs, first);
    SameCueMembers(segs, first, VttKept, VttCueOf, cues, w);
    SameCueMembers(segs, first, VttKept, VttCueOf, w, cues);
    IncreasingSameCues(cues, w);
  }

  const VttHeader: string := "WEBVTT\n\n"

  /** The message of the `UnboundLocalError` raised when the final log line
      reads the loop variable of an empty loop. */
  const UnboundIdx: string := "cannot access local variable 'idx' where it is not associated with a value"

  /** `generate_transcript_vtt` as written: the header and the kept cues,
      numbered from 1; an empty segment list raises at the final log line
      because the loop variable `idx` was never bound. */
  function TranscriptVttAsWritten(segs: seq<Segment>): (r: Result<string>)
    ensures r.Failure? <==> |segs| == 0
    ensures r.Success? ==> VttHeader <= r.value
    ensures r.Success? ==> exists cues :: VttCueList(segs, 1, cues) && r.value == VttHeader + RenderCues(cues, VttTime)
  {
    if |segs| == 0 then Failure(UnboundIdx)
    else
      VttCuesListed(segs, 1);
      Success(VttHeader + RenderCues(VttCues(segs, 1), VttTime))
  }

  /** The writer as evidently intended: an empty transcript gives a file
      holding only the header. */
  function TranscriptVtt(segs: seq<Segment>): (r: Result<string>)
    ensures r.Success? && VttHeader <= r.value
    ensures |segs| > 0 ==> TranscriptVttAsWritten(segs) == r
  {
    Success(VttHeader + RenderCues(VttCues(segs, 1), VttTime))
  }

  /** The discrepancy: an empty transcript makes the writer as written fail,
      while nothing but the header was meant to be written. */
  lemma VttEmptyTranscript()
    ensures TranscriptVttAsWritten([]).Failure?
    ensures TranscriptVtt([]) == Success(VttHeader)
  {
    assert RenderCues(VttCues([], 1), VttTime) == "";
    assert VttHeader + "" == VttHeader;
  }
}

=== FILE: tasks.dfy ===
/** The pure rules of app/background/tasks.py: how one requested format is
    dispatched to a generator, how selects are built from comments, how an
    artifact record is made, and how the video-split and import jobs count
    their work. */
module Tasks {
  import opened Wrappers
  import opened Text
  import opened Json
  import Paths
  import Jobs
  import Edl
  import ExportSchemas
  import Fields
  import Segments

  // ---------------------------------------------------------------------
  // Format dispatch
  // ---------------------------------------------------------------------

  /** The three dispatchers: transcript, events and comments. */
  datatype Kind = Transcript | Events | Comments

  function KindName(k: Kind): string {
    match k
    case Transcript => "transcript"
    case Events => "events"
    case Comments => "comments"
  }

  function KindTitle(k: Kind): string {
    match k
    case Transcript => "Transcript"
    case Events => "Events"
    case Comments => "Comments"
  }

  /** The formats each dispatcher recognises. */
  function Formats(k: Kind): seq<string> {
    if k == Transcript then ["json", "srt", "vtt", "fcpxml"]
    else ["json", "csv", "fcpxml", "edl"]
  }

  /** Whether `ArtifactGenerator` defines a `generate_<family>_<format>`
      method: transcripts in four formats, events and insights in four. */
  predicate Defines(family: string, fmt: string) {
    (family == "transcript" && fmt in ["json", "srt", "vtt", "fcpxml"])
    || ((family == "events" || family == "insights") && fmt in ["json", "csv", "fcpxml", "edl"])
  }

  function MethodName(family: string, fmt: string): string {
    "generate_" + family + "_" + fmt
  }

  function NoAttribute(name: string): string {
    "'ArtifactGenerator' object has no attribute '" + name + "'"
  }

  /** Looking the method up and calling it: `call` stands for the work of
      the method of that name (its file path, or the text of what it
      raised); a method the generator does not define raises
      `AttributeError`. */
  function Call(family: string, fmt: string, call: string -> Result<string>): Result<string> {
    if Defines(family, fmt) then call(MethodName(family, fmt))
    else Failure(NoAttribute(MethodName(family, fmt)))
  }

  /** What a dispatcher returns: the artifact's path and a status message. */
  datatype Outcome = Outcome(artifact: Option<string>, status: string)

  const SuccessStatus := "Success"

  function UnsupportedMessage(k: Kind, fmt: string): string {
    "Unsupported " + KindName(k) + " format : format=" + fmt
  }

  function FailedMessage(k: Kind, fmt: string, error: string): string {
    KindTitle(k) + " artifact generation failed : format=" + fmt + " , error=" + error
  }

  /** A dispatcher that sends a recognised format to the method of the
      generator family `family`. It never raises: an unknown format and
      anything the generator raises come back as a status message without an
      artifact. */
  function DispatchWith(k: Kind, fmt: string, family: string, call: string -> Result<string>): (r: Outcome)
    ensures r.status == SuccessStatus <==> r.artifact.Some?
    ensures fmt !in Formats(k) ==> r == Outcome(None, UnsupportedMessage(k, fmt))
    ensures fmt in Formats(k) && Call(family, fmt, call).Success? ==>
      r == Outcome(Some(Call(family, fmt, call).value), SuccessStatus)
    ensures fmt in Formats(k) && Call(family, fmt, call).Failure? ==>
      r == Outcome(None, FailedMessage(k, fmt, Call(family, fmt, call).error))
  {
    if fmt in Formats(k) then
      match Call(family, fmt, call)
      case Success(p) => Outcome(Some(p), SuccessStatus)
      case Failure(e) =>
        assert FailedMessage(k, fmt, e)[0] != 'S';
        Outcome(None, FailedMessage(k, fmt, e))
    else
      assert UnsupportedMessage(k, fmt)[0] == 'U';
      Outcome(None, UnsupportedMessage(k, fmt))
  }

  /** `_generate_transcript_artifact`, `_generate_events_artifact` and
      `_generate_comments_artifact` as written: each calls
      `generate_<kind>_<format>`. */
  function Dispatch(k: Kind, fmt: string, call: string -> Result<string>): Outcome {
    DispatchWith(k, fmt, KindName(k), call)
  }

  /** As written, every recognised comments format looks up a
      `generate_comments_*` method the generator does not have, so it always
      ends in the failure branch, whatever the generator would do. */
  lemma CommentsAlwaysFailAsWritten(fmt: string, call: string -> Result<string>)
    requires fmt in Formats(Comments)
    ensures Dispatch(Comments, fmt, call) ==
      Outcome(None, FailedMessage(Comments, fmt, NoAttribute("generate_comments_" + fmt)))
  {
    assert |"comments"| != |"transcript"| && |"comments"| != |"events"|;
    assert "comments"[0] != "insights"[0];
    assert !Defines("comments", fmt);
    assert MethodName("comments", fmt) == "generate_comments_" + fmt;
  }

  /** The family each dispatcher was evidently meant to use: comments are
      insights, which the generator writes with `generate_insights_*`. */
  function IntendedFamily(k: Kind): string {
    if k == Comments then "insights" else KindName(k)
  }

  /** The corrected dispatcher. */
  function DispatchIntended(k: Kind, fmt: string, call: string -> Result<string>): Outcome {
    DispatchWith(k, fmt, IntendedFamily(k), call)
  }

  /** With the intended families every recognised format of every
      dispatcher reaches a method the generator defines, so the outcome is
      exactly the generator's own. */
  lemma IntendedMethodsExist(k: Kind, fmt: string, call: string -> Result<string>)
    requires fmt in Formats(k)
    ensures Defines(IntendedFamily(k), fmt)
    ensures var name := MethodName(IntendedFamily(k), fmt);
      call(name).Success? ==> DispatchIntended(k, fmt, call) == Outcome(Some(call(name).value), SuccessStatus)
    ensures var name := MethodName(IntendedFamily(k), fmt);
      call(name).Failure? ==> DispatchIntended(k, fmt, call) == Outcome(None, FailedMessage(k, fmt, call(name).error))
  {
  }

  /** The correction leaves the transcript and events dispatchers as they
      are. */
  lemma IntendedKeepsOthers(k: Kind, fmt: string, call: string -> Result<string>)
    requires k != Comments
    ensures DispatchIntended(k, fmt, call) == Dispatch(k, fmt, call)
  {
  }

  /** The export loop over one output's formats: every format is attempted,
      failures are collected as messages and paths as artifacts. */
  datatype SectionResult = SectionResult(errors: seq<string>, artifacts: seq<string>)

  function Section(k: Kind, fmts: seq<string>, call: string -> Result<string>): (r: SectionResult)
    ensures |r.errors| + |r.artifacts| == |fmts|
    ensures forall i :: 0 <= i < |fmts| && Dispatch(k, fmts[i], call).artifact.Some? ==>
      Dispatch(k, fmts[i], call).artifact.value in r.artifacts
    ensures forall i :: 0 <= i < |fmts| && Dispatch(k, fmts[i], call).artifact.None? ==>
      Dispatch(k, fmts[i], call).status in r.errors
  {
    if |fmts| == 0 then SectionResult([], [])
    else
      var rest := Section(k, fmts[1..], call);
      var o := Dispatch(k, fmts[0], call);
      assert forall i :: 1 <= i < |fmts| ==> fmts[i] == fmts[1..][i - 1];
      match o.artifact
      case Some(p) => SectionResult(rest.errors, [p] + rest.artifacts)
      case None => SectionResult([o.status] + rest.errors, rest.artifacts)
  }

  // ---------------------------------------------------------------------
  // Selects
  // ---------------------------------------------------------------------

  /** A comment as `_create_selects_from_comments_markers` reads it: `get`
      gives the same `None` for a missing key and a null value, so `id` and
      `label` are JSON values with null for both, and a time is `None` for
      both. */
  datatype Comment = Comment(id: Json, name: Json, startTime: Option<real>, endTime: Option<real>)

  /** An item of the iterated collection: a comment object, or a value with
      no `get` method (a string, as when a dict is iterated for its keys). */
  datatype Item = CommentItem(comment: Comment) | PlainItem(text: string)

  predicate HasRange(c: Comment) {
    c.startTime.Some? && c.endTime.Some?
  }

  /** The projection of a comment onto the four keys of a select; the
      `label` key is always written, so the selects EDL always names the
      clip. */
  function Project(c: Comment): (r: Edl.Select)
    requires HasRange(c)
    ensures r.id == Some(c.id) && r.name == Some(c.name)
    ensures r.startTime == c.startTime.value && r.endTime == c.endTime.value
  {
    Edl.Select(Some(c.id), Some(c.name), c.startTime.value, c.endTime.value)
  }

  /** The comments with both times, projected, in input order. */
  function Kept(cs: seq<Comment>): (r: seq<Edl.Select>)
    ensures |r| <= |cs|
    ensures forall c :: c in cs && HasRange(c) ==> Project(c) in r
    ensures forall x :: x in r ==> exists c :: c in cs && HasRange(c) && x == Project(c)
  {
    if |cs| == 0 then []
    else
      var rest := Kept(cs[1..]);
      assert forall c :: c in cs[1..] ==> c in cs;
      assert forall c :: c in cs ==> c == cs[0] || c in cs[1..];
      if HasRange(cs[0]) then [Project(cs[0])] + rest else rest
  }

  predicate SortedByStart(s: seq<Edl.Select>) {
    forall i, j :: 0 <= i < j < |s| ==> s[i].startTime <= s[j].startTime
  }

  predicate AllAtLeast(s: seq<Edl.Select>, b: real) {
    forall i :: 0 <= i < |s| ==> b <= s[i].startTime
  }

  /** Inserting after every element whose start is not later. */
  function Insert(x: Edl.Select, s: seq<Edl.Select>): (r: seq<Edl.Select>)
    ensures |r| == |s| + 1
  {
    if |s| == 0 then [x]
    else if x.startTime < s[0].startTime then [x] + s
    else [s[0]] + Insert(x, s[1..])
  }

  lemma {:induction false} InsertMultiset(x: Edl.Select, s: seq<Edl.Select>)
    ensures multiset(Insert(x, s)) == multiset(s) + multiset{x}
  {
    if |s| > 0 && x.startTime >= s[0].startTime {
      InsertMultiset(x, s[1..]);
      assert s == [s[0]] + s[1..];
    }
  }

  lemma {:induction false} InsertLowerBound(x: Edl.Select, s: seq<Edl.Select>, b: real)
    requires AllAtLeast(s, b) && b <= x.startTime
    ensures AllAtLeast(Insert(x, s), b)
  {
    if |s| > 0 && x.startTime >= s[0].startTime {
      InsertLowerBound(x, s[1..], b);
    }
  }

  lemma {:induction false} InsertSorted(x: Edl.Select, s: seq<Edl.Select>)
    requires SortedByStart(s)
    ensures SortedByStart(Insert(x, s))
  {
    if |s| > 0 && x.startTime >= s[0].startTime {
      InsertSorted(x, s[1..]);
      InsertLowerBound(x, s[1..], s[0].startTime);
    }
  }

  /** `list.sort(key=start_time)`: a stable sort by start time. */
  function SortByStart(s: seq<Edl.Select>): (r: seq<Edl.Select>)
    ensures SortedByStart(r)
    ensures multiset(r) == multiset(s)
  {
    if |s| == 0 then []
    else
      var init := SortByStart(s[..|s| - 1]);
      InsertSorted(s[|s| - 1], init);
      InsertMultiset(s[|s| - 1], init);
      assert s == s[..|s| - 1] + [s[|s| - 1]];
      Insert(s[|s| - 1], init)
  }

  /** The elements whose start is `t`, in order. */
  function WithStart(s: seq<Edl.Select>, t: real): seq<Edl.Select> {
    if |s| == 0 then []
    else WithStart(s[..|s| - 1], t) + (if s[|s| - 1].startTime == t then [s[|s| - 1]] else [])
  }

  lemma {:induction false} WithStartConcat(a: seq<Edl.Select>, b: seq<Edl.Select>, t: real)
    ensures WithStart(a + b, t) == WithStart(a, t) + WithStart(b, t)
  {
    if |b| > 0 {
      assert (a + b)[..|a + b| - 1] == a + b[..|b| - 1];
      WithStartConcat(a, b[..|b| - 1], t);
    } else {
      assert a + b == a;
    }
  }

  lemma {:induction false} WithStartNone(s: seq<Edl.Select>, t: real)
    requires forall i :: 0 <= i < |s| ==> s[i].startTime != t
    ensures WithStart(s, t) == []
  {
    if |s| > 0 {
      WithStartNone(s[..|s| - 1], t);
    }
  }

  /** Insertion keeps the relative order of equal starts and places the new
      element after them. */
  lemma {:induction false} InsertStable(x: Edl.Select, s: seq<Edl.Select>, t: real)
    requires SortedByStart(s)
    ensures WithStart(Insert(x, s), t) == WithStart(s, t) + (if x.startTime == t then [x] else [])
  {
    var tail := if x.startTime == t then [x] else [];
    if |s| == 0 {
      assert WithStart([x], t) == WithStart([], t) + tail;
    } else if x.startTime < s[0].startTime {
      InsertFrontStable(x, s, t);
    } else {
      var rest := s[1..];
      SortedTail(s);
      InsertStable(x, rest, t);
      assert Insert(x, s) == [s[0]] + Insert(x, rest);
      WithStartConcat([s[0]], Insert(x, rest), t);
      WithStartConcat([s[0]], rest, t);
      assert [s[0]] + rest == s;
    }
  }

  lemma SortedTail(s: seq<Edl.Select>)
    requires |s| > 0 && SortedByStart(s)
    ensures SortedByStart(s[1..])
  {
    var rest := s[1..];
    forall i, j | 0 <= i < j < |rest| ensures rest[i].startTime <= rest[j].startTime {
      assert rest[i] == s[i + 1] && rest[j] == s[j + 1];
    }
  }

  /** An element placed in front: the rest all start later than it. */
  lemma InsertFrontStable(x: Edl.Select, s: seq<Edl.Select>, t: real)
    requires SortedByStart(s) && |s| > 0 && x.startTime < s[0].startTime
    ensures WithStart(Insert(x, s), t) == WithStart(s, t) + (if x.startTime == t then [x] else [])
  {
    assert Insert(x, s) == [x] + s;
    WithStartConcat([x], s, t);
    assert WithStart([x], t) == WithStart([], t) + (if x.startTime == t then [x] else []);
    if x.startTime == t {
      forall i | 0 <= i < |s| ensures s[i].startTime != t {
        if i > 0 {
          assert s[0].startTime <= s[i].startTime;
        }
      }
      WithStartNone(s, t);
    }
  }

  /** The sort is stable: for every start time the elements with that start
      keep their input order. */
  lemma {:induction false} SortStable(s: seq<Edl.Select>, t: real)
    ensures WithStart(SortByStart(s), t) == WithStart(s, t)
  {
    if |s| > 0 {
      SortStable(s[..|s| - 1], t);
      InsertStable(s[|s| - 1], SortByStart(s[..|s| - 1]), t);
    }
  }

  /** `_create_selects_from_comments_markers` over the items it iterates:
      an item without `get` raises, and the exception yields no selects. */
  function SelectsOf(items: seq<Item>): (r: seq<Edl.Select>)
    ensures (exists i :: 0 <= i < |items| && items[i].PlainItem?) ==> r == []
  {
    if exists i :: 0 <= i < |items| && items[i].PlainItem? then []
    else SortByStart(Kept(seq(|items|, i requires 0 <= i < |items| => items[i].comment)))
  }

  /** The selects built from a list of comments: sorted by start, exactly the
      projections of the comments with both times, and stable. */
  function Selects(cs: seq<Comment>): (r: seq<Edl.Select>)
    ensures SortedByStart(r)
    ensures multiset(r) == multiset(Kept(cs))
    ensures forall t :: WithStart(r, t) == WithStart(Kept(cs), t)
  {
    forall t ensures WithStart(SortByStart(Kept(cs)), t) == WithStart(Kept(cs), t) {
      SortStable(Kept(cs), t);
    }
    SortByStart(Kept(cs))
  }

  /** Building from a list of comment objects is `Selects`. */
  lemma SelectsOfComments(cs: seq<Comment>)
    ensures SelectsOf(seq(|cs|, i requires 0 <= i < |cs| => CommentItem(cs[i]))) == Selects(cs)
  {
    var items := seq(|cs|, i requires 0 <= i < |cs| => CommentItem(cs[i]));
    assert seq(|items|, i requires 0 <= i < |items| => items[i].comment) == cs;
  }

  /** Every select carries a label, so each entry of the selects EDL has its
      clip-name line. */
  lemma SelectsAreNamed(cs: seq<Comment>)
    ensures forall x :: x in Selects(cs) ==> x.name.Some?
  {
    forall x | x in Selects(cs) ensures x.name.Some? {
      assert x in multiset(Selects(cs));
      assert x in Kept(cs);
    }
  }

  /** A comment as the Fabric client fetches it (app/client/fabric_client.py):
      the keys `id`, `sdnaEventType`, `eventValue`, `start`, `end`,
      `source` and `fullPath`, with defaults for missing fields. */
  datatype FetchedComment = FetchedComment(
    id: string, eventType: string, eventValue: string, start: real, end: real, source: string, fullPath: string)

  /** The comments payload the export fetches: an object with a `repo_guid`
      and the `segments` list. */
  datatype CommentsPayload = CommentsPayload(repoGuid: string, segments: seq<FetchedComment>)

  /** A fetched comment read with the keys the selects builder asks for:
      it has no `label`, `start_time` or `end_time`, so only the id is
      found. */
  function ReadAsWritten(f: FetchedComment): (c: Comment)
    ensures !HasRange(c)
  {
    Comment(JStr(f.id), JNull, None, None)
  }

  /** A fetched comment read with the keys it carries: the range from
      `start` and `end`, the label from `eventValue`. */
  function ReadIntended(f: FetchedComment): (c: Comment)
    ensures HasRange(c)
  {
    Comment(JStr(f.id), JStr(f.eventValue), Some(f.start), Some(f.end))
  }

  function ReadAll(fs: seq<FetchedComment>, read: FetchedComment -> Comment): (cs: seq<Comment>)
    ensures |cs| == |fs| && forall i :: 0 <= i < |fs| ==> cs[i] == read(fs[i])
  {
    seq(|fs|, i requires 0 <= i < |fs| => read(fs[i]))
  }

  /** The select each fetched comment is meant to give, written out
      field by field. */
  function Intended(fs: seq<FetchedComment>): (r: seq<Edl.Select>)
    ensures |r| == |fs|
  {
    seq(|fs|, i requires 0 <= i < |fs| => Edl.Select(Some(JStr(fs[i].id)), Some(JStr(fs[i].eventValue)), fs[i].start, fs[i].end))
  }

  /** Comments without a range are all skipped. */
  lemma {:induction false} KeptNone(cs: seq<Comment>)
    requires forall i :: 0 <= i < |cs| ==> !HasRange(cs[i])
    ensures Kept(cs) == []
  {
    if |cs| > 0 {
      KeptNone(cs[1..]);
    }
  }

  /** Comments that all have a range are all projected, in order. */
  lemma {:induction false} KeptAll(cs: seq<Comment>)
    requires forall i :: 0 <= i < |cs| ==> HasRange(cs[i])
    ensures |Kept(cs)| == |cs| && forall i :: 0 <= i < |cs| ==> Kept(cs)[i] == Project(cs[i])
  {
    if |cs| > 0 {
      KeptAll(cs[1..]);
      assert Kept(cs) == [Project(cs[0])] + Kept(cs[1..]);
    }
  }

  /** Reading every fetched comment with its own keys keeps them all. */
  lemma KeptIntended(fs: seq<FetchedComment>)
    ensures Kept(ReadAll(fs, ReadIntended)) == Intended(fs)
  {
    KeptAll(ReadAll(fs, ReadIntended));
  }

  /** As written, the export passes the payload itself (or `[]` when comments
      were not requested); iterating a dict visits its keys. */
  function SelectsFromPayloadAsWritten(p: Option<CommentsPayload>): seq<Edl.Select> {
    match p
    case None => SelectsOf([])
    case Some(_) => SelectsOf([PlainItem("repo_guid"), PlainItem("segments")])
  }

  /** Whatever the comments hold, the selects built as written are empty. */
  lemma SelectsAsWrittenEmpty(p: Option<CommentsPayload>)
    ensures SelectsFromPayloadAsWritten(p) == []
  {
    if p.Some? {
      assert [PlainItem("repo_guid"), PlainItem("segments")][0].PlainItem?;
    }
  }

  /** Passing the payload's list alone is not enough: the builder still
      reads `start_time` and `end_time`, which fetched comments lack, so
      every comment is skipped. */
  function SelectsFromListAsRead(p: Option<CommentsPayload>): (r: seq<Edl.Select>)
    ensures r == []
  {
    match p
    case None => []
    case Some(q) =>
      KeptNone(ReadAll(q.segments, ReadAsWritten));
      Selects(ReadAll(q.segments, ReadAsWritten))
  }

  /** The evidently intended selects: the payload's comment list, read with
      the keys the comments carry. Every fetched comment gives one select,
      the selects are sorted by start, and comments with equal starts keep
      their fetched order. */
  function SelectsFromPayload(p: Option<CommentsPayload>): (r: seq<Edl.Select>)
    ensures p.None? ==> r == []
    ensures p.Some? ==> |r| == |p.value.segments|
    ensures SortedByStart(r)
    ensures p.Some? ==> multiset(r) == multiset(Intended(p.value.segments))
    ensures p.Some? ==> forall t :: WithStart(r, t) == WithStart(Intended(p.value.segments), t)
  {
    match p
    case None => []
    case Some(q) =>
      KeptIntended(q.segments);
      var r := Selects(ReadAll(q.segments, ReadIntended));
      assert |multiset(r)| == |multiset(Intended(q.segments))|;
      r
  }

  /** One fetched comment: built as written it gives no select, built from
      the list alone still none, and read with its own keys it gives one. */
  lemma SelectsPayloadCounterexample()
    ensures var f := FetchedComment("c1", "comment", "take", 1.0, 2.0, "", "");
      var p := Some(CommentsPayload("repo", [f]));
      && SelectsFromPayloadAsWritten(p) == []
      && SelectsFromListAsRead(p) == []
      && SelectsFromPayload(p) == [Edl.Select(Some(JStr("c1")), Some(JStr("take")), 1.0, 2.0)]
  {
    var f := FetchedComment("c1", "comment", "take", 1.0, 2.0, "", "");
    var p := Some(CommentsPayload("repo", [f]));
    SelectsAsWrittenEmpty(p);
    var r := SelectsFromPayload(p);
    assert |r| == 1;
    assert r[0] in multiset(Intended([f]));
  }

  /** The selects section of the export: every selected format is looked
      at, but only "edl" writes a file (`edl` is the path
      `generate_selects_edl` returns); any other format, "fcpxml" included,
      is passed over without an artifact or a message. */
  function SelectsSection(fmts: seq<string>, edl: string): (r: seq<string>)
    ensures |r| <= |fmts|
    ensures forall i :: 0 <= i < |r| ==> r[i] == edl
    ensures |r| > 0 <==> "edl" in fmts
  {
    if |fmts| == 0 then []
    else
      var rest := SelectsSection(fmts[1..], edl);
      assert "edl" in fmts <==> fmts[0] == "edl" || "edl" in fmts[1..];
      if fmts[0] == "edl" then [edl] + rest else rest
  }

  /** The schema accepts selects in FCPXML alone, and such a request
      writes no selects artifact. */
  lemma SelectsFcpxmlIgnored(edl: string)
    ensures ExportSchemas.ParseSelects(Fields.Given(true), Fields.Given(["fcpxml"])).Success?
    ensures SelectsSection(["fcpxml"], edl) == []
  {
    assert ExportSchemas.FirstOutside(["fcpxml"], ExportSchemas.AllowedSelectsFormats).None?;
  }

  /** With the intended family the comments "edl" format reaches
      `generate_insights_edl`, which returns the text it wrote rather than
      the file's path; the dispatcher then reports that text as the
      artifact, and the record names a "file" that is the whole text when
      it holds no '/'. */
  lemma IntendedCommentsEdlIsText(segs: seq<Segments.Segment>, clip: string, call: string -> Result<string>,
                                  sparkId: string, base: string, size: Option<nat>)
    requires Edl.EdlText(segs, Edl.Insights, clip).Success?
    requires call("generate_insights_edl") == Edl.EdlText(segs, Edl.Insights, clip)
    ensures var text := Edl.EdlText(segs, Edl.Insights, clip).value;
      && Edl.EdlHeader <= text
      && DispatchIntended(Comments, "edl", call) == Outcome(Some(text), SuccessStatus)
      && ('/' !in text ==> CreateArtifactRecord(Some(text), "comments", "edl", sparkId, base, size).value.filename == text)
  {
    IntendedCommentsEdlReports(Edl.EdlText(segs, Edl.Insights, clip).value, call, sparkId, base, size);
  }

  /** The evidently intended generator returns the path of the EDL it
      wrote, as `generate_events_edl` does; the record then names that
      file under the spark's folder. */
  lemma IntendedCommentsEdlRecordsPath(dir: string, file: string, call: string -> Result<string>,
                                       sparkId: string, base: string, size: Option<nat>)
    requires file != "" && '/' !in file
    requires call("generate_insights_edl") == Success(dir + "/" + file)
    ensures DispatchIntended(Comments, "edl", call) == Outcome(Some(dir + "/" + file), SuccessStatus)
    ensures var r := CreateArtifactRecord(Some(dir + "/" + file), "comments", "edl", sparkId, base, size);
      r.Some? && r.value.filename == file && r.value.url == base + "/" + sparkId + "/" + file
  {
    IntendedCommentsEdlReports(dir + "/" + file, call, sparkId, base, size);
    RecordNamesFile(dir, file, "comments", "edl", sparkId, base, size);
  }

  /** Whatever `generate_insights_edl` returns is reported, and recorded,
      as the artifact's path. */
  lemma IntendedCommentsEdlReports(text: string, call: string -> Result<string>, sparkId: string, base: string, size: Option<nat>)
    requires call("generate_insights_edl") == Success(text)
    ensures DispatchIntended(Comments, "edl", call) == Outcome(Some(text), SuccessStatus)
    ensures text != "" && '/' !in text ==>
      CreateArtifactRecord(Some(text), "comments", "edl", sparkId, base, size).value.filename == text
  {
    IntendedMethodsExist(Comments, "edl", call);
    assert MethodName(IntendedFamily(Comments), "edl") == "generate_insights_edl";
    if text != "" && '/' !in text {
      SplitNoSep(text, '/');
    }
  }

  // ---------------------------------------------------------------------
  // Artifact records
  // ---------------------------------------------------------------------

  datatype ArtifactRecord = ArtifactRecord(artifactType: string, format: string, filename: string, url: string, fileSize: nat)

  /** `_create_artifact_record`: `base` is the configured Fabric API URL
      and `size` the file's size when it exists (the `stat` call is I/O). */
  function CreateArtifactRecord(path: Option<string>, artifactType: string, fmt: string, sparkId: string, base: string, size: Option<nat>): (r: Option<ArtifactRecord>)
    ensures r.None? <==> path.None? || path.value == ""
    ensures r.Some? ==> '/' !in r.value.filename
    ensures r.Some? ==> r.value.artifactType == artifactType && r.value.format == fmt
    ensures r.Some? ==> r.value.fileSize == size.GetOr(0)
  {
    match path
    case None => None
    case Some(p) =>
      if p == "" then None
      else
        var name := Paths.Name(p);
        Some(ArtifactRecord(artifactType, fmt, name, base + "/" + sparkId + "/" + name, size.GetOr(0)))
  }

  /** For a file written into a directory, the record names that file and
      its URL is the file under the spark's folder. */
  lemma RecordNamesFile(dir: string, file: string, artifactType: string, fmt: string, sparkId: string, base: string, size: Option<nat>)
    requires file != "" && '/' !in file
    ensures var r := CreateArtifactRecord(Some(dir + "/" + file), artifactType, fmt, sparkId, base, size);
      r.Some? && r.value.filename == file && r.value.url == base + "/" + sparkId + "/" + file
  {
    SplitAtSep(dir, file, '/');
    SplitNoSep(file, '/');
    var parts := Split(dir + "/" + file, '/');
    assert dir + "/" + file == dir + ['/'] + file;
    assert parts[|parts| - 1] == file;
  }

  // ---------------------------------------------------------------------
  // Video-split counters
  // ---------------------------------------------------------------------

  /** One output a split job attempts. */
  datatype Attempt = FullVideo | SingleSegment(index: nat) | MergedSegments

  /** The attempts in the order the job makes them: the full video, each
      segment, then the merge (only when there are segments). */
  function Attempts(full: bool, individual: bool, merge: bool, n: nat): seq<Attempt> {
    (if full then [FullVideo] else [])
    + (if individual then Singles(n) else [])
    + (if merge && n > 0 then [MergedSegments] else [])
  }

  /** One attempt per segment, by index. */
  function Singles(n: nat): (r: seq<Attempt>)
    ensures |r| == n
  {
    if n == 0 then [] else Singles(n - 1) + [SingleSegment(n - 1)]
  }

  /** How many attempts succeed. */
  function Successes(xs: seq<Attempt>, ok: Attempt -> bool): nat {
    if |xs| == 0 then 0
    else Successes(xs[..|xs| - 1], ok) + (if ok(xs[|xs| - 1]) then 1 else 0)
  }

  lemma {:induction false} SuccessesAll(xs: seq<Attempt>, ok: Attempt -> bool)
    ensures Successes(xs, ok) <= |xs|
    ensures Successes(xs, ok) == |xs| <==> forall a :: a in xs ==> ok(a)
  {
    if |xs| > 0 {
      var init := xs[..|xs| - 1];
      SuccessesAll(init, ok);
      assert forall a :: a in xs <==> a in init || a == xs[|xs| - 1];
    }
  }

  lemma {:induction false} SuccessesConcat(a: seq<Attempt>, b: seq<Attempt>, ok: Attempt -> bool)
    ensures Successes(a + b, ok) == Successes(a, ok) + Successes(b, ok)
  {
    if |b| == 0 {
      assert a + b == a;
    } else {
      assert (a + b)[..|a + b| - 1] == a + b[..|b| - 1];
      SuccessesConcat(a, b[..|b| - 1], ok);
    }
  }

  /** The loop over the individual segments: one attempt each, every one
      counted as processed. */
  method TallySingles(n: nat, ok: Attempt -> bool) returns (successful: nat, failed: nat, processed: nat)
    ensures successful == Successes(Singles(n), ok)
    ensures successful + failed == n
    ensures processed == n
  {
    successful, failed, processed := 0, 0, 0;
    var i := 0;
    while i < n
      invariant 0 <= i <= n
      invariant successful == Successes(Singles(i), ok)
      invariant successful + failed == i
      invariant processed == i
    {
      if ok(SingleSegment(i)) { successful := successful + 1; } else { failed := failed + 1; }
      assert Singles(i + 1)[..i] == Singles(i);
      processed := processed + 1;
      i := i + 1;
    }
  }

  /** The counters and final status of `process_video_split_task`; `ok`
      says whether an attempt's ffmpeg run succeeded. */
  method SplitCounters(full: bool, individual: bool, merge: bool, n: nat, ok: Attempt -> bool)
    returns (successful: nat, failed: nat, processed: nat, status: Jobs.Status)
    ensures processed == (if individual then n else 0)
    ensures successful == Successes(Attempts(full, individual, merge, n), ok)
    ensures successful + failed == |Attempts(full, individual, merge, n)|
    ensures status == Jobs.Completed <==> forall a :: a in Attempts(full, individual, merge, n) ==> ok(a)
    ensures status != Jobs.Completed ==> status == Jobs.Failed
  {
    var fullPart: seq<Attempt> := if full then [FullVideo] else [];
    var singlePart: seq<Attempt> := if individual then Singles(n) else [];
    var mergePart: seq<Attempt> := if merge && n > 0 then [MergedSegments] else [];
    var fs, ff := TallyOne(full, FullVideo, ok);
    var ss, sf := 0, 0;
    processed := 0;
    if individual {
      ss, sf, processed := TallySingles(n, ok);
    }
    var ms, mf := TallyOne(merge && n > 0, MergedSegments, ok);
    var all := Attempts(full, individual, merge, n);
    assert all == fullPart + singlePart + mergePart;
    SuccessesConcat(fullPart, singlePart, ok);
    SuccessesConcat(fullPart + singlePart, mergePart, ok);
    successful := fs + ss + ms;
    failed := ff + sf + mf;
    SuccessesAll(all, ok);
    status := if failed == 0 then Jobs.Completed else Jobs.Failed;
  }

  /** The counters of an optional single attempt (the full video, the merged
      segments). */
  method TallyOne(enabled: bool, a: Attempt, ok: Attempt -> bool) returns (successful: nat, failed: nat)
    ensures successful == Successes(if enabled then [a] else [], ok)
    ensures successful + failed == (if enabled then 1 else 0)
  {
    successful, failed := 0, 0;
    if enabled {
      if ok(a) { successful := 1; } else { failed := 1; }
      assert [a][..0] == [];
    }
  }

  // ---------------------------------------------------------------------
  // Import totals
  // ---------------------------------------------------------------------

  /** What one ingest call reports; a missing count reads as 0 and a
      missing message as "". */
  datatype Ingest = Ingest(created: nat, updated: nat, skipped: nat, errorMsg: string)

  /** The job's final counters. */
  datatype Totals = Totals(processed: nat, created: nat, updated: nat, skipped: nat, errorMessage: Option<string>)

  const BatchSize: nat := 1000

  /** The message a batch leaves behind: "success" clears it, and an empty
      one is stored as no message. */
  function BatchError(g: Ingest): Option<string> {
    if g.errorMsg == "success" || g.errorMsg == "" then None else Some(g.errorMsg)
  }

  function SumCreated(ingest: nat -> Ingest, k: nat): nat {
    if k == 0 then 0 else SumCreated(ingest, k - 1) + ingest(k - 1).created
  }

  function SumUpdated(ingest: nat -> Ingest, k: nat): nat {
    if k == 0 then 0 else SumUpdated(ingest, k - 1) + ingest(k - 1).updated
  }

  function SumSkipped(ingest: nat -> Ingest, k: nat): nat {
    if k == 0 then 0 else SumSkipped(ingest, k - 1) + ingest(k - 1).skipped
  }

  function Sum(xs: seq<nat>): nat {
    if |xs| == 0 then 0 else Sum(xs[..|xs| - 1]) + xs[|xs| - 1]
  }

  /** The import loop of `process_import_background_for_llm` over `total`
      stored highlights: it fetches batches of at most `BatchSize` until a
      fetch comes back short, and hands batch `k` to the ingest call, whose
      report is `ingest(k)`. `sizes` are the batch sizes fetched. */
  method ImportTotals(total: nat, ingest: nat -> Ingest) returns (t: Totals, sizes: seq<nat>)
    ensures |sizes| == (total + BatchSize - 1) / BatchSize
    ensures Sum(sizes) == total
    ensures forall k :: 0 <= k < |sizes| ==> 0 < sizes[k] <= BatchSize
    ensures t.processed == t.created + t.updated + t.skipped
    ensures t.created == SumCreated(ingest, |sizes|)
    ensures t.updated == SumUpdated(ingest, |sizes|)
    ensures t.skipped == SumSkipped(ingest, |sizes|)
    ensures t.errorMessage == (if |sizes| == 0 then None else BatchError(ingest(|sizes| - 1)))
  {
    var offset := 0;
    var created, updated, skipped := 0, 0, 0;
    var error: Option<string> := None;
    sizes := [];
    while offset < total
      invariant offset == |sizes| * BatchSize
      invariant offset <= total || (|sizes| > 0 && offset - BatchSize < total)
      invariant Sum(sizes) == if offset <= total then offset else total
      invariant forall k :: 0 <= k < |sizes| ==> 0 < sizes[k] <= BatchSize
      invariant created == SumCreated(ingest, |sizes|)
      invariant updated == SumUpdated(ingest, |sizes|)
      invariant skipped == SumSkipped(ingest, |sizes|)
      invariant error == (if |sizes| == 0 then None else BatchError(ingest(|sizes| - 1)))
      decreases total - offset
    {
      var fetched := if total - offset < BatchSize then total - offset else BatchSize;
      var g := ingest(|sizes|);
      created := created + g.created;
      updated := updated + g.updated;
      skipped := skipped + g.skipped;
      error := BatchError(g);
      assert (sizes + [fetched])[..|sizes|] == sizes;
      sizes := sizes + [fetched];
      offset := offset + BatchSize;
    }
    BatchCount(total, |sizes|);
    t := Totals(created + updated + skipped, created, updated, skipped, error);
  }

  /** The number of batches is the ceiling of `total / BatchSize`. */
  lemma BatchCount(total: nat, k: nat)
    requires total <= k * BatchSize && (k == 0 || (k - 1) * BatchSize < total)
    ensures k == (total + BatchSize - 1) / BatchSize
  {
    if k > 0 {
      assert (k - 1) * BatchSize + 1 <= total <= k * BatchSize;
      assert k * BatchSize <= total + BatchSize - 1 < (k + 1) * BatchSize;
    }
  }
}

=== FILE: text.dfy ===
/** The Python `str` operations the service relies on: whitespace stripping,
    splitting on a separator, joining, zero-padded integer formatting,
    left alignment, character replacement, code-point comparison and
    decimal integer parsing. */
module Text {
  import opened Wrappers

  /** Characters Python's `str.strip()` and `str.split()` treat as whitespace. */
  predicate IsSpace(c: char) {
    || ('\t' <= c <= '\r')
    || ('\U{001C}' <= c <= ' ')
    || c == '\U{0085}' || c == '\U{00A0}' || c == '\U{1680}'
    || ('\U{2000}' <= c <= '\U{200A}')
    || c == '\U{2028}' || c == '\U{2029}' || c == '\U{202F}' || c == '\U{205F}' || c == '\U{3000}'
  }

  predicate AllSpace(s: string) {
    forall i :: 0 <= i < |s| ==> IsSpace(s[i])
  }

  /** `s.lstrip()`: the suffix of `s` left after dropping leading whitespace. */
  function LStrip(s: string): (r: string)
    ensures |r| <= |s| && r == s[|s| - |r|..]
    ensures AllSpace(s[..|s| - |r|])
    ensures |r| > 0 ==> !IsSpace(r[0])
  {
    if |s| > 0 && IsSpace(s[0]) then LStrip(s[1..]) else s
  }

  /** `s.rstrip()`: the prefix of `s` left after dropping trailing whitespace. */
  function RStrip(s: string): (r: string)
    ensures |r| <= |s| && r == s[..|r|]
    ensures AllSpace(s[|r|..])
    ensures |r| > 0 ==> !IsSpace(r[|r| - 1])
  {
    if |s| > 0 && IsSpace(s[|s| - 1]) then RStrip(s[..|s| - 1]) else s
  }

  /** `s.strip()`. */
  function Strip(s: string): (r: string)
    ensures |r| <= |s|
    ensures |r| > 0 ==> !IsSpace(r[0]) && !IsSpace(r[|r| - 1])
    ensures r == "" <==> AllSpace(s)
  {
    var l := LStrip(s);
    var r := RStrip(l);
    assert r == "" ==> AllSpace(s) by {
      if r == "" {
        assert l[|r|..] == l;
        assert |l| == 0;
        assert s[..|s|] == s;
      }
    }
    r
  }

  /** Text with no whitespace at either end is its own strip. */
  lemma StripUnchanged(s: string)
    requires |s| > 0 && !IsSpace(s[0]) && !IsSpace(s[|s| - 1])
    ensures Strip(s) == s
  {
    assert LStrip(s) == s;
    assert RStrip(s) == s;
  }

  /** Stripping only removes characters. */
  lemma StripChars(s: string)
    ensures forall k :: 0 <= k < |Strip(s)| ==> Strip(s)[k] in s
  {
    var l := LStrip(s);
    var r := RStrip(l);
    assert Strip(s) == r;
    forall k | 0 <= k < |r| ensures r[k] in s {
      assert r[k] == l[k];
      assert l[k] == s[|s| - |l| + k];
    }
  }

  /** One space on each side of such a text is stripped away. */
  lemma StripPadded(s: string)
    requires |s| > 0 && !IsSpace(s[0]) && !IsSpace(s[|s| - 1])
    ensures Strip(" " + s + " ") == s
  {
    var p := " " + s + " ";
    assert p[1..] == s + " ";
    assert LStrip(p) == LStrip(s + " ");
    assert LStrip(s + " ") == s + " ";
    assert (s + " ")[..|s|] == s;
    assert RStrip(s + " ") == RStrip(s);
    assert LStrip(s) == s;
    assert RStrip(s) == s;
  }

  /** Number of occurrences of `c` in `s`. */
  function Count(s: string, c: char): nat {
    if |s| == 0 then 0 else (if s[0] == c then 1 else 0) + Count(s[1..], c)
  }

  /** `s.split(sep)` for a one-character separator: the maximal pieces between
      separators, always at least one. */
  function Split(s: string, sep: char): (r: seq<string>)
    ensures |r| == Count(s, sep) + 1
    ensures forall i :: 0 <= i < |r| ==> sep !in r[i]
  {
    if |s| == 0 then [""]
    else
      var rest := Split(s[1..], sep);
      if s[0] == sep then [""] + rest
      else [[s[0]] + rest[0]] + rest[1..]
  }

  /** `sep.join(parts)`. */
  function Join(parts: seq<string>, sep: string): string {
    if |parts| == 0 then ""
    else if |parts| == 1 then parts[0]
    else parts[0] + sep + Join(parts[1..], sep)
  }

  lemma JoinTwo(x: string, y: string, sep: string)
    ensures Join([x, y], sep) == x + sep + y
  {
    assert [x, y][1..] == [y];
  }

  /** Joining one more part appends the separator and the part. */
  lemma {:induction false} JoinSnoc(parts: seq<string>, x: string, sep: string)
    requires |parts| > 0
    ensures Join(parts + [x], sep) == Join(parts, sep) + sep + x
  {
    if |parts| == 1 {
      JoinTwo(parts[0], x, sep);
      assert parts + [x] == [parts[0], x];
    } else {
      assert (parts + [x])[1..] == parts[1..] + [x];
      JoinSnoc(parts[1..], x, sep);
    }
  }

  /** Splitting and joining back with the same separator restores the text. */
  lemma {:induction false} JoinSplit(s: string, sep: char)
    ensures Join(Split(s, sep), [sep]) == s
  {
    if |s| == 0 {
    } else {
      var rest := Split(s[1..], sep);
      JoinSplit(s[1..], sep);
      if s[0] == sep {
        assert Split(s, sep) == [""] + rest;
        assert Join(Split(s, sep), [sep]) == "" + [sep] + Join(rest, [sep]);
      } else {
        var ps := [[s[0]] + rest[0]] + rest[1..];
        assert Split(s, sep) == ps;
        if |rest| == 1 {
          assert Join(ps, [sep]) == [s[0]] + rest[0];
          assert Join(rest, [sep]) == rest[0];
        } else {
          assert ps[1..] == rest[1..];
          assert Join(ps, [sep]) == [s[0]] + rest[0] + [sep] + Join(rest[1..], [sep]);
          assert Join(rest, [sep]) == rest[0] + [sep] + Join(rest[1..], [sep]);
        }
      }
    }
  }

  /** Joining pieces that do not contain the separator and splitting again
      gives the pieces back. */
  lemma {:induction false} SplitJoin(parts: seq<string>, sep: char)
    requires |parts| > 0
    requires forall i :: 0 <= i < |parts| ==> sep !in parts[i]
    ensures Split(Join(parts, [sep]), sep) == parts
    decreases |parts|, |parts[0]|
  {
    var p := parts[0];
    if |parts| == 1 {
      SplitNoSep(p, sep);
    } else if |p| == 0 {
      var j := Join(parts[1..], [sep]);
      assert Join(parts, [sep]) == [sep] + j;
      assert ([sep] + j)[1..] == j;
      SplitJoin(parts[1..], sep);
      assert [""] + parts[1..] == parts;
    } else {
      var parts' := [p[1..]] + parts[1..];
      NotInTail(p, sep);
      assert forall i :: 0 <= i < |parts'| ==> sep !in parts'[i] by {
        forall i | 0 <= i < |parts'| ensures sep !in parts'[i] {
          if i > 0 {
            assert parts'[i] == parts[i];
          }
        }
      }
      SplitJoin(parts', sep);
      var j := Join(parts, [sep]);
      var j' := Join(parts', [sep]);
      assert parts'[1..] == parts[1..];
      assert j == [p[0]] + j' by {
        assert j == p + [sep] + Join(parts[1..], [sep]);
        assert j' == p[1..] + [sep] + Join(parts[1..], [sep]);
        assert p == [p[0]] + p[1..];
      }
      assert j[0] == p[0] && j[1..] == j';
      assert p[0] != sep by { assert p[0] in p; }
      var rest := Split(j', sep);
      assert rest == parts';
      assert Split(j, sep) == [[p[0]] + rest[0]] + rest[1..];
      assert [p[0]] + p[1..] == p;
      assert [[p[0]] + rest[0]] + rest[1..] == parts;
    }
  }

  /** Splitting at a separator between two texts splits each of them. */
  lemma {:induction false} SplitAtSep(x: string, y: string, sep: char)
    ensures Split(x + [sep] + y, sep) == Split(x, sep) + Split(y, sep)
  {
    if |x| == 0 {
      assert x + [sep] + y == [sep] + y;
      SplitConsSep(y, sep);
    } else {
      var u := x[1..] + [sep] + y;
      assert x + [sep] + y == [x[0]] + u;
      assert x == [x[0]] + x[1..];
      SplitAtSep(x[1..], y, sep);
      if x[0] != sep {
        SplitConsOther(x[0], u, sep);
        SplitConsOther(x[0], x[1..], sep);
        ExtendFirst([x[0]], Split(x[1..], sep), Split(y, sep));
      } else {
        SplitConsSep(u, sep);
        SplitConsSep(x[1..], sep);
      }
    }
  }

  /** Prefixing the first piece of a list commutes with appending pieces. */
  lemma ExtendFirst(c: string, a: seq<string>, b: seq<string>)
    requires |a| > 0
    ensures [c + (a + b)[0]] + (a + b)[1..] == ([c + a[0]] + a[1..]) + b
  {
    assert (a + b)[0] == a[0];
    assert (a + b)[1..] == a[1..] + b;
  }

  lemma SplitConsSep(u: string, sep: char)
    ensures Split([sep] + u, sep) == [""] + Split(u, sep)
  {
    assert ([sep] + u)[1..] == u;
  }

  lemma SplitConsOther(c: char, u: string, sep: char)
    requires c != sep
    ensures Split([c] + u, sep) == [[c] + Split(u, sep)[0]] + Split(u, sep)[1..]
  {
    assert ([c] + u)[1..] == u;
  }

  /** Fields that hold no separator come back last, in order, when the
      text they end is split. */
  lemma SplitLastFour(head: string, t1: string, t2: string, t3: string, t4: string, sep: char)
    requires sep !in t1 && sep !in t2 && sep !in t3 && sep !in t4
    ensures var p := Split(head + [sep] + t1 + [sep] + t2 + [sep] + t3 + [sep] + t4, sep);
      |p| >= 4 && p[|p| - 4..] == [t1, t2, t3, t4]
  {
    SplitAtSep(head, t1, sep);
    SplitAtSep(head + [sep] + t1, t2, sep);
    SplitAtSep(head + [sep] + t1 + [sep] + t2, t3, sep);
    SplitAtSep(head + [sep] + t1 + [sep] + t2 + [sep] + t3, t4, sep);
    SplitNoSep(t1, sep);
    SplitNoSep(t2, sep);
    SplitNoSep(t3, sep);
    SplitNoSep(t4, sep);
  }

  /** A text without the separator splits into itself alone. */
  lemma {:induction false} SplitNoSep(s: string, sep: char)
    requires sep !in s
    ensures Split(s, sep) == [s]
  {
    if |s| > 0 {
      NotInTail(s, sep);
      SplitNoSep(s[1..], sep);
      assert s[0] != sep by { assert s[0] in s; }
      assert [s[0]] + s[1..] == s;
    }
  }

  lemma NotInTail(s: string, c: char)
    requires |s| > 0 && c !in s
    ensures c !in s[1..]
  {
    assert forall k | 0 <= k < |s| - 1 :: s[1..][k] == s[k + 1];
  }

  /** The character of a decimal digit. */
  function DigitChar(d: nat): char
    requires d < 10
  {
    ['0', '1', '2', '3', '4', '5', '6', '7', '8', '9'][d]
  }

  predicate IsDigit(c: char) {
    '0' <= c <= '9'
  }

  predicate AllDigits(s: string) {
    forall i :: 0 <= i < |s| ==> IsDigit(s[i])
  }

  function DigitValue(c: char): nat
    requires IsDigit(c)
  {
    (c as int - '0' as int) as nat
  }

  /** `str(n)` for a non-negative integer: its decimal digits without leading zeros. */
  function Digits(n: nat): (r: string)
    ensures |r| >= 1 && AllDigits(r)
    ensures |r| > 1 ==> r[0] != '0'
  {
    if n < 10 then [DigitChar(n)] else Digits(n / 10) + [DigitChar(n % 10)]
  }

  /** The value of a non-empty string of decimal digits (leading zeros allowed). */
  function DigitsValue(s: string): nat
    requires AllDigits(s)
  {
    if |s| == 0 then 0 else DigitsValue(s[..|s| - 1]) * 10 + DigitValue(s[|s| - 1])
  }

  /** Reading back the digits of `n` gives `n`. */
  lemma {:induction false} DigitsRoundTrip(n: nat)
    ensures DigitsValue(Digits(n)) == n
  {
    if n >= 10 {
      DigitsRoundTrip(n / 10);
      var d := Digits(n);
      assert d[..|d| - 1] == Digits(n / 10);
    }
  }

  /** Leading zeros do not change a digit string's value. */
  lemma {:induction false} LeadingZerosValue(k: nat, s: string)
    requires AllDigits(s)
    ensures AllDigits(Zeros(k) + s)
    ensures DigitsValue(Zeros(k) + s) == DigitsValue(s)
    decreases |s|
  {
    var z := Zeros(k) + s;
    assert AllDigits(z) by {
      forall i | 0 <= i < |z| ensures IsDigit(z[i]) {
        if i < k { assert z[i] == '0'; } else { assert z[i] == s[i - k]; }
      }
    }
    if |s| == 0 {
      ZerosValue(k);
      assert z == Zeros(k);
    } else {
      LeadingZerosValue(k, s[..|s| - 1]);
      assert z[..|z| - 1] == Zeros(k) + s[..|s| - 1];
    }
  }

  lemma {:induction false} ZerosValue(k: nat)
    ensures AllDigits(Zeros(k)) && DigitsValue(Zeros(k)) == 0
  {
    if k > 0 {
      ZerosValue(k - 1);
      assert Zeros(k)[..k - 1] == Zeros(k - 1);
    }
  }

  /** `c * k` in Python: the character `c` repeated `k` times. */
  function Repeat(c: char, k: nat): (r: string)
    ensures |r| == k && forall i :: 0 <= i < k ==> r[i] == c
  {
    seq(k, _ => c)
  }

  function Zeros(k: nat): string {
    Repeat('0', k)
  }

  function Spaces(k: nat): string {
    Repeat(' ', k)
  }

  /** Python's `f"{n:0{width}d}"`: the decimal text of `n`, zero-filled on the
      left to `width` characters, the minus sign counting toward the width. */
  function ZeroPad(n: int, width: nat): (r: string)
    ensures n >= 0 ==> AllDigits(r) && DigitsValue(r) == n
    ensures n >= 0 ==> |r| == if |Digits(n)| < width then width else |Digits(n)|
    ensures n < 0 ==> |r| > 1 && r[0] == '-' && AllDigits(r[1..]) && DigitsValue(r[1..]) == -n
    ensures forall i :: 0 <= i < |r| ==> IsDigit(r[i]) || r[i] == '-'
  {
    var mag := if n < 0 then -n else n;
    var w := if n < 0 && width > 0 then width - 1 else width;
    var d := Digits(mag);
    var body := if |d| < w then Zeros(w - |d|) + d else d;
    DigitsRoundTrip(mag);
    LeadingZerosValue(if |d| < w then w - |d| else 0, d);
    assert body == Zeros(if |d| < w then w - |d| else 0) + d;
    if n < 0 then
      var r := "-" + body;
      assert r[1..] == body;
      r
    else body
  }

  /** Python's `f"{s:<width}"`: `s` followed by spaces up to `width` characters. */
  function LeftAlign(s: string, width: nat): (r: string)
    ensures |r| == if |s| < width then width else |s|
    ensures r[..|s|] == s
    ensures forall i :: |s| <= i < |r| ==> r[i] == ' '
  {
    if |s| < width then s + Spaces(width - |s|) else s
  }

  /** `s.replace(a, b)` for single characters. */
  function ReplaceChar(s: string, a: char, b: char): (r: string)
    ensures |r| == |s|
    ensures forall i :: 0 <= i < |s| ==> r[i] == if s[i] == a then b else s[i]
  {
    seq(|s|, i requires 0 <= i < |s| => if s[i] == a then b else s[i])
  }

  /** `p` is a prefix of `s`. */
  predicate StartsWith(s: string, p: string) {
    |p| <= |s| && s[..|p|] == p
  }

  /** `p` is a suffix of `s`. */
  predicate EndsWith(s: string, p: string) {
    |p| <= |s| && s[|s| - |p|..] == p
  }

  /** A string led by `c` is all whitespace when `c` and the rest are. */
  lemma AllSpaceCons(c: char, rest: string)
    ensures AllSpace([c] + rest) <==> IsSpace(c) && AllSpace(rest)
  {
    var s := [c] + rest;
    assert s[0] == c;
    assert forall i :: 0 <= i < |rest| ==> s[i + 1] == rest[i];
  }

  /** Replacing a character that does not occur changes nothing. */
  lemma ReplaceAbsent(s: string, a: char, b: char)
    requires forall i :: 0 <= i < |s| ==> s[i] != a
    ensures ReplaceChar(s, a, b) == s
  {
  }

  /** Python's `a < b` on strings: code-point lexicographic order. */
  predicate LexLess(a: string, b: string) {
    if |a| == 0 then |b| > 0
    else if |b| == 0 then false
    else if a[0] != b[0] then a[0] < b[0]
    else LexLess(a[1..], b[1..])
  }

  /** On equal-length prefixes the comparison is decided by the prefixes,
      and by the rest when the prefixes agree. */
  lemma {:induction false} LexLessConcat(a1: string, b1: string, a2: string, b2: string)
    requires |a1| == |a2|
    ensures LexLess(a1 + b1, a2 + b2) <==> LexLess(a1, a2) || (a1 == a2 && LexLess(b1, b2))
    decreases |a1|
  {
    if |a1| > 0 {
      assert (a1 + b1)[0] == a1[0] && (a2 + b2)[0] == a2[0];
      assert (a1 + b1)[1..] == a1[1..] + b1;
      assert (a2 + b2)[1..] == a2[1..] + b2;
      LexLessConcat(a1[1..], b1, a2[1..], b2);
      if a1[0] == a2[0] {
        assert a1 == a2 <==> a1[1..] == a2[1..] by {
          if a1[1..] == a2[1..] {
            assert a1 == [a1[0]] + a1[1..] && a2 == [a2[0]] + a2[1..];
          }
        }
      }
    } else {
      assert a1 + b1 == b1 && a2 + b2 == b2;
    }
  }

  /** The texts `f` gives the items, concatenated in order. */
  function ConcatMap<T>(xs: seq<T>, f: T -> string): string {
    if |xs| == 0 then "" else f(xs[0]) + ConcatMap(xs[1..], f)
  }

  /** A text made of a heading and one piece per item starts with the
      heading, and one more item adds its piece at the end. */
  lemma HeadedConcatMap<T>(h: string, xs: seq<T>, f: T -> string)
    ensures StartsWith(h + ConcatMap(xs, f), h)
    ensures |xs| == 0 ==> h + ConcatMap(xs, f) == h
    ensures |xs| > 0 ==> h + ConcatMap(xs, f) == h + ConcatMap(xs[..|xs| - 1], f) + f(xs[|xs| - 1])
  {
    assert (h + ConcatMap(xs, f))[..|h|] == h;
    if |xs| > 0 {
      ConcatMapSnoc(xs, f);
    }
  }

  /** Concatenation distributes over appending item lists. */
  lemma {:induction false} ConcatMapAppend<T>(a: seq<T>, b: seq<T>, f: T -> string)
    ensures ConcatMap(a + b, f) == ConcatMap(a, f) + ConcatMap(b, f)
  {
    if |a| > 0 {
      assert (a + b)[1..] == a[1..] + b;
      ConcatMapAppend(a[1..], b, f);
    } else {
      assert a + b == b;
    }
  }

  /** The text of a non-empty list is that of all but its last item,
      followed by the last item's text. */
  lemma ConcatMapSnoc<T>(xs: seq<T>, f: T -> string)
    requires |xs| > 0
    ensures ConcatMap(xs, f) == ConcatMap(xs[..|xs| - 1], f) + f(xs[|xs| - 1])
  {
    var init := xs[..|xs| - 1];
    assert xs == init + [xs[|xs| - 1]];
    ConcatMapAppend(init, [xs[|xs| - 1]], f);
    assert ConcatMap([xs[|xs| - 1]], f) == f(xs[|xs| - 1]) + ConcatMap([xs[|xs| - 1]][1..], f);
  }

  predicate IsAsciiAlnum(c: char) {
    ('a' <= c <= 'z') || ('A' <= c <= 'Z') || ('0' <= c <= '9')
  }

  /** `int(s)` for a decimal integer literal: surrounding whitespace, an
      optional sign and at least one digit; anything else raises ValueError. */
  function ParseInt(s: string): Result<int> {
    match ParseSigned(Strip(s))
    case Some(n) => Success(n)
    case None => Failure("invalid literal for int() with base 10: '" + s + "'")
  }

  function ParseSigned(t: string): Option<int> {
    if |t| > 1 && (t[0] == '-' || t[0] == '+') && AllDigits(t[1..]) then
      Some(if t[0] == '-' then -(DigitsValue(t[1..]) as int) else DigitsValue(t[1..]))
    else if |t| > 0 && AllDigits(t) then
      Some(DigitsValue(t))
    else
      None
  }

  /** Parsing the text of a non-negative integer gives the integer back. */
  lemma ParseIntDigits(n: nat)
    ensures ParseInt(Digits(n)) == Success(n)
  {
    var d := Digits(n);
    StripDigits(d);
    DigitsRoundTrip(n);
    ParseSignedDigits(d);
  }

  lemma ParseSignedDigits(d: string)
    requires |d| > 0 && AllDigits(d)
    ensures ParseSigned(d) == Some(DigitsValue(d))
  {
    assert IsDigit(d[0]);
  }

  lemma StripDigits(s: string)
    requires |s| > 0 && AllDigits(s)
    ensures Strip(s) == s
  {
    assert !IsSpace(s[0]) by { assert IsDigit(s[0]); }
    assert LStrip(s) == s;
    assert !IsSpace(s[|s| - 1]) by { assert IsDigit(s[|s| - 1]); }
  }
}

/** The parts of `pathlib.PurePosixPath` the service uses: `name`, `stem`
    and `suffix`. */
module Paths {
  import opened Text

  /** The last non-empty `/`-separated component (empty for the root or ""). */
  function Name(path: string): (r: string)
    ensures '/' !in r
  {
    var parts := Split(path, '/');
    LastNonEmpty(parts)
  }

  function LastNonEmpty(parts: seq<string>): (r: string)
    requires forall i :: 0 <= i < |parts| ==> '/' !in parts[i]
    ensures '/' !in r
    ensures r == "" || r in parts
  {
    if |parts| == 0 then ""
    else if parts[|parts| - 1] != "" then parts[|parts| - 1]
    else LastNonEmpty(parts[..|parts| - 1])
  }

  /** Index of the last `.` in `name`, or -1. */
  function LastDot(name: string): (i: int)
    ensures -1 <= i < |name|
    ensures i >= 0 ==> name[i] == '.'
    ensures forall k :: i < k < |name| ==> name[k] != '.'
  {
    if |name| == 0 then -1
    else if name[|name| - 1] == '.' then |name| - 1
    else LastDot(name[..|name| - 1])
  }

  /** `suffix`: from the last dot, unless that dot is the first or last character. */
  function Suffix(name: string): (r: string)
    ensures r == "" || (r[0] == '.' && '.' !in r[1..])
  {
    var i := LastDot(name);
    if 0 < i < |name| - 1 then
      NoDotAfter(name, i);
      name[i..]
    else ""
  }

  lemma NoDotAfter(name: string, i: nat)
    requires i < |name| && name[i] == '.'
    requires forall k :: i < k < |name| ==> name[k] != '.'
    ensures var r := name[i..]; r[0] == '.' && '.' !in r[1..]
  {
    var r := name[i..];
    var rest := name[i + 1..];
    assert r[1..] == rest;
    forall k | 0 <= k < |rest| ensures rest[k] != '.' {
      assert rest[k] == name[i + 1 + k];
    }
  }

  /** `stem`: the name without its suffix. */
  function Stem(name: string): (r: string)
    ensures r + Suffix(name) == name
  {
    var i := LastDot(name);
    if 0 < i < |name| - 1 then name[..i] else name
  }
}

=== FILE: timecode.dfy ===
/** Seconds-to-text conversions of the artifact generator
    (app/services/artifact_generator.py): SRT and WebVTT timestamps, the two
    SMPTE timecode variants, the FCPXML frame duration, Python's `round` and
    fixed-point number formatting. Seconds are reals; Python's float
    floor-division and modulo are written out with their floor semantics. */
module Timecode {
  import opened Wrappers
  import opened Text

  /** Frame rate of the events/insights EDL timecodes (module constant `FPS`). */
  const EdlFps: int := 25
  /** Default frame rate of the selects EDL timecodes. */
  const SelectsFps: int := 30

  /** Python `int(x)` on a float: truncation toward zero. */
  function Trunc(x: real): (r: int)
    ensures x >= 0.0 ==> r == x.Floor
    ensures x < 0.0 ==> r == -((-x).Floor)
  {
    if x >= 0.0 then x.Floor else -((-x).Floor)
  }

  /** Python float `x // m` for a positive integer modulus, as an integer. */
  function FloorDiv(x: real, m: int): int
    requires m > 0
  {
    (x / m as real).Floor
  }

  /** Python float `x % m` for a positive integer modulus. */
  function Mod(x: real, m: int): real
    requires m > 0
  {
    x - (FloorDiv(x, m) * m) as real
  }

  /** Dividing by one of the clock moduli and flooring is the integer
      division of the floor. */
  lemma FloorDivIsDivOfFloor(x: real, m: int)
    requires m == 1 || m == 60 || m == 3600
    ensures FloorDiv(x, m) == x.Floor / m
    ensures Mod(x, m) == (x.Floor % m) as real + (x - x.Floor as real)
  {
    var n := x.Floor;
    var q := n / m;
    assert (q * m) as real <= x < (q * m + m) as real;
    if m == 1 {
      assert x / 1.0 == x;
    } else if m == 60 {
      assert q as real <= x / 60.0 < q as real + 1.0;
    } else {
      assert q as real <= x / 3600.0 < q as real + 1.0;
    }
  }

  /** The facts behind the subtitle clock fields. */
  lemma SubtitleClockFields(s: real)
    ensures var m := (Mod(s, 3600) / 60.0).Floor;
      && 0 <= m < 60 && 0 <= Mod(s, 60).Floor < 60
      && FloorDiv(s, 3600) * 3600 + m * 60 + Mod(s, 60).Floor == s.Floor
      && Mod(s, 1) == s - s.Floor as real
  {
    var n := s.Floor;
    var f := s - n as real;
    var r := n % 3600;
    FloorDivIsDivOfFloor(s, 3600);
    FloorDivIsDivOfFloor(s, 60);
    FloorDivIsDivOfFloor(s, 1);
    var m3600 := Mod(s, 3600);
    FloorOfIntPlusFrac(r, f);
    FloorDivIsDivOfFloor(m3600, 60);
    assert (m3600 / 60.0).Floor == r / 60;
    FloorOfIntPlusFrac(n % 60, f);
    DecomposeSeconds(n);
  }

  lemma FloorOfIntPlusFrac(r: int, f: real)
    requires 0.0 <= f < 1.0
    ensures (r as real + f).Floor == r
  {
  }

  lemma DecomposeSeconds(n: int)
    ensures n == (n / 3600) * 3600 + ((n % 3600) / 60) * 60 + n % 60
    ensures 0 <= (n % 3600) / 60 < 60 && 0 <= n % 60 < 60
  {
    var q := n / 3600;
    var r := n % 3600;
    var t := r / 60;
    var u := r % 60;
    assert n == q * 3600 + r;
    assert r == t * 60 + u;
    assert n == (q * 60 + t) * 60 + u;
    DivModUnique(n, 60, q * 60 + t, u);
  }

  /** The four fields of a clock reading: hours, minutes, seconds, and a
      sub-second part (milliseconds or frames). */
  datatype Clock = Clock(hours: int, minutes: int, seconds: int, sub: int)

  /** The fields `_format_srt_time` and `_format_vtt_time` compute: whole
      hours, minutes and seconds of the floor of `s`, and the truncated
      milliseconds of its fractional part. */
  function SubtitleClock(s: real): (c: Clock)
    ensures 0 <= c.minutes < 60 && 0 <= c.seconds < 60 && 0 <= c.sub < 1000
    ensures c.hours * 3600 + c.minutes * 60 + c.seconds == s.Floor
    ensures c.sub == ((s - s.Floor as real) * 1000.0).Floor
  {
    SubtitleClockFields(s);
    Clock(FloorDiv(s, 3600), (Mod(s, 3600) / 60.0).Floor, Mod(s, 60).Floor, (Mod(s, 1) * 1000.0).Floor)
  }

  /** `HH:MM:SS` followed by `sep` and the zero-padded sub-second field. */
  function ClockText(c: Clock, sep: char, subWidth: nat): string {
    ZeroPad(c.hours, 2) + ":" + ZeroPad(c.minutes, 2) + ":" + ZeroPad(c.seconds, 2)
    + [sep] + ZeroPad(c.sub, subWidth)
  }

  /** `_format_srt_time`: `HH:MM:SS,mmm`. */
  function SrtTime(s: real): string {
    ClockText(SubtitleClock(s), ',', 3)
  }

  /** `_format_vtt_time`: `HH:MM:SS.mmm`. */
  function VttTime(s: real): string {
    ClockText(SubtitleClock(s), '.', 3)
  }

  /** The WebVTT timestamp is the SRT timestamp with its comma replaced by a dot. */
  lemma VttIsSrtWithDot(s: real)
    ensures VttTime(s) == ReplaceChar(SrtTime(s), ',', '.')
  {
    var c := SubtitleClock(s);
    var srt := SrtTime(s);
    var vtt := VttTime(s);
    var h := ZeroPad(c.hours, 2);
    var m := ZeroPad(c.minutes, 2);
    var sc := ZeroPad(c.seconds, 2);
    var ms := ZeroPad(c.sub, 3);
    var k := |h| + 1 + |m| + 1 + |sc|;
    assert srt == h + ":" + m + ":" + sc + "," + ms;
    assert vtt == h + ":" + m + ":" + sc + "." + ms;
    forall i | 0 <= i < |srt|
      ensures vtt[i] == (if srt[i] == ',' then '.' else srt[i])
    {
      if i < |h| {
        assert srt[i] == h[i] && vtt[i] == h[i];
      } else if i == |h| {
      } else if i < |h| + 1 + |m| {
        assert srt[i] == m[i - |h| - 1] && vtt[i] == m[i - |h| - 1];
      } else if i == |h| + 1 + |m| {
      } else if i < k {
        assert srt[i] == sc[i - |h| - 2 - |m|] && vtt[i] == sc[i - |h| - 2 - |m|];
      } else if i == k {
      } else {
        assert srt[i] == ms[i - k - 1] && vtt[i] == ms[i - k - 1];
      }
    }
  }

  /** The SRT timestamp of 3661.25 seconds. */
  lemma SrtTimeExample()
    ensures SrtTime(3661.25) == "01:01:01,250"
    ensures VttTime(3661.25) == "01:01:01.250"
  {
    var c := SubtitleClock(3661.25);
    assert 3661.25.Floor == 3661;
    assert c == Clock(1, 1, 1, 250);
    assert ZeroPad(1, 2) == "01";
    assert ZeroPad(250, 3) == "250" by {
      assert Digits(250) == Digits(25) + "0";
      assert Digits(25) == "25";
    }
  }

  /** The fields `seconds_to_timecode` computes: whole seconds are `int()` of
      the input (truncation), split into hours, minutes and seconds with
      integer floor division, and the frame count is the truncated product of
      the remaining fraction and the frame rate. */
  function SmpteClock(seconds: real, fps: int): (c: Clock)
    ensures 0 <= c.minutes < 60 && 0 <= c.seconds < 60
    ensures c.hours * 3600 + c.minutes * 60 + c.seconds == Trunc(seconds)
    ensures seconds >= 0.0 ==> c.hours * 3600 + c.minutes * 60 + c.seconds == seconds.Floor
    ensures seconds >= 0.0 && fps > 0 ==> 0 <= c.sub < fps
    ensures seconds >= 0.0 && fps >= 0 ==> c.sub == ((seconds - seconds.Floor as real) * fps as real).Floor
  {
    var total := Trunc(seconds);
    var frac := seconds - total as real;
    DecomposeSeconds(total);
    FrameBound(frac, fps);
    NonNegProduct(frac, fps);
    Clock(total / 3600, (total % 3600) / 60, total % 60, Trunc(frac * fps as real))
  }

  /** A fraction of a second times a positive frame rate stays below the rate. */
  lemma FrameBound(frac: real, fps: int)
    ensures 0.0 <= frac < 1.0 && fps > 0 ==> 0 <= (frac * fps as real).Floor < fps
  {
    if 0.0 <= frac < 1.0 && fps > 0 {
      assert frac * fps as real < 1.0 * fps as real;
    }
  }

  lemma NonNegProduct(frac: real, fps: int)
    ensures frac >= 0.0 && fps >= 0 ==> frac * fps as real >= 0.0
  {
  }

  /** `seconds_to_timecode`: `HH:MM:SS:FF`. */
  function SmpteTimecode(seconds: real, fps: int): string {
    ClockText(SmpteClock(seconds, fps), ':', 2)
  }

  /** The fields `_seconds_to_timecode` computes: the same float floor
      division as the subtitle timestamps, and the truncated product of the
      float remainder modulo 1 and the frame rate. */
  function SelectsClock(seconds: real, fps: int): (c: Clock)
    ensures 0 <= c.minutes < 60 && 0 <= c.seconds < 60
    ensures c.hours * 3600 + c.minutes * 60 + c.seconds == seconds.Floor
    ensures fps > 0 ==> 0 <= c.sub < fps
    ensures fps >= 0 ==> c.sub == ((seconds - seconds.Floor as real) * fps as real).Floor
  {
    var sub := SubtitleClock(seconds);
    SelectsFrame(seconds, fps);
    Clock(sub.hours, sub.minutes, sub.seconds, Trunc(Mod(seconds, 1) * fps as real))
  }

  /** The frame field of `_seconds_to_timecode`. */
  lemma SelectsFrame(seconds: real, fps: int)
    ensures fps >= 0 ==> Trunc(Mod(seconds, 1) * fps as real) == ((seconds - seconds.Floor as real) * fps as real).Floor
    ensures fps > 0 ==> 0 <= Trunc(Mod(seconds, 1) * fps as real) < fps
  {
    var frac := Mod(seconds, 1);
    ModOne(seconds);
    var g := seconds - seconds.Floor as real;
    assert frac * fps as real == g * fps as real;
    FrameField(frac, fps);
  }

  /** The float remainder modulo 1 is the fractional part. */
  lemma ModOne(x: real)
    ensures Mod(x, 1) == x - x.Floor as real
  {
    FloorDivIsDivOfFloor(x, 1);
  }

  /** The frame field of a fraction of a second. */
  lemma FrameField(frac: real, fps: int)
    requires 0.0 <= frac < 1.0
    ensures fps >= 0 ==> Trunc(frac * fps as real) == (frac * fps as real).Floor
    ensures fps > 0 ==> 0 <= Trunc(frac * fps as real) < fps
  {
    FrameBound(frac, fps);
    NonNegProduct(frac, fps);
  }

  /** `_seconds_to_timecode`: `HH:MM:SS:FF`. */
  function SelectsTimecode(seconds: real, fps: int): string {
    ClockText(SelectsClock(seconds, fps), ':', 2)
  }

  /** For non-negative seconds the two timecode functions agree at equal
      frame rates; they differ only in their default rates. */
  lemma TimecodeVariantsAgree(seconds: real, fps: int)
    requires seconds >= 0.0 && fps >= 0
    ensures SmpteTimecode(seconds, fps) == SelectsTimecode(seconds, fps)
  {
    ClocksAgree(seconds, fps);
  }

  lemma ClocksAgree(seconds: real, fps: int)
    requires seconds >= 0.0 && fps >= 0
    ensures SmpteClock(seconds, fps) == SelectsClock(seconds, fps)
  {
    ClockFieldsUnique(SmpteClock(seconds, fps), SelectsClock(seconds, fps));
  }

  /** Hours, minutes below 60 and seconds below 60 are determined by the
      total number of seconds. */
  lemma ClockFieldsUnique(a: Clock, b: Clock)
    requires 0 <= a.minutes < 60 && 0 <= a.seconds < 60
    requires 0 <= b.minutes < 60 && 0 <= b.seconds < 60
    requires a.hours * 3600 + a.minutes * 60 + a.seconds == b.hours * 3600 + b.minutes * 60 + b.seconds
    requires a.sub == b.sub
    ensures a == b
  {
    var n := a.hours * 3600 + a.minutes * 60 + a.seconds;
    DivModUnique(n, 3600, a.hours, a.minutes * 60 + a.seconds);
    DivModUnique(n, 3600, b.hours, b.minutes * 60 + b.seconds);
    DivModUnique(n % 3600, 60, a.minutes, a.seconds);
    DivModUnique(n % 3600, 60, b.minutes, b.seconds);
  }

  /** Euclidean division by a clock modulus has a unique quotient and
      remainder. */
  lemma DivModUnique(n: int, m: int, q: int, u: int)
    requires m == 60 || m == 3600
    requires n == q * m + u && 0 <= u < m
    ensures n / m == q && n % m == u
  {
    if m == 60 {
      assert n == q * 60 + u;
    } else {
      assert n == q * 3600 + u;
    }
  }

  /** Concrete timecode: 5 seconds at 25 fps. */
  lemma SmpteExample()
    ensures SmpteTimecode(5.0, EdlFps) == "00:00:05:00"
  {
    assert SmpteClock(5.0, 25) == Clock(0, 0, 5, 0);
  }

  /** The message of the `ValueError` raised when a split into `n` parts is
      unpacked into two names. */
  function UnpackError(n: nat): string {
    if n < 2 then "not enough values to unpack (expected 2, got " + Digits(n) + ")"
    else "too many values to unpack (expected 2)"
  }

  /** `_fps_to_frame_duration`: `"num/den"` becomes `"den/nums"`; a string
      without exactly one `/` does not unpack into two parts and raises. */
  function FrameDuration(fps: string): Result<string> {
    var parts := Split(fps, '/');
    if |parts| == 2 then Success(parts[1] + "/" + parts[0] + "s")
    else Failure(UnpackError(|parts|))
  }

  /** A rate written `num/den` yields the reciprocal duration `den/nums`. */
  lemma FrameDurationSwaps(num: string, den: string)
    requires '/' !in num && '/' !in den
    ensures FrameDuration(num + "/" + den) == Success(den + "/" + num + "s")
  {
    SplitJoin([num, den], '/');
    assert Join([num, den], ['/']) == num + "/" + den;
  }

  /** A rate that does not contain exactly one `/` is rejected. */
  lemma FrameDurationNeedsOneSlash(fps: string)
    requires Count(fps, '/') != 1
    ensures FrameDuration(fps).Failure?
  {
  }

  /** Python 3 `round(x)`: the nearest integer, ties to the even one. */
  function RoundHalfEven(x: real): (r: int)
    ensures x - 0.5 <= r as real <= x + 0.5
    ensures (r as real - x == 0.5 || x - r as real == 0.5) ==> r % 2 == 0
  {
    var f := x.Floor;
    var d := x - f as real;
    if d < 0.5 then f
    else if d > 0.5 then f + 1
    else if f % 2 == 0 then f else f + 1
  }

  /** Round-half-even is the only integer within a half of `x` that breaks
      ties toward even. */
  lemma RoundHalfEvenUnique(x: real, r: int)
    requires x - 0.5 <= r as real <= x + 0.5
    requires (r as real - x == 0.5 || x - r as real == 0.5) ==> r % 2 == 0
    ensures r == RoundHalfEven(x)
  {
  }

  function Pow10(p: nat): (r: nat)
    ensures r >= 1
  {
    if p == 0 then 1 else 10 * Pow10(p - 1)
  }

  /** The text of a non-negative count `q` of units of `10^-p`: the whole
      part, then for `p > 0` a point and exactly `p` fraction digits. Removing
      the point gives back `q`. */
  function Decimal(q: nat, p: nat): (r: string)
    ensures p == 0 ==> r == Digits(q)
    ensures p > 0 ==> |r| > p + 1 && r[|r| - p - 1] == '.'
    ensures p > 0 ==> AllDigits(r[..|r| - p - 1]) && AllDigits(r[|r| - p..])
    ensures p > 0 ==> DigitsValue(r[..|r| - p - 1]) * Pow10(p) + DigitsValue(r[|r| - p..]) == q
  {
    if p == 0 then
      assert Pow10(0) == 1;
      Digits(q)
    else
      var (w, f) := Units(q, Pow10(p));
      DecimalParts(w, f, p);
      Digits(w) + "." + ZeroPad(f, p)
  }

  /** Whole units and remainder of `q` divided by `n`. */
  function Units(q: nat, n: nat): (r: (nat, nat))
    requires n > 0
    ensures r.0 * n + r.1 == q && r.1 < n
  {
    (q / n, q % n)
  }

  lemma DecimalParts(w: nat, f: nat, p: nat)
    requires p > 0 && f < Pow10(p)
    ensures var r := Digits(w) + "." + ZeroPad(f, p);
      && |r| > p + 1 && r[|r| - p - 1] == '.'
      && r[..|r| - p - 1] == Digits(w) && r[|r| - p..] == ZeroPad(f, p)
      && DigitsValue(Digits(w)) == w && DigitsValue(ZeroPad(f, p)) == f
  {
    DecimalFraction(f, p);
    DigitsRoundTrip(w);
    PointSplit(Digits(w), ZeroPad(f, p));
  }

  lemma PointSplit(whole: string, frac: string)
    ensures var r := whole + "." + frac;
      && r[|whole|] == '.' && r[..|whole|] == whole && r[|whole| + 1..] == frac
  {
  }

  /** A remainder modulo `10^p` pads to exactly `p` digits. */
  lemma DecimalFraction(frac: nat, p: nat)
    requires p > 0 && frac < Pow10(p)
    ensures |ZeroPad(frac, p)| == p
  {
    DigitsLength(frac, p);
  }

  /** `|x|`. */
  function Magnitude(x: real): (m: real)
    ensures m >= 0.0 && (m == x || m == -x)
  {
    if x < 0.0 then -x else x
  }

  /** The magnitude of `x` as a count of units of `10^-p`, rounded half to
      even: the nearest such count, and the even one on a tie. */
  function Scaled(x: real, p: nat): (q: nat)
    ensures Magnitude(x) * Pow10(p) as real - 0.5 <= q as real <= Magnitude(x) * Pow10(p) as real + 0.5
    ensures (q as real - Magnitude(x) * Pow10(p) as real == 0.5 || Magnitude(x) * Pow10(p) as real - q as real == 0.5) ==> q % 2 == 0
  {
    NonNegProduct(Magnitude(x), Pow10(p));
    RoundHalfEven(Magnitude(x) * Pow10(p) as real)
  }

  /** Python's `f"{x:.{p}f}"` on an exact value: a `-` exactly for negative
      inputs, then the decimal text of the magnitude rounded half to even at
      `p` decimals. */
  function Fixed(x: real, p: nat): (r: string)
    ensures |r| > 0 && (r[0] == '-' <==> x < 0.0)
    ensures p > 0 ==> |r| > p + 1 && r[|r| - p - 1] == '.' && AllDigits(r[|r| - p..])
    ensures (if x < 0.0 then r[1..] else r) == Decimal(Scaled(x, p), p)
  {
    var d := Decimal(Scaled(x, p), p);
    assert d[0] != '-' by {
      if p == 0 { assert IsDigit(d[0]); } else { assert d[..|d| - p - 1][0] == d[0]; }
    }
    if x < 0.0 then
      assert ("-" + d)[1..] == d;
      "-" + d
    else d
  }

  /** The digits of a fixed-point text, read with the sign and the point
      removed, give back the rounded count of units of `10^-p`. */
  lemma FixedReadsBack(x: real, p: nat)
    ensures var r := Fixed(x, p);
      var d := if x < 0.0 then r[1..] else r;
      ReadsBackAs(d, p, Scaled(x, p))
  {
    DecimalReadsBack(Scaled(x, p), p);
  }

  /** `d` is the decimal text of `q` units of `10^-p`: digits only when
      `p == 0`, otherwise digits, a point and `p` digits, whose value with
      the point removed is `q`. */
  predicate ReadsBackAs(d: string, p: nat, q: nat) {
    if p == 0 then AllDigits(d) && DigitsValue(d) == q
    else
      && |d| > p + 1 && d[|d| - p - 1] == '.'
      && AllDigits(d[..|d| - p - 1]) && AllDigits(d[|d| - p..])
      && DigitsValue(d[..|d| - p - 1]) * Pow10(p) + DigitsValue(d[|d| - p..]) == q
  }

  lemma DecimalReadsBack(q: nat, p: nat)
    ensures ReadsBackAs(Decimal(q, p), p, q)
  {
    if p == 0 {
      DigitsRoundTrip(q);
    }
  }

  /** Two decimals: `2.5` prints as `2.50`. */
  lemma FixedExample()
    ensures Fixed(2.5, 2) == "2.50"
  {
    assert Pow10(2) == 100;
    assert 2.5 * 100.0 == 250.0;
    assert RoundHalfEven(250.0) == 250;
    assert Units(250, 100) == (2, 50);
    assert Decimal(250, 2) == Digits(2) + "." + ZeroPad(50, 2);
    assert Digits(2) == "2";
    assert ZeroPad(50, 2) == "50" by {
      assert Digits(50) == Digits(5) + "0";
    }
  }

  lemma {:induction false} DigitsLength(n: nat, p: nat)
    requires n < Pow10(p)
    ensures |Digits(n)| <= if p == 0 then 1 else p
  {
    if n >= 10 {
      DigitsLength(n / 10, p - 1);
    }
  }

  /** `_seconds_to_fcpx_time`: `f"{sec:.3f}s"`. */
  function FcpxTime(sec: real): string {
    Fixed(sec, 3) + "s"
  }
}

=== FILE: videosplit.dfy ===
/** The two pure helpers of app/client/video_split_client.py: the window a
    segment is cut with once handles are added, and the name of the file a
    cut is written to. */
module VideoSplit {
  import opened Wrappers
  import opened Text
  import Paths
  import Timecode

  /** The start, end and duration of the cut. */
  datatype Window = Window(start: real, end: real, duration: real)

  /** `calculate_segment_times`: the segment widened by `handle` on both
      sides, clamped to the video. */
  function SegmentTimes(start: real, end: real, handle: real, total: real): (w: Window)
    ensures w.start >= 0.0 && w.start >= start - handle
    ensures w.start == 0.0 || w.start == start - handle
    ensures w.end <= total && w.end <= end + handle
    ensures w.end == total || w.end == end + handle
    ensures w.duration == w.end - w.start
  {
    var s := if 0.0 >= start - handle then 0.0 else start - handle;
    var e := if total <= end + handle then total else end + handle;
    Window(s, e, e - s)
  }

  /** With a non-negative handle and a segment inside the video, the cut
      contains the segment and lies inside the video. */
  lemma WindowContainsSegment(start: real, end: real, handle: real, total: real)
    requires handle >= 0.0 && 0.0 <= start <= end <= total
    ensures var w := SegmentTimes(start, end, handle, total);
      0.0 <= w.start <= start && end <= w.end <= total && w.duration >= end - start
  {
  }

  /** Without handles a segment inside the video is cut exactly. */
  lemma ZeroHandleIsExact(start: real, end: real, total: real)
    requires 0.0 <= start && end <= total
    ensures SegmentTimes(start, end, 0.0, total) == Window(start, end, end - start)
  {
  }

  /** A larger handle never gives a smaller window. */
  lemma HandleWidens(start: real, end: real, h1: real, h2: real, total: real)
    requires h1 <= h2
    ensures var a := SegmentTimes(start, end, h1, total);
      var b := SegmentTimes(start, end, h2, total);
      b.start <= a.start && a.end <= b.end
  {
  }

  /** The characters a label keeps: letters, digits, space, `-` and `_`. */
  predicate Kept(c: char) {
    IsAsciiAlnum(c) || c == ' ' || c == '-' || c == '_'
  }

  /** The characters a sanitised label may hold. */
  predicate Safe(c: char) {
    IsAsciiAlnum(c) || c == '-' || c == '_'
  }

  /** The characters of `s` a label keeps, in order. */
  function KeepChars(s: string): (r: string)
    ensures |r| <= |s|
    ensures forall i :: 0 <= i < |r| ==> Kept(r[i])
  {
    if |s| == 0 then ""
    else (if Kept(s[0]) then [s[0]] else "") + KeepChars(s[1..])
  }

  /** The kept characters come from `s`, and every character of `s` a
      label keeps is among them. */
  lemma {:induction false} KeepCharsMembers(s: string)
    ensures forall i :: 0 <= i < |KeepChars(s)| ==> KeepChars(s)[i] in s
    ensures forall i :: 0 <= i < |s| && Kept(s[i]) ==> s[i] in KeepChars(s)
  {
    if |s| > 0 {
      var rest := KeepChars(s[1..]);
      KeepCharsMembers(s[1..]);
      assert forall i :: 1 <= i < |s| ==> s[i] == s[1..][i - 1];
      assert forall c :: c in s[1..] ==> c in s;
    }
  }

  /** Filtering a concatenation filters each part. */
  lemma {:induction false} KeepCharsAppend(a: string, b: string)
    ensures KeepChars(a + b) == KeepChars(a) + KeepChars(b)
  {
    if |a| == 0 {
      assert a + b == b;
    } else {
      assert (a + b)[1..] == a[1..] + b;
      KeepCharsAppend(a[1..], b);
    }
  }

  /** A safe character is never whitespace. */
  lemma SafeNotSpace(c: char)
    requires Safe(c)
    ensures !IsSpace(c)
  {
  }

  /** The label as it appears in a file name: unsafe characters dropped,
      surrounding spaces stripped, inner spaces turned into `_`. Nothing is
      left exactly when the label has no safe character. */
  function SafeLabel(text: string): (r: string)
    ensures |r| <= |text|
    ensures forall i :: 0 <= i < |r| ==> Safe(r[i])
    ensures r == "" <==> forall i :: 0 <= i < |text| ==> !Safe(text[i])
    ensures forall i :: 0 <= i < |r| ==> r[i] in text || (r[i] == '_' && ' ' in text)
  {
    FromKeptSafe(KeepChars(text));
    SafeLabelEmpty(text);
    SafeLabelFrom(text);
    FromKept(KeepChars(text))
  }

  /** Every character of the label is one of the input's, or `_` standing
      for one of its spaces. */
  lemma SafeLabelFrom(text: string)
    ensures var r := FromKept(KeepChars(text));
      forall i :: 0 <= i < |r| ==> r[i] in text || (r[i] == '_' && ' ' in text)
  {
    var kept := KeepChars(text);
    KeepCharsMembers(text);
    FromKeptFrom(kept);
  }

  /** Stripping the kept characters and turning spaces into `_`. */
  function FromKept(kept: string): string {
    ReplaceChar(Strip(kept), ' ', '_')
  }

  /** Each character after stripping and replacing is one of `kept`, or
      `_` standing for one of its spaces. */
  lemma FromKeptFrom(kept: string)
    ensures forall i :: 0 <= i < |FromKept(kept)| ==>
      FromKept(kept)[i] in kept || (FromKept(kept)[i] == '_' && ' ' in kept)
  {
    var stripped := Strip(kept);
    StripChars(kept);
    var r := FromKept(kept);
    forall i | 0 <= i < |r| ensures r[i] in kept || (r[i] == '_' && ' ' in kept) {
      assert stripped[i] in kept;
    }
  }

  /** Kept characters, stripped, with spaces replaced, are all safe. */
  lemma FromKeptSafe(kept: string)
    requires forall i :: 0 <= i < |kept| ==> Kept(kept[i])
    ensures |FromKept(kept)| <= |kept|
    ensures forall i :: 0 <= i < |FromKept(kept)| ==> Safe(FromKept(kept)[i])
  {
    var stripped := Strip(kept);
    StripChars(kept);
    assert forall i :: 0 <= i < |stripped| ==> Kept(stripped[i]);
  }

  /** Nothing is left exactly when no character is safe: the kept
      characters are then all spaces, and otherwise a safe one survives
      the strip. */
  lemma SafeLabelEmpty(text: string)
    ensures FromKept(KeepChars(text)) == "" <==> forall i :: 0 <= i < |text| ==> !Safe(text[i])
  {
    var kept := KeepChars(text);
    assert |FromKept(kept)| == |Strip(kept)|;
    KeptAllSpace(text);
  }

  /** The kept characters are all spaces exactly when none is safe. */
  lemma {:induction false} KeptAllSpace(text: string)
    ensures AllSpace(KeepChars(text)) <==> forall i :: 0 <= i < |text| ==> !Safe(text[i])
  {
    if |text| > 0 {
      var c := text[0];
      var rest := KeepChars(text[1..]);
      KeptAllSpace(text[1..]);
      assert KeepChars(text) == (if Kept(c) then [c] else "") + rest;
      assert AllSpace(KeepChars(text)) <==> (Kept(c) ==> IsSpace(c)) && AllSpace(rest) by {
        if Kept(c) {
          assert KeepChars(text) == [c] + rest;
          AllSpaceCons(c, rest);
        } else {
          assert KeepChars(text) == rest;
        }
      }
      assert (Kept(c) ==> IsSpace(c)) <==> !Safe(c);
      assert forall i :: 1 <= i < |text| ==> text[i] == text[1..][i - 1];
    }
  }

  lemma {:induction false} KeepCharsAllKept(s: string)
    requires forall i :: 0 <= i < |s| ==> Kept(s[i])
    ensures KeepChars(s) == s
  {
    if |s| > 0 {
      KeepCharsAllKept(s[1..]);
      assert [s[0]] + s[1..] == s;
    }
  }

  /** A character the label does not keep can be removed beforehand
      without changing the result. */
  lemma SafeLabelDropsUnkept(a: string, c: char, b: string)
    requires !Kept(c)
    ensures SafeLabel(a + [c] + b) == SafeLabel(a + b)
  {
    var x := a + [c] + b;
    KeepCharsAppend(a + [c], b);
    KeepCharsAppend(a, [c]);
    KeepCharsAppend(a, b);
    assert KeepChars([c]) == "" by {
      assert [c][1..] == "";
    }
    assert KeepChars(x) == KeepChars(a + b);
    assert SafeLabel(x) == FromKept(KeepChars(x));
    assert SafeLabel(a + b) == FromKept(KeepChars(a + b));
  }

  /** Two safe words around one space become one name part joined by `_`. */
  lemma SafeLabelJoinsWords(a: string, b: string)
    requires |a| > 0 && |b| > 0
    requires forall i :: 0 <= i < |a| ==> Safe(a[i])
    requires forall i :: 0 <= i < |b| ==> Safe(b[i])
    ensures SafeLabel(a + " " + b) == a + "_" + b
  {
    var t := a + " " + b;
    WordsKept(a, b);
    KeepCharsAllKept(t);
    assert SafeLabel(t) == FromKept(KeepChars(t));
    WordsStripped(a, b);
    assert FromKept(t) == ReplaceChar(t, ' ', '_');
    WordsReplaced(a, b);
  }

  lemma WordsKept(a: string, b: string)
    requires forall i :: 0 <= i < |a| ==> Safe(a[i])
    requires forall i :: 0 <= i < |b| ==> Safe(b[i])
    ensures forall i :: 0 <= i < |a + " " + b| ==> Kept((a + " " + b)[i])
  {
    var t := a + " " + b;
    forall i | 0 <= i < |t| ensures Kept(t[i]) {
      if i < |a| { assert t[i] == a[i]; } else if i > |a| { assert t[i] == b[i - |a| - 1]; }
    }
  }

  lemma WordsStripped(a: string, b: string)
    requires |a| > 0 && |b| > 0 && Safe(a[0]) && Safe(b[|b| - 1])
    ensures Strip(a + " " + b) == a + " " + b
  {
    var t := a + " " + b;
    SafeNotSpace(a[0]);
    SafeNotSpace(b[|b| - 1]);
    assert t[0] == a[0] && t[|t| - 1] == b[|b| - 1];
    StripUnchanged(t);
  }

  lemma WordsReplaced(a: string, b: string)
    requires forall i :: 0 <= i < |a| ==> Safe(a[i])
    requires forall i :: 0 <= i < |b| ==> Safe(b[i])
    ensures ReplaceChar(a + " " + b, ' ', '_') == a + "_" + b
  {
    var t := a + " " + b;
    var r := ReplaceChar(t, ' ', '_');
    var w := a + "_" + b;
    forall i | 0 <= i < |r| ensures r[i] == w[i] {
      if i < |a| { assert t[i] == a[i] && w[i] == a[i]; }
      else if i > |a| { assert t[i] == b[i - |a| - 1] && w[i] == b[i - |a| - 1]; }
    }
  }

  /** A label made of safe characters only is left as it is. */
  lemma SafeLabelKeepsSafe(text: string)
    requires forall i :: 0 <= i < |text| ==> Safe(text[i])
    ensures SafeLabel(text) == text
  {
    KeepCharsAllKept(text);
    if |text| > 0 {
      StripUnchanged(text);
    }
    ReplaceAbsent(text, ' ', '_');
  }

  /** Sanitising twice is sanitising once. */
  lemma SafeLabelIdempotent(text: string)
    ensures SafeLabel(SafeLabel(text)) == SafeLabel(text)
  {
    SafeLabelKeepsSafe(SafeLabel(text));
  }

  /** A float written with two decimals (`:.2f`). */
  function TwoPlaces(x: real): string {
    Timecode.Fixed(x, 2)
  }

  /** The part every name starts with: the video's stem and the index padded
      to three digits. */
  function NamePrefix(videoPath: string, index: nat): string {
    Paths.Stem(Paths.Name(videoPath)) + "_" + ZeroPad(index, 3) + "_"
  }

  /** The part every name ends with: the times and the video's suffix. */
  function NameTail(videoPath: string, start: real, end: real): (r: string)
    ensures EndsWith(r, Paths.Suffix(Paths.Name(videoPath)))
  {
    var t := TwoPlaces(start) + "_to_" + TwoPlaces(end);
    var x := Paths.Suffix(Paths.Name(videoPath));
    assert (t + x)[|t + x| - |x|..] == x;
    t + x
  }

  /** Text ending with `x` still ends with it after anything is put in
      front. */
  lemma EndsWithAppend(a: string, b: string, x: string)
    requires EndsWith(b, x)
    ensures EndsWith(a + b, x)
  {
    assert (a + b)[|a + b| - |x|..] == b[|b| - |x|..];
  }

  /** The name from its prefix, the label and its tail: a missing or empty
      label adds nothing. */
  function Assemble(prefix: string, caption: Option<string>, tail: string): (r: string)
    ensures StartsWith(r, prefix)
    ensures forall x :: EndsWith(tail, x) ==> EndsWith(r, x)
  {
    var middle := LabelText(caption);
    forall x | EndsWith(tail, x) ensures EndsWith(prefix + middle + tail, x) {
      EndsWithAppend(prefix + middle, tail, x);
    }
    assert (prefix + middle + tail)[..|prefix|] == prefix;
    prefix + middle + tail
  }

  /** The label's part of the name: the sanitised label and `_`, or
      nothing for a missing or empty label. */
  function LabelText(caption: Option<string>): string {
    if caption.Some? && caption.value != "" then SafeLabel(caption.value) + "_" else ""
  }

  lemma AppendGrouping(a: string, b: string, c: string, d: string)
    ensures a + (b + c) + d == a + b + c + d
  {
  }

  lemma AssembleParts(prefix: string, text: string, tail: string)
    ensures Assemble(prefix, None, tail) == prefix + tail
    ensures Assemble(prefix, Some(""), tail) == prefix + tail
    ensures text != "" ==> Assemble(prefix, Some(text), tail) == prefix + SafeLabel(text) + "_" + tail
  {
    assert LabelText(None) == "" && LabelText(Some("")) == "";
    assert prefix + "" + tail == prefix + tail;
    if text != "" {
      assert LabelText(Some(text)) == SafeLabel(text) + "_";
      AppendGrouping(prefix, SafeLabel(text), "_", tail);
    }
  }

  /** `generate_output_filename`. */
  function OutputFilename(videoPath: string, start: real, end: real, caption: Option<string>, index: nat): (r: string)
    ensures StartsWith(r, NamePrefix(videoPath, index))
    ensures EndsWith(r, Paths.Suffix(Paths.Name(videoPath)))
  {
    Assemble(NamePrefix(videoPath, index), caption, NameTail(videoPath, start, end))
  }

  /** The index field is the index written with at least three digits. */
  lemma IndexFieldReads(index: nat)
    ensures AllDigits(ZeroPad(index, 3)) && DigitsValue(ZeroPad(index, 3)) == index
    ensures index < 1000 ==> |ZeroPad(index, 3)| == 3
  {
    if index < 1000 {
      DigitsBelow(index);
    }
  }

  lemma {:induction false} DigitsBelow(n: nat)
    requires n < 1000
    ensures |Digits(n)| <= 3
  {
    if n >= 10 {
      DigitsBelow(n / 10);
    }
  }

  /** Without a label the name is the prefix followed by the times. */
  lemma NoLabelPart(videoPath: string, start: real, end: real, index: nat)
    ensures OutputFilename(videoPath, start, end, None, index) == NamePrefix(videoPath, index) + NameTail(videoPath, start, end)
  {
    AssembleParts(NamePrefix(videoPath, index), "", NameTail(videoPath, start, end));
  }

  /** An empty label is no label. */
  lemma EmptyLabelIsNoLabel(videoPath: string, start: real, end: real, index: nat)
    ensures OutputFilename(videoPath, start, end, Some(""), index) == OutputFilename(videoPath, start, end, None, index)
  {
    AssembleParts(NamePrefix(videoPath, index), "", NameTail(videoPath, start, end));
  }

  /** A label inserts its sanitised text and one `_` between the prefix and
      the times. */
  lemma LabelPart(videoPath: string, start: real, end: real, text: string, index: nat)
    requires text != ""
    ensures OutputFilename(videoPath, start, end, Some(text), index)
      == NamePrefix(videoPath, index) + SafeLabel(text) + "_" + NameTail(videoPath, start, end)
  {
    AssembleParts(NamePrefix(videoPath, index), text, NameTail(videoPath, start, end));
  }
}

=== FILE: wrappers.dfy ===
/** Option and Result datatypes used for the service's absent values and
    raised exceptions. */
module Wrappers {

  /** A value that may be absent (Python `None`, or a key missing from a dict). */
  datatype Option<+T> = None | Some(value: T) {

    /** The wrapped value, or `default` when absent (Python `d.get(k, default)`). */
    function GetOr(default: T): T {
      match this
      case Some(v) => v
      case None => default
    }
  }

  /** The outcome of a computation that may raise: `Failure` carries the
      exception text. */
  datatype Result<+R> = Success(value: R) | Failure(error: string) {

    predicate IsFailure() {
      Failure?
    }

    function PropagateFailure<U>(): Result<U>
      requires Failure?
    {
      Failure(error)
    }

    function Extract(): R
      requires Success?
    {
      value
    }
  }
}
